=== FILE: README.md ===
# LearnKoreanQuest compliance dashboard — a Dafny model of its record logic

LearnKoreanQuest (ComplianceGuard) is a compliance dashboard. It reads a
spreadsheet of Korean laws and regulations, one row per regulation, and
serves those rows in several ways:

- filtered lists, per-department cards and statistics on the web pages;
- the same data over a small REST API;
- monthly mails sent per department;
- a crawler that categorises newly announced laws;
- two maintenance scripts that check the sheet.

Every part of the program works on one flat record, the spreadsheet row. The
program's record type declares its fields as strings, and the model takes
them so: 번호, 법률명, 법령종류, 담당부서, 시행일자,
제정·개정구분, the AI summary (AI 주요 개정 정리) and the AI follow-up
(AI 후속 조치 사항).

This project models that record logic as immutable datatypes and pure
functions over `seq`, and proves what each operation promises. It covers:

- **Loading and querying.** The loader's row filter and five-minute cache,
  and the case-insensitive filters, search and distinct-value lists
  (`ExcelService`).
- **API endpoints.** The list, detail, statistics and monthly/yearly
  endpoints, and the upload conversion (`Routes`).
- **Web pages.**
  - The department cards: counts, rounded percentage, stable priority
    ordering and colour bands (`DepartmentStats`, `Dashboard`).
  - The regulations, analysis and admin pages, including the CSV export
    (`RegulationsPage`, `AnalysisPage`, `AdminPage`).
  - The colour and label lookup tables (`Lookup`).
- **Maintenance scripts.** `CheckDepartments` and `CheckExcelData`.
- **Crawler.** The keyword categoriser, the date parser and the
  department-impact selection (`Keywords`, `LawSync`).
- **Mail.**
  - The credential check, HTML-to-text flattening, send outcomes and log
    entries of the current and the old mail service (`Email`, `EmailOld`).
  - The schedulers' trigger, grouping and mailing loops (`Scheduler`).
- **AI post-processing and server start-up.** The defaults and clamping
  applied to AI replies (`OpenAi`), and the request log, error handler and
  port retry of the server (`ServerIndex`).

General modules:

- `Wrappers`: `Option` and `Result`.
- `Seqs`: filter, count, map, dedup, stable sort.
- `Text`: JavaScript white space, trim, contains, split/join, number printing.
- `LexOrder`: string order and sort.
- `Records`: the row datatype and the `2025-MM` date rules.

**Conventions.**

- **Missing cells.** An absent cell is the empty string. The sheet reader
  omits empty cells, so a test like `x?.includes(t)` fails on an absent
  cell, and the model writes that as `x != "" && …`.
- **Effects as parameters.** The sheet, the mail transport, the AI replies
  and the clock come in as parameters:
  - a `Result` for an operation that can fail;
  - a send outcome for the transport;
  - a month number or a predicate for date comparisons.
- **Selections.** Where the program filters a list, the contract says the
  result is a *selection* of the input (`Seqs.Selects`): a subsequence that
  holds every element passing the test exactly as often as the input does,
  and no other element. `Seqs.SelectsUnique` proves that only the filter's
  own result is such a selection, and `Seqs.SelectsCount` that its length
  is the number of passing elements.

## Model

| member | source | states |
|---|---|---|
| ExcelService.LoadData | LearnKoreanQuest/server/excelService.ts:45-75 | A non-empty cache within 5 minutes is served as is. Otherwise the rows passing the row filter (번호 and 법률명 present, 번호 not the header label) are served in sheet order, each as often as the sheet holds it (a selection of the sheet with exactly as many rows as pass), and cached with the load time. A read failure fails the load and leaves the cache untouched. |
| ExcelService.LoadServedFromCache | LearnKoreanQuest/server/excelService.ts:34-52 | Within 300000 ms of a load that kept rows, a second load returns the same rows whatever the sheet now holds. |
| ExcelService.LoadFailureKeepsCache | LearnKoreanQuest/server/excelService.ts:68-75 | A failed read neither updates the load time nor the data, and reports the load error. |
| ExcelService.ByDepartment | LearnKoreanQuest/server/excelService.ts:82-87 | Exactly the rows whose non-empty department contains the lower-cased query, as a selection: in sheet order, each kept row as often as the input holds it, so its length is the filter's count. |
| ExcelService.ByType | LearnKoreanQuest/server/excelService.ts:89-94 | Exactly the rows whose non-empty law type contains the lower-cased query, as a selection: in sheet order, each kept row as often as the input holds it, so its length is the filter's count. |
| ExcelService.RowsMatching | LearnKoreanQuest/server/excelService.ts:82-94 | The shared filter of both lookups: the rows whose field contains the query, ignoring case, as a selection: in sheet order, each kept row as often as the input holds it, so its length is the filter's count. |
| ExcelService.ByDepartmentEmptyQuery | LearnKoreanQuest/server/excelService.ts:82-87 | The empty query keeps exactly the rows that have a department. |
| ExcelService.ById | LearnKoreanQuest/server/excelService.ts:96-99 | The first row whose 번호 equals the id, and nothing exactly when no row has it. |
| ExcelService.Search | LearnKoreanQuest/server/excelService.ts:101-112 | A row is returned iff one of the five searched fields contains the lower-cased term, as a selection: in sheet order, each kept row as often as the input holds it, so its length is the filter's count. |
| ExcelService.SearchCoversDepartment | LearnKoreanQuest/server/excelService.ts:101-112 | Everything the department filter finds, the search finds too. |
| ExcelService.Departments | LearnKoreanQuest/server/excelService.ts:114-125 | Strictly sorted (so duplicate-free), and holding exactly the department values that are neither empty nor "None". |
| ExcelService.RegulationTypes | LearnKoreanQuest/server/excelService.ts:127-138 | Strictly sorted, and holding exactly the law types that are neither empty nor "None". |
| ExcelService.DistinctSorted | LearnKoreanQuest/server/excelService.ts:119-124 | `Array.from(new Set(v)).sort()` is strictly sorted and has the same members as `v`. |
| Records.Month2025 | LearnKoreanQuest/client/src/pages/departments.tsx:58-61 | The value of the two digits after the leftmost `2025-` that is followed by two digits; nothing exactly when no such match exists. |
| Records.Month2025Prefix | LearnKoreanQuest/client/src/pages/departments.tsx:58-61 | A date `2025-MM…` yields month MM. |
| Records.MonthImpliesYear | LearnKoreanQuest/client/src/pages/departments.tsx:56-59 | A `2025-MM` match implies the date contains 2025, so the separate year test never rejects a matched date. |
| Records.InMonthWithoutYearTest | LearnKoreanQuest/client/src/pages/departments.tsx:54-63 | A row is in the current month iff its date has a value and its `2025-MM` month equals the current month. |
| DepartmentStats.DeptRows | LearnKoreanQuest/client/src/pages/departments.tsx:41 | A department's rows are exactly those whose 담당부서 equals the name, as a selection: in sheet order, each kept row as often as the input holds it, so its length is the filter's count. |
| DepartmentStats.DeptNames | LearnKoreanQuest/client/src/pages/departments.tsx:39 | Duplicate-free, holding exactly the department values that are neither empty nor "None", ordered by first occurrence in the 담당부서 column (the order of `Array.from(new Set(...))`). |
| DepartmentStats.Percentage | LearnKoreanQuest/client/src/pages/departments.tsx:93-94 | 0 when nothing is yearly. Otherwise the nearest whole percentage of done/of, with halves rounded up. Never above 100 when done ≤ of. |
| DepartmentStats.StatOf | LearnKoreanQuest/client/src/pages/departments.tsx:41-95 | Each figure is the number of the department's rows passing the page's filter: all of them, the 2025 rows, this month's, those before this month, the analysed ones, and the analysed ones naming an action. The progress is `Math.round(completed / yearly × 100)`, 0 without 2025 rows. So current-month + completed ≤ yearly ≤ total, completedAnalysis ≤ analysed ≤ total, and the progress is in [0,100]. |
| DepartmentStats.StatOfOverSheet | LearnKoreanQuest/client/src/pages/departments.tsx:41-95 | Read over the whole sheet, each figure counts the rows that name the department and pass its test. |
| DepartmentStats.ProgressEnds | LearnKoreanQuest/client/src/pages/departments.tsx:92-93 | The progress is 0 without 2025 rows and 100 when every 2025 row falls before this month. |
| DepartmentStats.ComputeStat | LearnKoreanQuest/client/src/pages/departments.tsx:41-95 | Counting loops over the department's rows compute exactly the card `StatOf` specifies, with the zero-guarded rounded progress. |
| DepartmentStats.UnsortedStats | LearnKoreanQuest/client/src/pages/departments.tsx:38-96 | Card i is the card of the i-th department name, so one card per distinct department, in first-occurrence order. |
| DepartmentStats.SortedCards | LearnKoreanQuest/client/src/pages/departments.tsx:38-98 | Cards in descending total order, one per named department, each the card of its own name. For every total, the cards with that total appear in the unsorted (first-occurrence) order, because the sort is stable. |
| DepartmentStats.TotalsCoverRows | LearnKoreanQuest/client/src/pages/departments.tsx:39-41 | The card totals add up to the number of rows that name a department. |
| DepartmentStats.SumDeptCountsPartition | LearnKoreanQuest/client/src/pages/departments.tsx:41 | Distinct department names split the rows of those departments. |
| DepartmentStats.IndexOf | LearnKoreanQuest/client/src/pages/departments.tsx:194-195 | `indexOf` gives the position in the four-name list, and -1 exactly for names not in it. |
| DepartmentStats.PriorityRank | LearnKoreanQuest/client/src/pages/departments.tsx:188-201 | The rank is the list position of a priority department, and 4 exactly for other names. |
| DepartmentStats.PriorityCompareIsRank | LearnKoreanQuest/client/src/pages/departments.tsx:191-201 | The comparator is negative, zero or positive exactly as the ranks compare. |
| DepartmentStats.PrioritySort | LearnKoreanQuest/client/src/pages/departments.tsx:191-201 | A permutation of the cards, ordered by rank. |
| DepartmentStats.PrioritySortByClass | LearnKoreanQuest/client/src/pages/departments.tsx:191-201 | The sorted cards are each rank's cards in turn, every rank keeping its prior relative order. |
| DepartmentStats.DisplayDepts | LearnKoreanQuest/client/src/pages/departments.tsx:204 | All cards, or the first min(4, n) of them when collapsed. |
| DepartmentStats.CollapsedViewShowsMainDepartments | LearnKoreanQuest/client/src/pages/departments.tsx:188-204 | When all four priority departments have cards, the collapsed view shows exactly those four in list order. |
| DepartmentStats.MainDepartmentsLead | LearnKoreanQuest/client/src/pages/departments.tsx:188-201 | The first four sorted cards have ranks 0, 1, 2, 3. |
| DepartmentStats.Band | LearnKoreanQuest/client/src/pages/departments.tsx:224-226 | Band 2 iff ≥ 80, band 0 iff < 60, and band 1 otherwise. |
| DepartmentStats.BandMonotone | LearnKoreanQuest/client/src/pages/departments.tsx:224-226 | A higher percentage never falls into a lower band. |
| DepartmentStats.CircleColor | LearnKoreanQuest/client/src/pages/dashboard.tsx:350-354 | Each of the three circle colours is chosen exactly in its band. |
| DepartmentStats.BarClass | LearnKoreanQuest/client/src/pages/departments.tsx:343-345 | Each of the three bar classes is chosen exactly in its band. |
| Dashboard.ShownCards | LearnKoreanQuest/client/src/pages/dashboard.tsx:315-331 | The first min(4, n) cards of the priority order when collapsed, and the whole priority order otherwise. Every shown card is a department card, ordered by priority rank. |
| Dashboard.DialogRegulations | LearnKoreanQuest/client/src/pages/dashboard.tsx:117-118 | Empty until rows are loaded and a department is selected. After that, the selected department's rows, as `DeptRows` selects them (in order, with multiplicity). |
| Dashboard.DialogYearly | LearnKoreanQuest/client/src/pages/dashboard.tsx:136-139 | The dialog rows whose date has a value and mentions 2025, as a selection: in sheet order, each kept row as often as the input holds it, so its length is the filter's count. |
| Dashboard.DialogCurrentMonth | LearnKoreanQuest/client/src/pages/dashboard.tsx:124-133 | The dialog rows in the current month of 2025, as a selection: in sheet order, each kept row as often as the input holds it, so its length is the filter's count. |
| Dashboard.DialogMonthWithinYear | LearnKoreanQuest/client/src/pages/dashboard.tsx:124-139 | The current-month list is the yearly list filtered by the month, so it is a subset of it. |
| Dashboard.DialogMatchesCard | LearnKoreanQuest/client/src/pages/dashboard.tsx:117-139 | A department's dialog lists as many rows, yearly rows and current-month rows as its card counts. |
| Dashboard.Head | LearnKoreanQuest/client/src/pages/dashboard.tsx:109 | `list?.slice(0, n) \|\| []`: the first min(n, length) items, and nothing before the list arrives. |
| Dashboard.RecentNotifications | LearnKoreanQuest/client/src/pages/dashboard.tsx:109 | At most 5 notifications, a prefix of the list. |
| Dashboard.ListedAmendments | LearnKoreanQuest/client/src/pages/dashboard.tsx:462 | At most 10 amendments, a prefix of the list, and the whole list when it is short. |
| Lookup.DepartmentColor | LearnKoreanQuest/client/src/pages/departments.tsx:100-112 | Grey exactly for the names outside the eight known departments. |
| Lookup.DepartmentColorsDistinct | LearnKoreanQuest/client/src/pages/admin.tsx:190-202 | Each known department has a colour no other name shares. |
| Lookup.DisplayName | LearnKoreanQuest/client/src/pages/departments.tsx:114-126 | Every name is displayed as itself, known or not. |
| Lookup.CodeColor | LearnKoreanQuest/client/src/lib/utils.ts:26-37 | Grey exactly for the codes other than HR, SAFETY, ENV, IT, LEGAL, FINANCE and OPERATIONS. |
| Lookup.CodeColorsDistinct | LearnKoreanQuest/client/src/lib/utils.ts:26-37 | The seven codes have pairwise distinct classes. |
| Lookup.StatusColor | LearnKoreanQuest/client/src/lib/utils.ts:41-49 | The neutral class exactly for statuses other than 완료, 분석중, 대기중 and 오류. |
| Lookup.StatusColorsDistinct | LearnKoreanQuest/client/src/lib/utils.ts:41-49 | The four statuses have pairwise distinct classes. |
| Lookup.PriorityColor | LearnKoreanQuest/client/src/lib/utils.ts:51-59 | The neutral class exactly for priorities other than the four; solid red exactly for 긴급. |
| Lookup.PriorityColorsDistinct | LearnKoreanQuest/client/src/lib/utils.ts:51-59 | The four priorities have pairwise distinct classes. |
| Routes.ListRegulations | LearnKoreanQuest/server/routes.ts:27-47 | A load failure gives 500. Otherwise exactly one filter applies, in the order search, then department, then type, then none; each filtered answer is a selection: in sheet order, each kept row as often as the input holds it, so its length is the filter's count. |
| Routes.SearchOverridesFilters | LearnKoreanQuest/server/routes.ts:29-40 | With a search term, the department and type parameters do not change the answer. |
| Routes.RegulationDetail | LearnKoreanQuest/server/routes.ts:49-60 | 500 on a load failure, and 404 iff no row has the requested 번호. Otherwise the row with that 번호. |
| Routes.Stats | LearnKoreanQuest/server/routes.ts:83-107 | The total is the row count and the department count is the distinct-department list's length. Risk items and yearly amendments are the counts of their rules, each at most the total. |
| Routes.RiskItemsPartition | LearnKoreanQuest/server/routes.ts:89-101 | Risk items, rows without follow-up and rows with the no-action text add up to the row count. |
| Routes.MonthlyAmendmentsAsWritten | LearnKoreanQuest/server/routes.ts:123-141 | A failed load, and only that, answers 500 with 한달 이내 개정 법규 현황을 가져오는 중 오류가 발생했습니다. Otherwise the amendments are the projections, in sheet order and one per row, of exactly the rows whose date contains both 2025 and -06; as many as such rows. |
| Routes.JuneAsWrittenAcceptsJanuary | LearnKoreanQuest/server/routes.ts:127-131 | The date "2025-01-06" passes the June test although its month is January. |
| Routes.MonthlyAmendments | LearnKoreanQuest/server/routes.ts:123-141 | Corrected: the same 500 answer exactly on a failed load; otherwise the projections, in sheet order and one per row, of exactly the rows whose `2025-MM` month is 6; as many as such rows. |
| Routes.JuneCorrectedWithinAsWritten | LearnKoreanQuest/server/routes.ts:127-131 | Every row the corrected test keeps, the written test keeps too. |
| Routes.Yearly | LearnKoreanQuest/server/routes.ts:144-167 | Year 2025. The amendments are the yearly rows projected, in sheet order and one per row, and totalCount is the length of that list. |
| Routes.YearlyCountMatchesStats | LearnKoreanQuest/server/routes.ts:89-101 | The yearly list's count equals the statistics endpoint's yearly count. |
| Routes.DepartmentCategory | LearnKoreanQuest/server/routes.ts:435-444 | First match of 환경/안전, then IT/정보, then 인사/노무, otherwise 기타; one of those four values. |
| Routes.ConvertedRows | LearnKoreanQuest/server/routes.ts:410-419 | Exactly the data rows after the header that have a law name: a selection: in sheet order, each kept row as often as the input holds it, so its length is the filter's count. |
| Routes.Numbered | LearnKoreanQuest/server/routes.ts:446-455 | Row k is converted with id k+1. |
| Routes.ConvertedIds | LearnKoreanQuest/server/routes.ts:448 | The converted rows carry ids 1, 2, 3, … and a non-empty name each. |
| Routes.ProcessExcelData | LearnKoreanQuest/server/routes.ts:406-463 | The loop skips the header and rows without a law name, and numbers the rest consecutively from 1. The effective date is the cell's text (date parsing and the clock fallback are left out). |
| RegulationsPage.Filtered | LearnKoreanQuest/client/src/pages/regulations.tsx:63-74 | Nothing before the rows load. After that, exactly the rows that pass the search, department and type tests, as a selection: in sheet order, each kept row as often as the input holds it, so its length is the filter's count. |
| RegulationsPage.SummaryNotSearched | LearnKoreanQuest/client/src/pages/regulations.tsx:64-68 | The AI summary has no effect on whether a row is listed. |
| RegulationsPage.PageSearchWithinServerSearch | LearnKoreanQuest/client/src/pages/regulations.tsx:63-74 | Every row the page lists, the server's search returns as well. |
| Records.UniqueNamed | LearnKoreanQuest/client/src/pages/regulations.tsx:77-78 | Distinct named values, exactly those present, ordered by their first occurrence (not sorted). |
| RegulationsPage.UniqueDepartments | LearnKoreanQuest/client/src/pages/regulations.tsx:77 | Duplicate-free, holding exactly the named departments of the loaded rows. |
| RegulationsPage.UniqueTypes | LearnKoreanQuest/client/src/pages/regulations.tsx:78 | Duplicate-free, holding exactly the named law types of the loaded rows. |
| RegulationsPage.TypeStatistics | LearnKoreanQuest/client/src/pages/regulations.tsx:81-91 | All zero before the rows load. The total is the row count; 법률 and 대통령령 are the counts of rows whose type equals them, and 시행규칙 the count of rows whose type contains 규칙 or whose name contains 시행규칙 or ends in 규칙. |
| RegulationsPage.TypeCountsMatchTypeFilter | LearnKoreanQuest/client/src/pages/regulations.tsx:63-91 | With every row named, the 법률 and 대통령령 counts equal the lengths of the page's list filtered by that type. |
| RegulationsPage.RuleTestReduces | LearnKoreanQuest/client/src/pages/regulations.tsx:85-90 | The 시행규칙 type test is subsumed by the 규칙 type test. |
| RegulationsPage.FormatKoreanDate | LearnKoreanQuest/client/src/pages/regulations.tsx:93-97 | "-" for an empty or "None" date, a dotted date unchanged, and any other date in locale format. |
| RegulationsPage.FormatStable | LearnKoreanQuest/client/src/pages/regulations.tsx:93-97 | Formatting a dotted result again changes nothing. |
| AnalysisPage.Analyzed | LearnKoreanQuest/client/src/pages/analysis.tsx:38-40 | Exactly the rows whose AI summary is non-empty and not the placeholder, as a selection: in sheet order, each kept row as often as the input holds it, so its length is the filter's count. |
| AnalysisPage.FilteredAnalyses | LearnKoreanQuest/client/src/pages/analysis.tsx:43-60 | The analysed rows that pass the search, department and status tests together, as a selection: in sheet order, each kept row as often as the input holds it, so its length is the filter's count. |
| AnalysisPage.StatusChoicesSplit | LearnKoreanQuest/client/src/pages/analysis.tsx:50-57 | The completed and pending choices split what `all` lists. |
| AnalysisPage.AnalysisDepartments | LearnKoreanQuest/client/src/pages/analysis.tsx:63 | Duplicate-free, holding exactly the named departments of the analysed rows. |
| AnalysisPage.Stats | LearnKoreanQuest/client/src/pages/analysis.tsx:66-71 | The total is the analysed count; completed, pending and highPriority are the counts of analysed rows that need action, do not, and are 일부개정; completed + pending = total. |
| AnalysisPage.AnalysisStatus | LearnKoreanQuest/client/src/pages/analysis.tsx:73-78 | '검토 필요' iff the follow-up is the no-action text, '분석 완료' otherwise. |
| AnalysisPage.StatusLabelMatchesFilter | LearnKoreanQuest/client/src/pages/analysis.tsx:50-78 | The label reads '분석 완료' exactly when the completed choice keeps the row, and '검토 필요' exactly when the pending choice keeps it. |
| AdminPage.AdminStatistics | LearnKoreanQuest/client/src/pages/admin.tsx:67-89 | All zero before the rows load. After that, the row count, the analysed, pending and distinct-department counts, each bounded by the total. |
| AdminPage.DistinctDepartmentsBound | LearnKoreanQuest/client/src/pages/admin.tsx:75 | There are no more distinct departments than rows. |
| AdminPage.Quoted | LearnKoreanQuest/client/src/pages/admin.tsx:165 | The name between double quotes, not escaped. |
| AdminPage.ExportData | LearnKoreanQuest/client/src/pages/admin.tsx:156-171 | Nothing when the rows are not loaded, the CSV otherwise. |
| AdminPage.CsvLines | LearnKoreanQuest/client/src/pages/admin.tsx:160-171 | The CSV splits into the header line followed by exactly one line per row, in order. |
| AdminPage.CsvLineCells | LearnKoreanQuest/client/src/pages/admin.tsx:163-170 | A plain row's line splits back into its six cells. |
| CheckDepartments.CountedIsTrimTest | LearnKoreanQuest/check-departments.ts:24-25 | A name is counted iff it is truthy, not "None", and does not trim to nothing. |
| CheckDepartments.AllDepartments | LearnKoreanQuest/check-departments.ts:23-32 | Strictly sorted, holding exactly the counted department names. |
| CheckDepartments.ListedCounted | LearnKoreanQuest/check-departments.ts:23-29 | Every listed department has a count of at least 1. |
| CheckDepartments.CountsCoverRows | LearnKoreanQuest/check-departments.ts:23-29 | The counts add up to the number of rows whose department is counted. |
| CheckDepartments.CountedWithinServer | LearnKoreanQuest/check-departments.ts:24-32 | The script's list is the server's list without its white-space-only names. |
| CheckDepartments.MissingInAdmin | LearnKoreanQuest/check-departments.ts:65 | The listed departments outside the eight admin names, in order. |
| CheckDepartments.MissingInExcel | LearnKoreanQuest/check-departments.ts:80 | The admin names the list lacks, in admin order. |
| CheckDepartments.ReportsEmptyIffSameSet | LearnKoreanQuest/check-departments.ts:65-90 | Both reports are empty iff the sheet lists exactly the eight admin departments. |
| CheckDepartments.Entries | LearnKoreanQuest/check-departments.ts:21-28 | One entry per listed department, with its count, and no department twice; entries are ordered by the row where each department was first counted, the insertion order `Object.entries` (line 94) keeps. |
| CheckDepartments.TopDepartments | LearnKoreanQuest/check-departments.ts:94-96 | min(10, n) entries with distinct departments, counts descending, each with its correct count. For every count, the entries kept are the first entries of that count in `Object.entries` order, because the sort is stable. |
| CheckDepartments.TopIsTop | LearnKoreanQuest/check-departments.ts:94-96 | A department left out of the ten has no more rows than any listed one. |
| CheckExcelData.JuneDateShort | LearnKoreanQuest/check-excel-data.js:30-37 | The 2025.06 test is redundant next to the 25.06 test. |
| CheckExcelData.JuneRegulations | LearnKoreanQuest/check-excel-data.js:30-37 | Exactly the kept rows whose date passes the June test, as a selection: in sheet order, each kept row as often as the input holds it, so its length is the filter's count. |
| CheckExcelData.GroupNames | LearnKoreanQuest/check-excel-data.js:54-61 | Duplicate-free, exactly the group keys of the June rows ('Unknown' for a missing department), ordered by first occurrence among the June rows. |
| CheckExcelData.DepartmentGroups | LearnKoreanQuest/check-excel-data.js:54-61 | One group per key, holding exactly that key's June rows. |
| CheckExcelData.GroupMembers | LearnKoreanQuest/check-excel-data.js:54-61 | A group's members are the June rows of its key. |
| CheckExcelData.GroupsPartition | LearnKoreanQuest/check-excel-data.js:54-61 | The group sizes add up to the June count. |
| CheckExcelData.TallyField | LearnKoreanQuest/check-excel-data.js:78-95 | Each tally counts its class (empty, None/none, valid), and the three sum to the June count. |
| CheckExcelData.ValidHasValue | LearnKoreanQuest/check-excel-data.js:82-91 | A field the script finds valid also has a value for the pages. |
| CheckExcelData.AccountingRegulations | LearnKoreanQuest/check-excel-data.js:119-121 | The June rows whose department contains 회계세무, as a selection: in sheet order, each kept row as often as the input holds it, so its length is the filter's count. |
| CheckExcelData.AccountingGroupWithin | LearnKoreanQuest/check-excel-data.js:54-61 | The 회계세무그룹 group lies within the 회계세무 subset. |
| CheckExcelData.CheckExcelData | LearnKoreanQuest/check-excel-data.js:23-121 | The script's row filter is the loader's `ExcelService.KeepRow`. Without June rows, the first ten samples. Otherwise the June rows, the groups and the accounting subset; each field tally holds the counts of empty, None/none and valid cells of the June rows. |
| Keywords.FirstRule | LearnKoreanQuest/server/law-sync.ts:235-239 | The first rule whose keywords the text mentions, and nothing iff no rule matches. |
| Keywords.Classify | LearnKoreanQuest/server/law-sync.ts:235-241 | The category of the first matching rule, or the fallback when none matches. |
| Keywords.ClassifiedNoLaterThan | LearnKoreanQuest/server/law-sync.ts:235-239 | A text with a keyword of rule i is classified by rule i or an earlier one. |
| Keywords.UnmatchedGetsFallback | LearnKoreanQuest/server/law-sync.ts:241 | A text with no keyword gets the fallback. |
| LawSync.Categorize | LearnKoreanQuest/server/law-sync.ts:221-242 | The category of the first rule, in the listed order, one of whose keywords the title contains; 기타법령 when no keyword occurs. |
| LawSync.CategoryNamesFirstRule | LearnKoreanQuest/server/law-sync.ts:221-242 | The result is rule i's category exactly when rule i is the first rule whose keyword the title contains, because the ten categories are distinct and differ from 기타법령. |
| LawSync.CategoryOrder | LearnKoreanQuest/server/law-sync.ts:222-239 | Earlier categories win: 보안+안전 gives 정보보호법, a safety act gives 안전법, and 민법 gives 기타법령. |
| LawSync.Collect | LearnKoreanQuest/server/law-sync.ts:144-157 | The regulations are the accepted recent notices, mapped, in page order and one per notice (the page's notices selected by title and recency); so only titles containing 개정, 제정 or 시행 are taken, each with its category, and every accepted recent notice is taken. |
| LawSync.CollectConcat | LearnKoreanQuest/server/law-sync.ts:144-157 | Collecting two pages in turn gives the first page's regulations followed by the second's. |
| LawSync.CapCrawl | LearnKoreanQuest/server/law-sync.ts:74-87 | An empty or failed crawl falls back to the built-in list. Otherwise a non-empty prefix of the crawl: the whole crawl up to 100 items, and exactly its first 100 beyond that. |
| LawSync.CapCrawlIdempotent | LearnKoreanQuest/server/law-sync.ts:74-80 | Capping a capped crawl again changes nothing. |
| LawSync.ParseKoreanDate | LearnKoreanQuest/server/law-sync.ts:244-261 | Nothing for the empty string. Otherwise the first pattern that matches decides, at its leftmost match, and the month is stored minus one. |
| LawSync.FirstMatch | LearnKoreanQuest/server/law-sync.ts:255-262 | The first pattern in order that finds a match, and nothing iff none does. |
| LawSync.FindMatchLeftmost | LearnKoreanQuest/server/law-sync.ts:256 | `match` finds nothing iff the pattern matches at no index, and otherwise the match at the least index. |
| LawSync.Number | LearnKoreanQuest/server/law-sync.ts:250-252 | `(\d{1,2})` reads one or two digits, followed by the required separator. |
| LawSync.DotDateRoundTrip | LearnKoreanQuest/server/law-sync.ts:250 | `YYYY.M.D` reads back as year, month−1, day. |
| LawSync.DashDateRoundTrip | LearnKoreanQuest/server/law-sync.ts:251 | `YYYY-M-D` reads back, because the dot pattern finds no dot. |
| LawSync.KoreanDateRoundTrip | LearnKoreanQuest/server/law-sync.ts:252 | `YYYY년 M월 D일` reads back, because neither earlier pattern matches. |
| LawSync.NoSeparatorNoMatch | LearnKoreanQuest/server/law-sync.ts:249-252 | A pattern cannot match a text without its year separator. |
| LawSync.DepartmentKeywords | LearnKoreanQuest/server/law-sync.ts:530-539 | A non-empty list of non-empty keywords for the five mapped categories, and none for any other. |
| LawSync.AppendMissing | LearnKoreanQuest/server/law-sync.ts:550-555 | Extends the list with the missing ids: the list is a prefix of the result, the members are the union, and no duplicate is created. |
| LawSync.AffectedDepartments | LearnKoreanQuest/server/law-sync.ts:525-559 | An id is affected iff its department's name or code has a mapped keyword, or the category is critical. No duplicates when the ids are distinct. The matched departments' ids come first, one per matched department, in list order; for other than critical categories they are the whole result. |
| Email.EmailShaped | LearnKoreanQuest/server/email.ts:86-87 | The scan accepts exactly what `^[^\s@]+@[^\s@]+\.[^\s@]+$` matches. |
| Email.EmailShapedIsPattern | LearnKoreanQuest/server/email.ts:86 | A split at the first `@` with an inner dot in the domain is equivalent to the pattern. |
| Email.Password | LearnKoreanQuest/server/email.ts:81 | The password holds no white space. |
| Email.ValidCredentials | LearnKoreanQuest/server/email.ts:79-93 | Valid iff the trimmed user matches the address pattern and the password has at least 8 non-space characters. |
| Email.PassTakesPrecedence | LearnKoreanQuest/server/email.ts:81 | GMAIL_PASS is used when set, GMAIL_APP_PASSWORD otherwise. |
| Email.StripTags | LearnKoreanQuest/server/email.ts:169 | Only characters of the input remain, and no `<` is followed by a `>`. |
| Email.StripTagsPlain | LearnKoreanQuest/server/email.ts:169 | Text without `<` is unchanged. |
| Email.ReplaceNbsp | LearnKoreanQuest/server/email.ts:170 | Only input characters and spaces remain. |
| Email.ReplaceNbspRemovesAll | LearnKoreanQuest/server/email.ts:170 | No `&nbsp;` is left. |
| Email.ReplaceNbspPlain | LearnKoreanQuest/server/email.ts:170 | Text without `&` is unchanged. |
| Email.CollapseSpaces | LearnKoreanQuest/server/email.ts:171 | Never longer, and starts with white space iff the input does. |
| Email.CollapseIsSingleSpaced | LearnKoreanQuest/server/email.ts:171 | Only single spaces remain. |
| Email.CollapseKeepsText | LearnKoreanQuest/server/email.ts:171 | Every non-space character is kept, in order. |
| Email.CollapseSingleSpaced | LearnKoreanQuest/server/email.ts:171 | Single-spaced text is unchanged. |
| Email.FlattenHtml | LearnKoreanQuest/server/email.ts:168-172 | The flattened text is single-spaced and has no space at either end. |
| Email.FlattenHtmlKeepsText | LearnKoreanQuest/server/email.ts:168-172 | Apart from white space, the flattened text is the body with its tags removed and `&nbsp;` as a space, character for character and in order. |
| Email.FlattenPlain | LearnKoreanQuest/server/email.ts:168-172 | Plain, single-spaced, trimmed text comes out unchanged. |
| Email.BodyText | LearnKoreanQuest/server/email.ts:166-176 | The flattened HTML, else the text, else 내용 없음. |
| Email.ErrorLog | LearnKoreanQuest/server/email.ts:6-51 | The error entry uses the placeholders UNKNOWN, No message and N/A for missing values. It records whether the user is set and the length of GMAIL_PASS without white space. |
| Email.ErrorLogHidesPassword | LearnKoreanQuest/server/email.ts:20-37 | Environments that agree on the GMAIL_PASS length and on whether a user is set log identically. |
| Email.SuccessLog | LearnKoreanQuest/server/email.ts:54-76 | The success entry carries the recipient and subject, with N/A for a missing message id. |
| Email.SendRealEmail | LearnKoreanQuest/server/email.ts:207-251 | True with a success entry iff the transport accepted. Otherwise the transport's error with an SMTP-failure entry. |
| Email.SendEmail | LearnKoreanQuest/server/email.ts:153-205 | Always returns true and always prints the body. It attempts a send iff the credentials are valid. A thrown send is logged twice; invalid credentials log a validation error. |
| Email.SendEmailLogsOutcome | LearnKoreanQuest/server/email.ts:153-251 | Every call logs, and a success entry appears iff the credentials are valid and the mail was accepted. |
| Email.SubjectsDistinguish | LearnKoreanQuest/server/email.ts:256-358 | Each subject template is injective in its varying part. |
| Email.UrgentSubject | LearnKoreanQuest/server/email.ts:256 | `🚨 긴급: …` containing the department. |
| Email.ReminderSubject | LearnKoreanQuest/server/email.ts:330 | `⏰ 법규 시행 알림: …` containing the regulation name. |
| Email.ReportSubject | LearnKoreanQuest/server/email.ts:286 | `📊 …` ending with the department and containing the month. |
| Email.SystemSubject | LearnKoreanQuest/server/email.ts:358 | `🔔 시스템 알림: …` ending with the title. |
| EmailOld.ValidCredentialsOld | LearnKoreanQuest/server_old/email.ts:4-18 | Valid iff the trimmed user matches the address pattern and GMAIL_APP_PASSWORD has exactly 16 non-space characters. |
| EmailOld.OldValidIsValid | LearnKoreanQuest/server_old/email.ts:4-18 | With GMAIL_PASS unset, the old check accepts only what the current one accepts. |
| EmailOld.SendEmailOld | LearnKoreanQuest/server_old/email.ts:69-118 | Invalid credentials take the demo path and return true without a transport. Valid ones return true iff the exchange succeeds. |
| EmailOld.FailedSendDiffers | LearnKoreanQuest/server_old/email.ts:114-117 | On a failed exchange the old service returns false where the current one returns true. |
| OpenAi.OrElse | LearnKoreanQuest/server_old/openai.ts:84-88 | `v \|\| d` is v when truthy and d otherwise. |
| OpenAi.WithAnalysisDefaults | LearnKoreanQuest/server_old/openai.ts:83-93 | Every falsy field becomes its default (findings 분석 중 오류가 발생했습니다., recommendations 수동 검토가 필요합니다., compliance 0 becomes 50, riskLevel 중위험, the three-list actions). Every truthy field is kept. |
| OpenAi.AnalysisDefaultsIdempotent | LearnKoreanQuest/server_old/openai.ts:83-93 | Applying the defaults twice changes nothing more. |
| OpenAi.AnalyzeRegulationCompliance | LearnKoreanQuest/server_old/openai.ts:83-97 | The reply with defaults, or the error `AI 분석 실패: ` followed by the cause's message. |
| OpenAi.Rethrown | LearnKoreanQuest/server_old/openai.ts:97 | The function's prefix followed by the cause's message, or by 알 수 없는 오류 when the thrown value has none. |
| OpenAi.Clamp | LearnKoreanQuest/server_old/openai.ts:153 | In [0,100], and the identity inside that range. |
| OpenAi.ClampMonotone | LearnKoreanQuest/server_old/openai.ts:153 | Clamping preserves order. |
| OpenAi.ComplianceScore | LearnKoreanQuest/server_old/openai.ts:152-154 | A number is clamped; anything else scores 50. |
| OpenAi.AnalyzeDocument | LearnKoreanQuest/server_old/openai.ts:149-159 | Findings are the reply's or 문서 분석 중 오류가 발생했습니다., recommendations the reply's or 수동 검토가 필요합니다., and the score is the clamped number or 50. An error is `문서 분석 실패: ` and the cause. |
| OpenAi.ScoreInRangeKept | LearnKoreanQuest/server_old/openai.ts:152-154 | A score already in range passes through unchanged. |
| OpenAi.Summary | LearnKoreanQuest/server_old/openai.ts:196-200 | The trimmed reply when non-blank, else 요약 생성에 실패했습니다. An error is `법규 요약 실패: ` and the cause. |
| OpenAi.SummaryStable | LearnKoreanQuest/server_old/openai.ts:196-200 | A summary handed back as the answer comes out unchanged. |
| OpenAi.SummaryOfPaddedAnswer | LearnKoreanQuest/server_old/openai.ts:196-200 | An answer padded with white space gives the answer itself. |
| OpenAi.MonthlySplit | LearnKoreanQuest/server_old/openai.ts:213-214 | Completed and incomplete sum to 100. Completed is min(100, ⌊1.1·compliance⌋). |
| OpenAi.MonthlySplitMonotone | LearnKoreanQuest/server_old/openai.ts:213 | A higher compliance never completes less. |
| OpenAi.ListOr | LearnKoreanQuest/server_old/openai.ts:333-334 | An array is kept as is; anything else becomes the one-item default. |
| OpenAi.MonthlyInsights | LearnKoreanQuest/server_old/openai.ts:331-340 | The summary is the reply's or 월간 분석 요약을 생성할 수 없습니다., the trend analysis the reply's or 동향 분석 데이터가 부족합니다.; lists are kept only when they are arrays, else the one-item defaults. An error is `월간 인사이트 생성 실패: ` and the cause. |
| OpenAi.MonthlyInsightsStable | LearnKoreanQuest/server_old/openai.ts:331-340 | The insights handed back as the reply come out unchanged: the defaults leave nothing to fill. |
| OpenAi.RiskFromPriority | LearnKoreanQuest/server_old/openai.ts:389 | 높음 gives 고위험, 보통 gives 중위험, and anything else gives 저위험. |
| OpenAi.AssessRiskLevel | LearnKoreanQuest/server_old/openai.ts:382-394 | The trimmed answer when it is one of the three levels. Otherwise, and on error, the priority's level. |
| OpenAi.AnswerOverridesPriority | LearnKoreanQuest/server_old/openai.ts:382-386 | Any level the model answers, however padded, wins over the priority. |
| ServerIndex.Truncate | LearnKoreanQuest/server/index.ts:36-38 | At most 80 characters. A shorter line is unchanged; a longer one becomes its first 79 characters and `…`. |
| ServerIndex.TruncateIdempotent | LearnKoreanQuest/server/index.ts:36-38 | A cut line is not cut again. |
| ServerIndex.RequestLog | LearnKoreanQuest/server/index.ts:30-38 | Logged iff the path starts with /api, in at most 80 characters. The line is `METHOD path status in Nms`, then ` :: ` and the JSON text when there is a body; a line over 80 characters is cut to 79 and `…`, and still starts with that head when the head is shorter than 80. |
| ServerIndex.RequestLogFields | LearnKoreanQuest/server/index.ts:30-38 | Two uncut log lines of the same method and path are equal only when status, duration and body are: the line gives them back. |
| ServerIndex.ErrorStatus | LearnKoreanQuest/server/index.ts:51 | err.status, else err.statusCode, else 500; never 0. |
| ServerIndex.ErrorMessage | LearnKoreanQuest/server/index.ts:52 | err.message, else Internal Server Error. |
| ServerIndex.StartServer | LearnKoreanQuest/server/index.ts:71-89 | Serves only on port + k where attempt k listened. After all failed attempts it waits at port + n. |
| ServerIndex.ServesAfterTakenPorts | LearnKoreanQuest/server/index.ts:79-82 | After k taken ports, it serves on port + k. |
| ServerIndex.OtherErrorThrown | LearnKoreanQuest/server/index.ts:83-84 | Any other error stops the retries and is thrown. |
| Scheduler.FiresAtMostOnce | LearnKoreanQuest/server/scheduler.ts:32-49 | Among distinct minute readings the trigger (day 1, 9:00) fires at most once, and exactly once when 9:00 on the first is read. |
| Scheduler.StartSchedulers | LearnKoreanQuest/server/scheduler.ts:32-58 | Both new timers run, and the already running ones keep running. |
| Scheduler.StopSchedulers | LearnKoreanQuest/server/scheduler.ts:67-71 | Every registered timer is cleared, the list is emptied, and none runs. |
| Scheduler.StopAfterStart | LearnKoreanQuest/server/scheduler.ts:58-71 | Stopping after a start clears both timers, and stopping twice is stopping once. |
| Scheduler.SendEach | LearnKoreanQuest/server/scheduler.ts:146-158 | A failed send does not stop the loop, while a throwing send does. The delivery flags match the outcomes. |
| Scheduler.CurrentMonthRows | LearnKoreanQuest/server/scheduler.ts:185-194 | Exactly the rows whose `2025-MM` month is the current month, as a selection: in sheet order, each kept row as often as the input holds it, so its length is the filter's count. |
| Scheduler.MonthlySubject | LearnKoreanQuest/server/scheduler.ts:200 | `📋 {dept} {month}월 시행 예정 법규 안내`, containing the department. |
| Scheduler.SubjectDistinguishes | LearnKoreanQuest/server/scheduler.ts:200 | Different departments or different months give different subjects. |
| Scheduler.ItemOf | LearnKoreanQuest/server/scheduler.ts:221-263 | As written: the item's name, type and date come from the row, and its kind defaults to '-'. The summary is shown exactly when it passes the mail's own test (non-empty and not the backslash-spelled placeholder); the follow-up exactly under the pages' rule. |
| Scheduler.ItemOfCorrected | LearnKoreanQuest/server/scheduler.ts:243-244 | Corrected: the same item, with the summary shown exactly when it is an analysis, as the pages decide. |
| Scheduler.ItemsDifferOnPlaceholder | LearnKoreanQuest/server/scheduler.ts:243-244 | The written and corrected items differ exactly on the two spellings of the placeholder summary; for the sheet's placeholder, the written item shows it. |
| Scheduler.CustomMails | LearnKoreanQuest/server/scheduler.ts:196-200 | One mail per requested department that has rows this month, in request order, each with the monthly subject and one item per row of that department, in order, built as written by `ItemOf`. |
| Scheduler.CustomMonthly | LearnKoreanQuest/server/scheduler.ts:167-309 | A load failure or a throwing send is rethrown. Otherwise each mail of `CustomMails` (items as written) is sent and its delivery reported. |
| Scheduler.Groups | LearnKoreanQuest/server/scheduler.ts:144-147 | One non-empty group per distinct named department, in the first-occurrence order of `DeptNames`, holding exactly its rows. |
| Scheduler.DefaultMonthly | LearnKoreanQuest/server/scheduler.ts:119-165 | The mails go out group by group and one failure does not stop the rest. A load failure or a throw ends the loop and is swallowed. |
| Scheduler.PlaceholderSummaryShown | LearnKoreanQuest/server/scheduler.ts:243-244 | The sheet's placeholder summary passes the mail's test as written, though it is not an analysis. |
| Scheduler.ShowsSummaryCorrected | LearnKoreanQuest/server/scheduler.ts:243-244 | The corrected test shows a summary iff it is an analysis. It differs from the written one only on the two spellings of the placeholder. |

## Left out

- I/O, network, database and AI services are parameters, not code:
  - the sheet arrives as a `Result` of rows;
  - transports and AI calls arrive as outcomes;
  - the crawler's HTTP/HTML scraping and the ORM layer (storage, db, schema, monthly analysis) are not modelled;
  - the mail service's log file is modelled as the list of entries appended to it (`Email.ErrorLog`, `Email.SuccessLog`); the file writes themselves are not.
- Dates and the clock.
  - The current month, the 30-day "upcoming" window (passed to `AdminPage.AdminStatistics` as a count and to `Scheduler.DefaultMonthly` as a predicate) and the crawler's one-year recency test (`LawSync.Collect`) are parameters.
  - Excel serial-date conversion in the upload route is not modelled.
  - The day differences in reminders are not modelled.
- LawSync.ParseKoreanDate: the ISO fallback through `new Date(str)` is not modelled; a string no pattern matches gives `Unmatched`.
- LawSync.ParseKoreanDate: a match yields the arguments `year, month - 1, day` as captured. The `Date` constructor's roll-over of an out-of-range month or day (`2024.13.45` is 14 February 2025) and its reading of years 0–99 as 19xx are not modelled.
- Routes.ProcessExcelData: the effective date is kept as the cell's text. The source parses it with `new Date(text)` and uses the current time when the cell is empty (`parsedDate || new Date()`); neither the parse nor the clock is modelled. Cells are strings, so the `catch` that skips a row whose processing throws (a numeric 부서 cell makes `includes` throw, and that row takes no id) never fires in the model.
- ExcelService.ById: every cell is taken as a string. `sheet_to_json` yields numbers for numeric cells, and a numeric 번호 would fail the strict comparison with the string id for every id; the model does not represent numeric cells.
- RegulationsPage.FormatKoreanDate: the `toLocaleDateString('ko-KR')` result is an abstract `locale` function.
- `toLowerCase` folds ASCII letters only. Korean text has no case, and the full Unicode case table is not modelled.
- String lengths count code points. JavaScript counts UTF-16 units, so `ServerIndex.Truncate` can differ on characters outside the BMP.
- ExcelService.Departments: the sort compares code points (`LexOrder`), while `sort()` compares UTF-16 units; the two orders differ only for characters outside the BMP.
- ExcelService.RegulationTypes: the same code-point order as `ExcelService.Departments`.
- CheckDepartments.AllDepartments: the same code-point order as `ExcelService.Departments`.
- CheckDepartments.Entries: a department name that is an array index (such as `12`) would come first in `Object.entries`, in numeric order. The model keeps first-counted order for every name, because department names are not numerals.
- OpenAi.MonthlySplit: the score is a real number. The float rounding of `compliance * 1.1` is not modelled.
- DepartmentStats.Percentage: `Math.round` of a float quotient is exact integer rounding with halves up. Float error on the quotient is not modelled.
- Timers: `setInterval`, the notification check every 5 minutes and SIGINT/SIGTERM handlers are not modelled. The monthly trigger is modelled as a predicate over minute readings.
- `sendMonthlyUpcomingRegulationsEmail` is imported by the scheduler but server/email.ts does not define it. Its outcome is a parameter of `Scheduler.DefaultMonthly`.
- The HTML bodies of the mails and reports are not modelled beyond the fields they show (`Scheduler.ItemOf`). The same holds for console output of the check scripts and the random case number of the compliance report.
- Some descriptions of the mail service mention a SendGrid fallback transport. server/email.ts has none, and the model follows the code.
- The API endpoints other than the list, detail, statistics, monthly and yearly ones are not modelled: department progress (random numbers), compliance analysis, upload, notifications, sync and test mails.
- Object-prototype keys such as `constructor` in the lookup tables are not modelled; the lookups use the tables as plain maps.
- `parseInt(process.env.PORT)` and the listen callback's side effects are not modelled. `ServerIndex.StartServer` takes the port and the outcomes of the attempts.
- `Object.entries` lists integer-like keys first. The model keeps insertion order for the department counts and the groups of the check scripts, which differs only for purely numeric department names.
- Email.StripTags: the contract states what remains (input characters, no `<…>` pair), not the exact result of the regular expression.
- Email.ReplaceNbsp: the contract states that no `&nbsp;` is left and only spaces are added, not the exact result.
- The old server's scheduler and routes (server_old/scheduler.ts, server_old/routes.ts) are not modelled. Only the old mail service's decision logic and subjects are compared with the current one.

## Findings

| source | as written | input that shows it | evidently intended | confidence | as-written member | corrected member |
|---|---|---|---|---|---|---|
| LearnKoreanQuest/server/routes.ts:130 | a June amendment is a date containing `2025` and `-06` | `2025-01-06` (6 January) is taken as a June amendment | the month of the `2025-MM` date is 06, as the pages test it (the comment at line 129 says 2025년 6월 이후, June onward; that reading would also keep July to December and is not modelled) | medium, not executed | Routes.JuneAsWrittenAcceptsJanuary | Routes.MonthlyAmendments |
| LearnKoreanQuest/server/scheduler.ts:243-244 | the placeholder summary is compared with a string holding a backslash and `n` instead of line breaks; the mail items (`Scheduler.ItemOf`, and through it every mail) follow this test | the sheet's placeholder `- [개정이유]: 없음` + two line breaks + `- [주요내용]: 없음` passes and is mailed as an AI summary | the same placeholder with real line breaks that the pages use | medium, not executed | Scheduler.ItemsDifferOnPlaceholder | Scheduler.ItemOfCorrected |

The mails are modelled as written, so they show the placeholder summary;
`Scheduler.ItemOfCorrected` is the item the pages' rule would give.

=== FILE: admin_page.dfy ===
/** The administration page: its summary counts over the loaded rows and
    the CSV export of the regulation list. */
module AdminPage {
  import opened Wrappers
  import opened Seqs
  import opened Text
  import opened Records
  import RegulationsPage
  import AnalysisPage
  import Routes

  /** The page's counts; the count of regulations taking effect within
      thirty days comes in with the rows, as it needs the clock. */
  datatype AdminStats = AdminStats(totalRegulations: nat, analyzedRegulations: nat, pendingReviews: nat,
                                   departments: nat, upcomingRegulations: nat)

  /** `adminStats`: every count zero before the rows have loaded; then the
      rows, the analysed rows, the rows with the no-action text and the
      distinct named departments. */
  function AdminStatistics(regs: Option<seq<Regulation>>, upcoming: nat): (s: AdminStats)
    ensures regs.None? ==> s == AdminStats(0, 0, 0, 0, 0)
    ensures regs.Some? ==> s.totalRegulations == |regs.value| && s.upcomingRegulations == upcoming
    ensures regs.Some? ==> s.analyzedRegulations == |AnalysisPage.Analyzed(regs)|
    ensures regs.Some? ==> s.pendingReviews == Count(regs.value, Routes.NoActionP())
    ensures regs.Some? ==> s.departments == |RegulationsPage.UniqueDepartments(regs)|
    ensures s.analyzedRegulations <= s.totalRegulations && s.pendingReviews <= s.totalRegulations
    ensures s.departments <= s.totalRegulations
  {
    if regs.None? then AdminStats(0, 0, 0, 0, 0)
    else
      var rows := regs.value;
      DistinctDepartmentsBound(rows);
      AdminStats(|rows|, |AnalysisPage.Analyzed(regs)|, Count(rows, Routes.NoActionP()),
                 |RegulationsPage.UniqueDepartments(regs)|, upcoming)
  }

  /** There are no more distinct departments than rows. */
  lemma {:induction false} DistinctDepartmentsBound(rows: seq<Regulation>)
    ensures |RegulationsPage.UniqueDepartments(Some(rows))| <= |rows|
  {
    var named := Filter(Map(rows, RegulationsPage.DepartmentOf), HasValue);
    DedupShorter(named);
  }

  // ---------------------------------------------------------------------
  // CSV export

  /** The header of the export. */
  const CsvHeaders: seq<string> := ["번호", "법률명", "법령종류", "담당부서", "시행일자", "제정·개정구분"]

  /** The law name in double quotes, as a template literal writes it: a
      missing name reads `undefined`, and quotes inside are left as they
      are. */
  function Quoted(name: string): (r: string)
    ensures |r| >= 2 && r[0] == '"' && r[|r| - 1] == '"'
    ensures name != "" ==> r[1..|r| - 1] == name
  {
    "\"" + (if name == "" then "undefined" else name) + "\""
  }

  /** The six exported cells of a row. */
  function Cells(reg: Regulation): (r: seq<string>)
    ensures |r| == |CsvHeaders|
  {
    [reg.number, Quoted(reg.lawName), reg.lawType, reg.department, reg.effectiveDate, reg.enactmentKind]
  }

  /** One data line: the cells joined by commas; an absent cell is empty. */
  function CsvLine(reg: Regulation): string {
    Join(Cells(reg), ',')
  }

  /** The whole file: the header line, then one line per row. */
  function CsvContent(regs: seq<Regulation>): string {
    Join([Join(CsvHeaders, ',')] + Map(regs, CsvLine), '\n')
  }

  /** `exportData`: nothing before the rows have loaded, else the file. */
  function ExportData(regs: Option<seq<Regulation>>): (r: Option<string>)
    ensures r.Some? <==> regs.Some?
    ensures r.Some? ==> r.value == CsvContent(regs.value)
  {
    if regs.None? then None else Some(CsvContent(regs.value))
  }

  /** No cell holds a line break. */
  predicate SingleLine(reg: Regulation) {
    forall k :: 0 <= k < |Cells(reg)| ==> '\n' !in Cells(reg)[k]
  }

  /** No cell holds a comma or a line break. */
  predicate PlainCells(reg: Regulation) {
    forall k :: 0 <= k < |Cells(reg)| ==> ',' !in Cells(reg)[k] && '\n' !in Cells(reg)[k]
  }

  /** Rows without line breaks come back line by line: the header, then
      each row's line in order. */
  lemma {:induction false} CsvLines(regs: seq<Regulation>)
    requires forall i :: 0 <= i < |regs| ==> SingleLine(regs[i])
    ensures Split(CsvContent(regs), '\n') == [Join(CsvHeaders, ',')] + Map(regs, CsvLine)
    ensures |Split(CsvContent(regs), '\n')| == |regs| + 1
  {
    var lines := [Join(CsvHeaders, ',')] + Map(regs, CsvLine);
    JoinFree(CsvHeaders, ',', '\n');
    forall i | 0 <= i < |regs|
      ensures '\n' !in CsvLine(regs[i])
    {
      JoinFree(Cells(regs[i]), ',', '\n');
    }
    assert forall k :: 0 <= k < |lines| ==> '\n' !in lines[k] by {
      forall k | 0 <= k < |lines|
        ensures '\n' !in lines[k]
      {
        if k > 0 {
          assert lines[k] == CsvLine(regs[k - 1]);
        }
      }
    }
    SplitJoin(lines, '\n');
  }

  /** A row whose cells hold no comma and no line break is read back from
      its line cell by cell. */
  lemma {:induction false} CsvLineCells(reg: Regulation)
    requires PlainCells(reg)
    ensures Split(CsvLine(reg), ',') == Cells(reg)
  {
    SplitJoin(Cells(reg), ',');
  }
}

=== FILE: analysis_page.dfy ===
/** The analysis centre page: the rows with an AI analysis, narrowed by the
    search box, the department and the review status, and its counts. */
module AnalysisPage {
  import opened Wrappers
  import opened Seqs
  import opened Text
  import opened Records
  import ExcelService
  import RegulationsPage
  import DepartmentStats

  /** The rows with an actual AI summary; none before the rows have loaded. */
  function Analyzed(regs: Option<seq<Regulation>>): (r: seq<Regulation>)
    ensures regs.None? ==> r == []
    ensures regs.Some? ==> IsSubseq(r, regs.value)
    ensures regs.Some? ==> forall x :: x in r <==> x in regs.value && IsAnalyzed(x)
    ensures regs.Some? ==> Selects(r, regs.value, DepartmentStats.AnalyzedP())
    ensures regs.Some? ==> |r| == Count(regs.value, DepartmentStats.AnalyzedP())
  {
    if regs.None? then []
    else
      FilterSelects(regs.value, DepartmentStats.AnalyzedP());
      FilterSubseq(regs.value, DepartmentStats.AnalyzedP());
      FilterMembers(regs.value, DepartmentStats.AnalyzedP());
      Filter(regs.value, DepartmentStats.AnalyzedP())
  }

  /** The status drop-down: `completed` wants a follow-up action,
      `pending` the no-action text, and any other choice, `all` included,
      wants nothing. */
  predicate StatusMatches(status: string, x: Regulation) {
    if status == "completed" then NeedsAction(x)
    else if status == "pending" then !NeedsAction(x)
    else true
  }

  /** The search looks at the law name and the department only. */
  predicate AnalysisListed(x: Regulation, search: string, department: string, status: string) {
    (ExcelService.CellMatches(x.lawName, Lower(search)) || ExcelService.CellMatches(x.department, Lower(search)))
    && RegulationsPage.Chosen(department, x.department) && StatusMatches(status, x)
  }

  function AnalysisListedP(search: string, department: string, status: string): Regulation -> bool {
    (x: Regulation) => AnalysisListed(x, search, department, status)
  }

  /** `filteredRegulations`: the analysed rows that every control accepts,
      in order. */
  function FilteredAnalyses(regs: Option<seq<Regulation>>, search: string, department: string, status: string)
    : (r: seq<Regulation>)
    ensures IsSubseq(r, Analyzed(regs))
    ensures forall x :: x in r <==> x in Analyzed(regs) && AnalysisListed(x, search, department, status)
    ensures Selects(r, Analyzed(regs), AnalysisListedP(search, department, status))
    ensures |r| == Count(Analyzed(regs), AnalysisListedP(search, department, status))
  {
    var rows := Analyzed(regs);
    FilterSelects(rows, AnalysisListedP(search, department, status));
    FilterSubseq(rows, AnalysisListedP(search, department, status));
    FilterMembers(rows, AnalysisListedP(search, department, status));
    Filter(rows, AnalysisListedP(search, department, status))
  }

  /** The completed and the pending choice split what `all` lists between
      them. */
  lemma {:induction false} StatusChoicesSplit(regs: Option<seq<Regulation>>, search: string, department: string)
    ensures |FilteredAnalyses(regs, search, department, "completed")|
          + |FilteredAnalyses(regs, search, department, "pending")|
         == |FilteredAnalyses(regs, search, department, "all")|
  {
    CountSplit(Analyzed(regs), AnalysisListedP(search, department, "completed"),
               AnalysisListedP(search, department, "pending"), AnalysisListedP(search, department, "all"));
  }

  /** The department options of the page, from the analysed rows only. */
  function AnalysisDepartments(regs: Option<seq<Regulation>>): (r: seq<string>)
    ensures NoDups(r)
    ensures forall d :: d in r <==> exists x :: x in Analyzed(regs) && HasValue(x.department) && x.department == d
  {
    RegulationsPage.UniqueDepartments(Some(Analyzed(regs)))
  }

  datatype AnalysisStats = AnalysisStats(total: nat, completed: nat, pending: nat, highPriority: nat)

  function PartialAmendmentP(): Regulation -> bool {
    (x: Regulation) => x.enactmentKind == "일부개정"
  }

  /** The counts over the analysed rows: completed and pending make up the
      total, and the partial amendments are among them. */
  function Stats(regs: Option<seq<Regulation>>): (s: AnalysisStats)
    ensures s.total == |Analyzed(regs)|
    ensures s.completed + s.pending == s.total
    ensures s.highPriority <= s.total
    ensures s.highPriority == Count(Analyzed(regs), PartialAmendmentP())
    ensures s.pending == Count(Analyzed(regs), Not(DepartmentStats.NeedsActionP()))
    ensures s.completed == Count(Analyzed(regs), DepartmentStats.NeedsActionP())
  {
    var rows := Analyzed(regs);
    CountComplement(rows, DepartmentStats.NeedsActionP());
    AnalysisStats(|rows|, Count(rows, DepartmentStats.NeedsActionP()),
                  Count(rows, Not(DepartmentStats.NeedsActionP())), Count(rows, PartialAmendmentP()))
  }

  /** `getAnalysisStatus`: the label and its colour classes. */
  function AnalysisStatus(x: Regulation): (r: (string, string))
    ensures r.0 == "검토 필요" <==> !NeedsAction(x)
    ensures r.0 == "분석 완료" <==> NeedsAction(x)
  {
    if x.aiFollowUp == NoAction then ("검토 필요", "bg-yellow-100 text-yellow-800")
    else ("분석 완료", "bg-green-100 text-green-800")
  }

  /** The label agrees with the status drop-down: a row reads `분석 완료`
      exactly when the `completed` choice keeps it. */
  lemma {:induction false} StatusLabelMatchesFilter(x: Regulation)
    ensures AnalysisStatus(x).0 == "분석 완료" <==> StatusMatches("completed", x)
    ensures AnalysisStatus(x).0 == "검토 필요" <==> StatusMatches("pending", x)
  {
  }
}

=== FILE: check_departments.dfy ===
/** The department audit script: the departments found in the sheet with
    their row counts, compared against the eight departments the
    administration page knows, and the ten largest departments. */
module CheckDepartments {
  import opened Seqs
  import opened Text
  import opened Records
  import ExcelService
  import LexOrder
  import Lookup
  import DepartmentStats

  /** A department name the script counts: present, not the text `None`,
      and not made of whitespace alone (see `CountedIsTrimTest`). */
  predicate Counted(d: string) {
    HasValue(d) && !AllSpace(d)
  }

  /** The script's own test: the name is truthy, is not `None`, and trims
      to something. */
  lemma {:induction false} CountedIsTrimTest(d: string)
    ensures Counted(d) <==> d != "" && d != "None" && Trim(d) != ""
  {
    TrimBlank(d);
  }

  function CountedP(): Regulation -> bool {
    (x: Regulation) => Counted(x.department)
  }

  /** `departmentCounts[d] || 0`: the rows naming `d`, for a counted name;
      no entry, read as 0, otherwise. */
  function DeptCount(regs: seq<Regulation>, d: string): nat {
    if Counted(d) then Count(regs, DepartmentStats.DeptIs(d)) else 0
  }

  /** The counted department names of the rows, in row order, repeats kept. */
  function CountedNames(regs: seq<Regulation>): seq<string> {
    Map(Filter(regs, CountedP()), DepartmentStats.DepartmentOf)
  }

  /** `allDepartments`: the distinct counted names, sorted. */
  function AllDepartments(regs: seq<Regulation>): (r: seq<string>)
    ensures LexOrder.StrictlySorted(r)
    ensures forall d :: d in r <==> Counted(d) && exists x :: x in regs && x.department == d
  {
    var names := CountedNames(regs);
    CountedNamesMembers(regs);
    ExcelService.DistinctSorted(names)
  }

  lemma {:induction false} CountedNamesMembers(regs: seq<Regulation>)
    ensures forall d :: d in CountedNames(regs) <==> Counted(d) && exists x :: x in regs && x.department == d
  {
    var p := CountedP();
    var kept := Filter(regs, p);
    FilterMembers(regs, p);
    forall d | d in CountedNames(regs)
      ensures Counted(d) && exists x :: x in regs && x.department == d
    {
      var i :| 0 <= i < |kept| && CountedNames(regs)[i] == d;
      assert p(kept[i]);
      assert kept[i] in regs;
    }
    forall d | Counted(d) && exists x :: x in regs && x.department == d
      ensures d in CountedNames(regs)
    {
      var x :| x in regs && x.department == d;
      assert x in kept;
      var i :| 0 <= i < |kept| && kept[i] == x;
      assert CountedNames(regs)[i] == d;
    }
  }

  /** Every listed department has at least one row. */
  lemma {:induction false} ListedCounted(regs: seq<Regulation>, d: string)
    requires d in AllDepartments(regs)
    ensures DeptCount(regs, d) >= 1
  {
    var x :| x in regs && x.department == d;
    FilterMembers(regs, DepartmentStats.DeptIs(d));
    assert x in Filter(regs, DepartmentStats.DeptIs(d));
  }

  /** The counts of the listed departments add up to the number of rows with
      a counted department: no row is counted twice or missed. */
  lemma {:induction false} CountsCoverRows(regs: seq<Regulation>)
    ensures DepartmentStats.SumDeptCounts(regs, AllDepartments(regs)) == Count(regs, CountedP())
  {
    var all := AllDepartments(regs);
    assert NoDups(all);
    DepartmentStats.SumDeptCountsPartition(regs, all);
    forall i | 0 <= i < |regs|
      ensures DepartmentStats.DeptIn(all)(regs[i]) == CountedP()(regs[i])
    {
      assert regs[i] in regs;
    }
    FilterExt(regs, DepartmentStats.DeptIn(all), CountedP());
  }

  /** The script lists a subset of the server's departments: it also drops
      whitespace-only names, which the server keeps. */
  lemma {:induction false} CountedWithinServer(regs: seq<Regulation>)
    ensures forall d :: d in AllDepartments(regs) ==> d in ExcelService.Departments(regs)
    ensures forall d :: d in ExcelService.Departments(regs) && !AllSpace(d) ==> d in AllDepartments(regs)
  {
  }

  // ---------------------------------------------------------------------
  // Comparison with the administration page

  /** `missingInAdmin`: the listed departments the page does not know, in
      order. */
  function MissingInAdmin(all: seq<string>): (r: seq<string>)
    ensures IsSubseq(r, all)
    ensures forall d :: d in r <==> d in all && d !in Lookup.KnownDepartments
  {
    var p := (d: string) => d !in Lookup.KnownDepartments;
    FilterMembers(all, p);
    FilterSubseq(all, p);
    Filter(all, p)
  }

  /** `missingInExcel`: the page's departments that the sheet does not list,
      in the page's order. */
  function MissingInExcel(all: seq<string>): (r: seq<string>)
    ensures IsSubseq(r, Lookup.KnownDepartments)
    ensures forall d :: d in r <==> d in Lookup.KnownDepartments && d !in all
  {
    var p := (d: string) => d !in all;
    FilterMembers(Lookup.KnownDepartments, p);
    FilterSubseq(Lookup.KnownDepartments, p);
    Filter(Lookup.KnownDepartments, p)
  }

  /** Both reports are empty exactly when the sheet lists the page's eight
      departments and no other. */
  lemma {:induction false} ReportsEmptyIffSameSet(all: seq<string>)
    ensures |MissingInAdmin(all)| == 0 && |MissingInExcel(all)| == 0
        <==> (forall d :: d in all <==> d in Lookup.KnownDepartments)
  {
    if |MissingInAdmin(all)| == 0 && |MissingInExcel(all)| == 0 {
      forall d
        ensures d in all <==> d in Lookup.KnownDepartments
      {
      }
    } else if |MissingInAdmin(all)| > 0 {
      assert MissingInAdmin(all)[0] in MissingInAdmin(all);
    } else {
      assert MissingInExcel(all)[0] in MissingInExcel(all);
    }
  }

  // ---------------------------------------------------------------------
  // The ten largest departments

  /** One `[department, count]` pair of `Object.entries(departmentCounts)`. */
  datatype Entry = Entry(dept: string, count: nat)

  function EntryOf(regs: seq<Regulation>): string -> Entry {
    d => Entry(d, DeptCount(regs, d))
  }

  /** The entries in the order their departments were first counted: one
      per listed department, with its count. String keys that are not
      array indices keep insertion order in `Object.entries`. */
  function Entries(regs: seq<Regulation>): (r: seq<Entry>)
    ensures |r| == |AllDepartments(regs)|
    ensures forall e :: e in r ==> e.dept in AllDepartments(regs) && e.count == DeptCount(regs, e.dept)
    ensures forall d :: d in AllDepartments(regs) ==> Entry(d, DeptCount(regs, d)) in r
    ensures forall i, j :: 0 <= i < j < |r| ==> r[i].dept != r[j].dept
    // The order is that of each department's first counted row.
    ensures forall i :: 0 <= i < |r| ==> r[i].dept in CountedNames(regs)
    ensures forall i, j :: 0 <= i < j < |r| ==>
              FirstIndex(CountedNames(regs), r[i].dept) < FirstIndex(CountedNames(regs), r[j].dept)
  {
    var names := Dedup(CountedNames(regs));
    var all := AllDepartments(regs);
    assert |all| == |names|;
    assert forall d :: d in names <==> d in CountedNames(regs);
    MappedEntries(names, EntryOf(regs), all);
    var r := Map(names, EntryOf(regs));
    assert forall i :: 0 <= i < |r| ==> r[i].dept == names[i];
    DedupFirstOccurrence(CountedNames(regs));
    r
  }

  /** The entries of a list of names, as `Map` builds them. */
  lemma {:induction false} MappedEntries(names: seq<string>, F: string -> Entry, all: seq<string>)
    requires forall d :: d in all <==> d in names
    requires forall d :: F(d).dept == d
    ensures forall e :: e in Map(names, F) ==> e.dept in all && e == F(e.dept)
    ensures forall d :: d in all ==> F(d) in Map(names, F)
  {
    MapMembers(names, F);
  }

  function NegCount(e: Entry): int {
    0 - e.count as int
  }

  const TopSize: nat := 10

  /** The entries sorted by count, largest first, cut to the first ten. */
  function TopDepartments(regs: seq<Regulation>): (r: seq<Entry>)
    ensures |r| <= TopSize
    ensures |r| == if |AllDepartments(regs)| < TopSize then |AllDepartments(regs)| else TopSize
    ensures forall i, j :: 0 <= i < j < |r| ==> r[i].count >= r[j].count
    ensures forall i :: 0 <= i < |r| ==> r[i].dept in AllDepartments(regs) && r[i].count == DeptCount(regs, r[i].dept)
    ensures forall i, j :: 0 <= i < j < |r| ==> r[i].dept != r[j].dept
    // The sort is stable: the departments of one count that make the cut
    // are the first of that count in `Entries`, in that order.
    ensures forall t :: IsPrefix(Filter(r, KeyIs(NegCount, t)), Filter(Entries(regs), KeyIs(NegCount, t)))
  {
    var r := Take(SortByKey(Entries(regs), NegCount), TopSize);
    TopOfEntries(Entries(regs));
    TopMembers(regs, r);
    r
  }

  /** Every entry that makes the cut is a listed department with its count. */
  lemma {:induction false} TopMembers(regs: seq<Regulation>, r: seq<Entry>)
    requires r == Take(SortByKey(Entries(regs), NegCount), TopSize)
    ensures forall i :: 0 <= i < |r| ==> r[i].dept in AllDepartments(regs) && r[i].count == DeptCount(regs, r[i].dept)
  {
    var es := Entries(regs);
    SortedTakeMembers(es, NegCount, TopSize);
    forall i | 0 <= i < |r|
      ensures r[i].dept in AllDepartments(regs) && r[i].count == DeptCount(regs, r[i].dept)
    {
      assert r[i] in r;
      assert r[i] in es;
    }
  }

  /** The first ten of the entries sorted by count: in descending count,
      with distinct departments, and, per count,
      the first entries of that count in their original order. */
  lemma {:induction false} TopOfEntries(es: seq<Entry>)
    requires forall i, j :: 0 <= i < j < |es| ==> es[i].dept != es[j].dept
    ensures var r := Take(SortByKey(es, NegCount), TopSize);
            (forall i, j :: 0 <= i < j < |r| ==> r[i].count >= r[j].count)
            && (forall i, j :: 0 <= i < j < |r| ==> r[i].dept != r[j].dept)
            && (forall t :: IsPrefix(Filter(r, KeyIs(NegCount, t)), Filter(es, KeyIs(NegCount, t))))
  {
    var all := SortByKey(es, NegCount);
    var r := Take(all, TopSize);
    SortedTakeSorted(es, NegCount, TopSize);
    forall i, j | 0 <= i < j < |r|
      ensures r[i].count >= r[j].count
    {
      assert NegCount(r[i]) <= NegCount(r[j]);
    }
    TopDistinct(es, all, r);
    forall t
      ensures IsPrefix(Filter(r, KeyIs(NegCount, t)), Filter(es, KeyIs(NegCount, t)))
    {
      FilterTakePrefix(all, TopSize, KeyIs(NegCount, t));
      SortByKeyStable(es, NegCount, t);
    }
  }

  /** Entries with distinct departments keep them distinct through a
      reordering and a cut. */
  lemma {:induction false} TopDistinct(es: seq<Entry>, all: seq<Entry>, r: seq<Entry>)
    requires forall i, j :: 0 <= i < j < |es| ==> es[i].dept != es[j].dept
    requires multiset(all) == multiset(es) && IsPrefix(r, all)
    ensures forall i, j :: 0 <= i < j < |r| ==> r[i].dept != r[j].dept
  {
    assert NoDups(es);
    NoDupsPermutation(es, all);
    forall i, j | 0 <= i < j < |r|
      ensures r[i].dept != r[j].dept
    {
      assert r[i] == all[i] && r[j] == all[j];
      assert r[i] in multiset(es) && r[j] in multiset(es);
      var a :| 0 <= a < |es| && es[a] == r[i];
      var b :| 0 <= b < |es| && es[b] == r[j];
      assert a != b;
    }
  }

  /** A department left out of the ten has no more rows than any of them. */
  lemma {:induction false} TopIsTop(regs: seq<Regulation>, d: string)
    requires d in AllDepartments(regs)
    requires forall i :: 0 <= i < |TopDepartments(regs)| ==> TopDepartments(regs)[i].dept != d
    ensures forall i :: 0 <= i < |TopDepartments(regs)| ==> TopDepartments(regs)[i].count >= DeptCount(regs, d)
  {
    var es := Entries(regs);
    var all := SortByKey(es, NegCount);
    var r := TopDepartments(regs);
    var e := Entry(d, DeptCount(regs, d));
    assert e !in r;
    SortedTakeBelow(es, NegCount, TopSize, e);
    forall i | 0 <= i < |r|
      ensures r[i].count >= DeptCount(regs, d)
    {
      assert NegCount(r[i]) <= NegCount(e);
    }
  }
}

=== FILE: check_excel_data.dfy ===
/** The June audit script: it reads the sheet with its own row filter,
    picks the regulations taking effect in June 2025, groups them by
    department, and classifies two of their text fields as empty, `None` or
    filled. */
module CheckExcelData {
  import opened Seqs
  import opened Text
  import opened Records
  import ExcelService

  // ---------------------------------------------------------------------
  // The June set

  /** An effective date the script reads as June 2025. */
  predicate JuneDate(d: string) {
    d != "" && (Contains(d, "2025.06") || Contains(d, "2025-06") || Contains(d, "25.06"))
  }

  predicate IsJune(r: Regulation) {
    JuneDate(r.effectiveDate)
  }

  function IsJuneP(): Regulation -> bool {
    (r: Regulation) => IsJune(r)
  }

  /** The first of the three tests adds nothing: a date holding `2025.06`
      holds `25.06`. */
  lemma {:induction false} JuneDateShort(d: string)
    ensures JuneDate(d) <==> d != "" && (Contains(d, "2025-06") || Contains(d, "25.06"))
  {
    if Contains(d, "2025.06") {
      ContainsAt("2025.06", "25.06", 2);
      ContainsTrans(d, "2025.06", "25.06");
    }
  }

  /** The June rows among the kept rows, in sheet order. */
  function JuneRegulations(data: seq<Regulation>): (r: seq<Regulation>)
    ensures IsSubseq(r, data)
    ensures forall x :: x in r <==> x in data && IsJune(x)
    ensures Selects(r, data, IsJuneP())
    ensures |r| == Count(data, IsJuneP())
  {
    FilterSelects(data, IsJuneP());
    FilterMembers(data, IsJuneP());
    FilterSubseq(data, IsJuneP());
    Filter(data, IsJuneP())
  }

  // ---------------------------------------------------------------------
  // Groups by department

  /** `reg['담당부서'] || 'Unknown'` */
  function GroupKey(r: Regulation): string {
    if r.department == "" then "Unknown" else r.department
  }

  /** One department and its June rows, in sheet order. */
  datatype Group = Group(dept: string, members: seq<Regulation>)

  function GroupOf(june: seq<Regulation>): string -> Group {
    k => Group(k, Filter(june, HasKey(GroupKey, k)))
  }

  /** The group key of each June row, row by row. */
  function GroupKeys(june: seq<Regulation>): seq<string> {
    Map(june, GroupKey)
  }

  /** The group names in the order they are first met: each key of a June
      row once, and nothing else. */
  function GroupNames(june: seq<Regulation>): (ks: seq<string>)
    ensures NoDups(ks)
    ensures forall i :: 0 <= i < |june| ==> GroupKey(june[i]) in ks
    ensures forall k :: k in ks <==> exists x :: x in june && GroupKey(x) == k
    ensures forall i :: 0 <= i < |ks| ==> ks[i] in GroupKeys(june)
    ensures forall i, j :: 0 <= i < j < |ks| ==>
              FirstIndex(GroupKeys(june), ks[i]) < FirstIndex(GroupKeys(june), ks[j])
  {
    var keys := GroupKeys(june);
    MapMembers(june, GroupKey);
    DedupFirstOccurrence(keys);
    Dedup(keys)
  }

  /** `departmentGroups`: one group per key, each holding exactly the June
      rows of that key. */
  function DepartmentGroups(june: seq<Regulation>): (gs: seq<Group>)
    ensures |gs| == |GroupNames(june)|
    ensures forall i :: 0 <= i < |gs| ==> gs[i].dept == GroupNames(june)[i]
    ensures forall i :: 0 <= i < |gs| ==> gs[i].members == Filter(june, HasKey(GroupKey, gs[i].dept))
  {
    Map(GroupNames(june), GroupOf(june))
  }

  /** A row of a group is a June row of that group's key. */
  lemma {:induction false} GroupMembers(june: seq<Regulation>, g: Group)
    requires g in DepartmentGroups(june)
    ensures forall x :: x in g.members <==> x in june && GroupKey(x) == g.dept
  {
    FilterMembers(june, HasKey(GroupKey, g.dept));
  }

  function GroupSizes(gs: seq<Group>): nat {
    if |gs| == 0 then 0 else |gs[0].members| + GroupSizes(gs[1..])
  }

  /** The groups partition the June set: their sizes add up to its size. */
  lemma {:induction false} GroupsPartition(june: seq<Regulation>)
    ensures GroupSizes(DepartmentGroups(june)) == |june|
  {
    var ks := GroupNames(june);
    GroupSizesOf(june, ks);
    SumClassCountsPartition(june, GroupKey, ks);
    FilterAll(june, KeyAmong(GroupKey, ks));
  }

  lemma {:induction false} GroupSizesOf(june: seq<Regulation>, ks: seq<string>)
    ensures GroupSizes(Map(ks, GroupOf(june))) == SumClassCounts(june, GroupKey, ks)
  {
    if |ks| > 0 {
      GroupSizesOf(june, ks[1..]);
      assert Map(ks, GroupOf(june))[1..] == Map(ks[1..], GroupOf(june));
    }
  }

  // ---------------------------------------------------------------------
  // Field classification

  datatype FieldClass = EmptyCell | NoneCell | ValidCell

  /** Empty, the text `None` or `none`, or anything else. */
  function Classify(v: string): FieldClass {
    if v == "" then EmptyCell
    else if v == "None" || v == "none" then NoneCell
    else ValidCell
  }

  function ClassP(f: Regulation -> string, c: FieldClass): Regulation -> bool {
    (r: Regulation) => Classify(f(r)) == c
  }

  datatype Tally = Tally(empty: nat, none: nat, valid: nat)

  /** The counting loop of the script over one field. */
  method TallyField(june: seq<Regulation>, f: Regulation -> string) returns (t: Tally)
    ensures t.empty == Count(june, ClassP(f, EmptyCell))
    ensures t.none == Count(june, ClassP(f, NoneCell))
    ensures t.valid == Count(june, ClassP(f, ValidCell))
    ensures t.empty + t.none + t.valid == |june|
  {
    var empty, none, valid := 0, 0, 0;
    var i := 0;
    while i < |june|
      invariant 0 <= i <= |june|
      invariant empty == Count(june[..i], ClassP(f, EmptyCell))
      invariant none == Count(june[..i], ClassP(f, NoneCell))
      invariant valid == Count(june[..i], ClassP(f, ValidCell))
      invariant empty + none + valid == i
    {
      var x := june[i];
      assert june[..i + 1] == june[..i] + [x];
      FilterSnoc(june[..i], x, ClassP(f, EmptyCell));
      FilterSnoc(june[..i], x, ClassP(f, NoneCell));
      FilterSnoc(june[..i], x, ClassP(f, ValidCell));
      match Classify(f(x)) {
        case EmptyCell => empty := empty + 1;
        case NoneCell => none := none + 1;
        case ValidCell => valid := valid + 1;
      }
      i := i + 1;
    }
    assert june[..i] == june;
    t := Tally(empty, none, valid);
  }

  /** A field the script finds filled also counts as filled for the pages;
      the pages, though, take `none` as a value. */
  lemma {:induction false} ValidHasValue(june: seq<Regulation>, f: Regulation -> string)
    ensures Count(june, ClassP(f, ValidCell)) <= Count(june, (r: Regulation) => HasValue(f(r)))
  {
    CountMono(june, ClassP(f, ValidCell), (r: Regulation) => HasValue(f(r)));
  }

  function AmendedArticles(r: Regulation): string { r.amendedArticles }

  function AiSummary(r: Regulation): string { r.aiSummary }

  // ---------------------------------------------------------------------
  // The accounting subset

  const AccountingTag: string := "회계세무"

  /** The accounting department as the administration page names it. */
  const AccountingDepartment: string := "회계세무그룹"

  function AccountingP(): Regulation -> bool {
    (x: Regulation) => x.department != "" && Contains(x.department, AccountingTag)
  }

  /** The June rows whose department mentions the accounting group. */
  function AccountingRegulations(june: seq<Regulation>): (r: seq<Regulation>)
    ensures IsSubseq(r, june)
    ensures forall x :: x in r <==> x in june && Contains(x.department, AccountingTag)
    ensures Selects(r, june, AccountingP())
    ensures |r| == Count(june, AccountingP())
  {
    var p := AccountingP();
    FilterSelects(june, p);
    FilterMembers(june, p);
    FilterSubseq(june, p);
    Filter(june, p)
  }

  lemma {:induction false} DepartmentTagged()
    ensures Contains(AccountingDepartment, AccountingTag)
  {
    assert AccountingDepartment[..|AccountingTag|] == AccountingTag;
    StartsWithContains(AccountingDepartment, AccountingTag);
  }

  /** The group of the accounting department as the pages name it lies in
      the accounting subset. */
  lemma {:induction false} AccountingGroupWithin(june: seq<Regulation>, g: Group)
    requires g in DepartmentGroups(june) && g.dept == AccountingDepartment
    ensures forall x :: x in g.members ==> x in AccountingRegulations(june)
  {
    GroupMembers(june, g);
    forall x | x in g.members
      ensures x in AccountingRegulations(june)
    {
      assert GroupKey(x) == AccountingDepartment;
      InAccounting(june, x);
    }
  }

  lemma {:induction false} InAccounting(june: seq<Regulation>, x: Regulation)
    requires x in june && GroupKey(x) == AccountingDepartment
    ensures x in AccountingRegulations(june)
  {
    DepartmentTagged();
    assert x.department == AccountingDepartment;
  }

  // ---------------------------------------------------------------------
  // The whole report

  /** With no June row the script shows the first ten rows and stops;
      otherwise it reports the groups, both field tallies and the
      accounting subset. */
  datatype Report =
    | NoJune(samples: seq<Regulation>)
    | JuneReport(june: seq<Regulation>, groups: seq<Group>, articles: Tally, summaries: Tally,
                 accounting: seq<Regulation>)

  const SampleSize: nat := 10

  /** The whole script. Its row filter is the loader's test (a number, a
      law name, and not the header text), so `ExcelService.KeepRow` is used. */
  method CheckExcelData(rows: seq<Regulation>) returns (rep: Report)
    ensures var data := Filter(rows, ExcelService.KeepRowP());
            var june := JuneRegulations(data);
            (|june| == 0 <==> rep.NoJune?)
            && (rep.NoJune? ==> rep.samples == Take(data, SampleSize))
            && (rep.JuneReport? ==> rep.june == june && rep.groups == DepartmentGroups(june)
                                    && rep.accounting == AccountingRegulations(june))
    ensures rep.JuneReport? ==> rep.articles.empty + rep.articles.none + rep.articles.valid == |rep.june|
    ensures rep.JuneReport? ==> rep.summaries.empty + rep.summaries.none + rep.summaries.valid == |rep.june|
    ensures rep.JuneReport? ==> rep.articles == Tally(Count(rep.june, ClassP(AmendedArticles, EmptyCell)),
                                                      Count(rep.june, ClassP(AmendedArticles, NoneCell)),
                                                      Count(rep.june, ClassP(AmendedArticles, ValidCell)))
    ensures rep.JuneReport? ==> rep.summaries == Tally(Count(rep.june, ClassP(AiSummary, EmptyCell)),
                                                       Count(rep.june, ClassP(AiSummary, NoneCell)),
                                                       Count(rep.june, ClassP(AiSummary, ValidCell)))
  {
    var data := Filter(rows, ExcelService.KeepRowP());
    var june := JuneRegulations(data);
    if |june| == 0 {
      rep := NoJune(Take(data, SampleSize));
    } else {
      var articles := TallyField(june, AmendedArticles);
      var summaries := TallyField(june, AiSummary);
      rep := JuneReport(june, DepartmentGroups(june), articles, summaries, AccountingRegulations(june));
    }
  }
}

=== FILE: dashboard.dfy ===
/** The dashboard page: the department cards it shows, the detail dialog of
    a selected department, and the lengths of its lists. Data that has not
    arrived from the server yet is `None`. */
module Dashboard {
  import opened Wrappers
  import opened Seqs
  import opened Records
  import opened DepartmentStats

  /** The cards the dashboard shows: the department cards, the main
      departments first, all of them or the first four. */
  function ShownCards(regs: seq<Regulation>, month: int, showAll: bool): (r: seq<DeptStat>)
    ensures !showAll ==> |r| <= 4
    ensures showAll ==> multiset(r) == multiset(SortedCards(regs, month))
    ensures forall i :: 0 <= i < |r| ==> r[i] in SortedCards(regs, month)
    ensures forall i, j :: 0 <= i < j < |r| ==> PriorityRank(r[i]) <= PriorityRank(r[j])
    ensures IsPrefix(r, PrioritySort(SortedCards(regs, month)))
    ensures showAll ==> r == PrioritySort(SortedCards(regs, month))
    ensures !showAll ==> |r| == if |SortedCards(regs, month)| < 4 then |SortedCards(regs, month)| else 4
  {
    ShownAmong(SortedCards(regs, month), showAll);
    DisplayDepts(PrioritySort(SortedCards(regs, month)), showAll)
  }

  lemma {:induction false} ShownAmong(cards: seq<DeptStat>, showAll: bool)
    ensures !showAll ==> |DisplayDepts(PrioritySort(cards), showAll)| <= 4
    ensures showAll ==> multiset(DisplayDepts(PrioritySort(cards), showAll)) == multiset(cards)
    ensures forall i :: 0 <= i < |DisplayDepts(PrioritySort(cards), showAll)| ==>
              DisplayDepts(PrioritySort(cards), showAll)[i] in cards
    ensures forall i, j :: 0 <= i < j < |DisplayDepts(PrioritySort(cards), showAll)| ==>
              PriorityRank(DisplayDepts(PrioritySort(cards), showAll)[i])
                <= PriorityRank(DisplayDepts(PrioritySort(cards), showAll)[j])
  {
    var sorted := PrioritySort(cards);
    var r := DisplayDepts(sorted, showAll);
    forall i | 0 <= i < |r|
      ensures r[i] in cards
    {
      assert r[i] == sorted[i];
      assert sorted[i] in multiset(sorted);
    }
    forall i, j | 0 <= i < j < |r|
      ensures PriorityRank(r[i]) <= PriorityRank(r[j])
    {
      assert r[i] == sorted[i] && r[j] == sorted[j];
    }
  }

  /** `regulations.filter(r => r.담당부서 === selectedDepartment)` when the rows
      have arrived and a department is selected, and nothing otherwise. */
  function DialogRegulations(regs: Option<seq<Regulation>>, selected: string): (r: seq<Regulation>)
    ensures regs.None? || selected == "" ==> r == []
    ensures regs.Some? && selected != "" ==> r == DeptRows(regs.value, selected)
    ensures forall x :: x in r <==> regs.Some? && selected != "" && x in regs.value && x.department == selected
  {
    if regs.Some? && selected != "" then DeptRows(regs.value, selected) else []
  }

  /** The dialog's rows that take effect in 2025. */
  function DialogYearly(rows: seq<Regulation>): (r: seq<Regulation>)
    ensures forall x :: x in r <==> x in rows && IsYearly(x)
    ensures IsSubseq(r, rows)
    ensures Selects(r, rows, YearlyP())
    ensures |r| == Count(rows, YearlyP())
  {
    FilterSelects(rows, YearlyP());
    FilterSubseq(rows, YearlyP());
    FilterMembers(rows, YearlyP());
    Filter(rows, YearlyP())
  }

  /** The dialog's rows that take effect in the current month of 2025. */
  function DialogCurrentMonth(rows: seq<Regulation>, month: int): (r: seq<Regulation>)
    ensures forall x :: x in r <==> x in rows && IsInMonth(x, month)
    ensures IsSubseq(r, rows)
    ensures Selects(r, rows, InMonthP(month))
    ensures |r| == Count(rows, InMonthP(month))
  {
    FilterSelects(rows, InMonthP(month));
    FilterSubseq(rows, InMonthP(month));
    FilterMembers(rows, InMonthP(month));
    Filter(rows, InMonthP(month))
  }

  /** The dialog's current-month list is part of its yearly list, in order. */
  lemma {:induction false} DialogMonthWithinYear(rows: seq<Regulation>, month: int)
    ensures forall x :: x in DialogCurrentMonth(rows, month) ==> x in DialogYearly(rows)
    ensures |DialogCurrentMonth(rows, month)| <= |DialogYearly(rows)|
    ensures DialogCurrentMonth(rows, month) == Filter(DialogYearly(rows), InMonthP(month))
  {
    FilterNarrower(rows, InMonthP(month), YearlyP());
  }

  /** Opening the dialog of a department shows the figures of its card: as
      many rows, yearly rows and current-month rows as the card counts. */
  lemma {:induction false} DialogMatchesCard(regs: seq<Regulation>, name: string, month: int)
    requires name != ""
    ensures |DialogRegulations(Some(regs), name)| == StatOf(regs, name, month).total
    ensures |DialogYearly(DialogRegulations(Some(regs), name))| == StatOf(regs, name, month).yearly
    ensures |DialogCurrentMonth(DialogRegulations(Some(regs), name), month)| == StatOf(regs, name, month).currentMonth
  {
  }

  /** `list?.slice(0, n) || []`: at most the first `n` items, nothing while
      the list has not arrived. */
  function Head<T(==)>(list: Option<seq<T>>, n: nat): (r: seq<T>)
    ensures list.None? ==> r == []
    ensures list.Some? ==> |r| == (if |list.value| < n then |list.value| else n) && r == list.value[..|r|]
  {
    if list.Some? then Take(list.value, n) else []
  }

  /** The recent notifications: the first five. */
  function RecentNotifications<T(==)>(notifications: Option<seq<T>>): (r: seq<T>)
    ensures |r| <= 5
    ensures notifications.Some? ==> IsPrefix(r, notifications.value)
  {
    Head(notifications, 5)
  }

  /** The monthly amendments listed: the first ten. */
  function ListedAmendments<T(==)>(amendments: seq<T>): (r: seq<T>)
    ensures |r| <= 10
    ensures IsPrefix(r, amendments)
    ensures |amendments| <= 10 ==> r == amendments
  {
    Take(amendments, 10)
  }
}

=== FILE: department_stats.dfy ===
/** The per-department progress cards of the departments page and the
    dashboard: counts per department, the completion percentage, the
    ordering by size, and the re-ordering that puts the four main
    departments first. The current month (1 to 12) is a parameter. */
module DepartmentStats {
  import opened Seqs
  import opened Records
  import Lookup

  /** One department card. */
  datatype DeptStat = DeptStat(
    name: string,
    total: nat,             // rows of the department
    yearly: nat,            // taking effect in 2025
    currentMonth: nat,      // taking effect this month
    monthlyCompleted: nat,  // taking effect in 2025 before this month
    analyzed: nat,          // with an AI analysis
    completedAnalysis: nat, // analysed and naming a follow-up action
    progress: nat,          // completed share of the year, in percent
    color: string,
    displayName: string)

  // Row predicates as values, so that every count below filters by the
  // same function.

  function DeptIs(name: string): Regulation -> bool {
    (r: Regulation) => r.department == name
  }

  function YearlyP(): Regulation -> bool {
    (r: Regulation) => IsYearly(r)
  }

  function InMonthP(month: int): Regulation -> bool {
    (r: Regulation) => IsInMonth(r, month)
  }

  function BeforeMonthP(month: int): Regulation -> bool {
    (r: Regulation) => IsBeforeMonth(r, month)
  }

  function AnalyzedP(): Regulation -> bool {
    (r: Regulation) => IsAnalyzed(r)
  }

  function NeedsActionP(): Regulation -> bool {
    (r: Regulation) => NeedsAction(r)
  }

  function HasDepartmentP(): Regulation -> bool {
    (r: Regulation) => HasDepartment(r)
  }

  function DepartmentOf(r: Regulation): string {
    r.department
  }

  /** The rows of one department, compared exactly. */
  function DeptRows(regs: seq<Regulation>, name: string): (r: seq<Regulation>)
    ensures forall x :: x in r <==> x in regs && x.department == name
    ensures Selects(r, regs, DeptIs(name))
    ensures |r| == Count(regs, DeptIs(name))
  {
    FilterSelects(regs, DeptIs(name));
    FilterMembers(regs, DeptIs(name));
    Filter(regs, DeptIs(name))
  }

  /** `Math.round(done / of * 100)`, or 0 when `of` is 0: the nearest whole
      percentage, halves rounded up. */
  function Percentage(done: nat, of: nat): (r: nat)
    ensures of == 0 ==> r == 0
    ensures of > 0 ==> 2 * of * r <= 200 * done + of < 2 * of * r + 2 * of
    ensures done <= of ==> r <= 100
  {
    if of == 0 then 0
    else
      var q := (200 * done + of) / (2 * of);
      DivBounds(200 * done + of, 2 * of);
      if done <= of then
        QuotientBound(200 * done + of, 2 * of, q, 101);
        q
      else q
  }

  lemma {:induction false} DivBounds(a: nat, b: nat)
    requires b > 0
    ensures b * (a / b) <= a < b * (a / b) + b
  {
  }

  /** A quotient whose product with the divisor stays below `b * m` is below `m`. */
  lemma {:induction false} QuotientBound(a: nat, b: nat, q: nat, m: nat)
    requires b > 0 && b * q <= a < b * m
    ensures q < m
  {
  }

  /** The card of department `name`: each count is the size of the filter the
      page applies to that department's rows. */
  function StatOf(regs: seq<Regulation>, name: string, month: int): (s: DeptStat)
    ensures s.name == name
    ensures s.total == Count(regs, DeptIs(name))
    ensures s.yearly == Count(DeptRows(regs, name), YearlyP())
    ensures s.currentMonth == Count(DeptRows(regs, name), InMonthP(month))
    ensures s.monthlyCompleted == Count(DeptRows(regs, name), BeforeMonthP(month))
    ensures s.analyzed == Count(DeptRows(regs, name), AnalyzedP())
    ensures s.completedAnalysis == Count(Filter(DeptRows(regs, name), AnalyzedP()), NeedsActionP())
    ensures s.progress == Percentage(s.monthlyCompleted, s.yearly)
    ensures s.yearly <= s.total && s.analyzed <= s.total
    ensures s.currentMonth + s.monthlyCompleted <= s.yearly
    ensures s.completedAnalysis <= s.analyzed
    ensures s.progress <= 100
    ensures s.color == Lookup.DepartmentColor(name) && s.displayName == name
  {
    var rows := DeptRows(regs, name);
    var analyzed := Filter(rows, AnalyzedP());
    CountMono(rows, YearlyP(), (r: Regulation) => true);
    CountDisjoint(rows, InMonthP(month), BeforeMonthP(month), YearlyP());
    DeptStat(name, |rows|, Count(rows, YearlyP()), Count(rows, InMonthP(month)),
             Count(rows, BeforeMonthP(month)), |analyzed|, Count(analyzed, NeedsActionP()),
             Percentage(Count(rows, BeforeMonthP(month)), Count(rows, YearlyP())),
             Lookup.DepartmentColor(name), Lookup.DisplayName(name))
  }

  /** The rows of department `name` that also satisfy `p`. */
  function DeptAndP(name: string, p: Regulation -> bool): Regulation -> bool {
    (r: Regulation) => r.department == name && p(r)
  }

  function AnalyzedWithActionP(): Regulation -> bool {
    (r: Regulation) => IsAnalyzed(r) && NeedsAction(r)
  }

  /** Counting within a department's rows is counting, over the whole sheet,
      the rows of that department that pass the test. */
  lemma {:induction false} CountInDept(regs: seq<Regulation>, name: string, p: Regulation -> bool)
    ensures Count(DeptRows(regs, name), p) == Count(regs, DeptAndP(name, p))
  {
    FilterFilterAs(regs, DeptIs(name), p, DeptAndP(name, p));
  }

  /** Each figure of a card, read over the whole sheet: the rows naming the
      department that pass the figure's test. */
  lemma {:induction false} StatOfOverSheet(regs: seq<Regulation>, name: string, month: int)
    ensures StatOf(regs, name, month).yearly == Count(regs, DeptAndP(name, YearlyP()))
    ensures StatOf(regs, name, month).currentMonth == Count(regs, DeptAndP(name, InMonthP(month)))
    ensures StatOf(regs, name, month).monthlyCompleted == Count(regs, DeptAndP(name, BeforeMonthP(month)))
    ensures StatOf(regs, name, month).analyzed == Count(regs, DeptAndP(name, AnalyzedP()))
    ensures StatOf(regs, name, month).completedAnalysis == Count(regs, DeptAndP(name, AnalyzedWithActionP()))
  {
    CountInDept(regs, name, YearlyP());
    CountInDept(regs, name, InMonthP(month));
    CountInDept(regs, name, BeforeMonthP(month));
    CountInDept(regs, name, AnalyzedP());
    FilterFilterAs(DeptRows(regs, name), AnalyzedP(), NeedsActionP(), AnalyzedWithActionP());
    CountInDept(regs, name, AnalyzedWithActionP());
  }

  /** The progress is 0 with no 2025 row, and 100 when every 2025 row falls
      before this month. */
  lemma {:induction false} ProgressEnds(regs: seq<Regulation>, name: string, month: int)
    ensures StatOf(regs, name, month).yearly == 0 ==> StatOf(regs, name, month).progress == 0
    ensures StatOf(regs, name, month).yearly > 0
            && StatOf(regs, name, month).monthlyCompleted == StatOf(regs, name, month).yearly
            ==> StatOf(regs, name, month).progress == 100
  {
    var s := StatOf(regs, name, month);
    if s.yearly > 0 && s.monthlyCompleted == s.yearly {
      FullPercentage(s.yearly);
    }
  }

  /** All of a non-zero amount is 100 percent. */
  lemma {:induction false} FullPercentage(n: nat)
    requires n > 0
    ensures Percentage(n, n) == 100
  {
    var r := Percentage(n, n);
    assert 2 * n * r <= 200 * n + n < 2 * n * r + 2 * n;
    assert n * (2 * r) == 2 * n * r && n * 201 == 200 * n + n && n * (2 * r + 2) == 2 * n * r + 2 * n;
    MulMonotone(n, 2 * r, 201);
    MulMonotone(n, 201, 2 * r + 2);
  }

  /** A positive factor keeps the order of the other factors. */
  lemma {:induction false} MulMonotone(n: nat, a: nat, b: nat)
    requires n > 0
    ensures n * a <= n * b ==> a <= b
  {
    if a > b {
      assert n * a == n * b + n * (a - b);
    }
  }

  /** The card computed the way a program would: one counting pass per
      figure over the department's rows; it is the card the filters define. */
  method ComputeStat(regs: seq<Regulation>, name: string, month: int) returns (s: DeptStat)
    ensures s == StatOf(regs, name, month)
    ensures s.progress == Percentage(s.monthlyCompleted, s.yearly)
  {
    var rows := DeptRows(regs, name);
    var yearly := CountWhere(rows, YearlyP());
    var current := CountWhere(rows, InMonthP(month));
    var completed := CountWhere(rows, BeforeMonthP(month));
    var analyzedRows := Filter(rows, AnalyzedP());
    var withAction := CountWhere(analyzedRows, NeedsActionP());
    s := DeptStat(name, |rows|, yearly, current, completed, |analyzedRows|, withAction,
                  Percentage(completed, yearly), Lookup.DepartmentColor(name), Lookup.DisplayName(name));
  }

  // ---------------------------------------------------------------------
  // The list of cards

  /** The department column of the sheet, row by row. */
  function DepartmentColumn(regs: seq<Regulation>): seq<string> {
    Map(regs, DepartmentOf)
  }

  /** `Array.from(new Set(regs.map(r => r.담당부서).filter(d => d && d !== 'None')))`:
      the distinct named departments, in the order they first occur. */
  function DeptNames(regs: seq<Regulation>): (names: seq<string>)
    ensures NoDups(names)
    ensures forall n :: n in names <==> exists x :: x in regs && HasDepartment(x) && x.department == n
    ensures forall i :: 0 <= i < |names| ==> names[i] in DepartmentColumn(regs)
    ensures forall i, j :: 0 <= i < j < |names| ==>
              FirstIndex(DepartmentColumn(regs), names[i]) < FirstIndex(DepartmentColumn(regs), names[j])
  {
    MapMembers(regs, DepartmentOf);
    UniqueNamed(DepartmentColumn(regs))
  }

  function NegTotal(s: DeptStat): int {
    0 - s.total as int
  }

  function StatFor(regs: seq<Regulation>, month: int): string -> DeptStat {
    name => StatOf(regs, name, month)
  }

  /** The cards before ordering: one per department, in first-occurrence order. */
  function UnsortedStats(regs: seq<Regulation>, month: int): (r: seq<DeptStat>)
    ensures |r| == |DeptNames(regs)|
    ensures forall i :: 0 <= i < |r| ==> r[i] == StatOf(regs, DeptNames(regs)[i], month)
  {
    Map(DeptNames(regs), StatFor(regs, month))
  }

  function NameOf(s: DeptStat): string {
    s.name
  }

  /** The department names of a list of cards. */
  function CardNames(stats: seq<DeptStat>): (names: seq<string>)
    ensures |names| == |stats| && forall i :: 0 <= i < |stats| ==> names[i] == stats[i].name
  {
    Map(stats, NameOf)
  }

  /** The department cards, largest department first; cards with the same
      number of rows keep the order in which their departments first occur
      in the sheet (the sort is stable). */
  function SortedCards(regs: seq<Regulation>, month: int): (r: seq<DeptStat>)
    ensures forall i, j :: 0 <= i < j < |r| ==> r[i].total >= r[j].total
    ensures forall i :: 0 <= i < |r| ==> r[i] == StatOf(regs, r[i].name, month)
    ensures NoDups(CardNames(r))
    ensures forall n :: n in CardNames(r) <==> exists x :: x in regs && HasDepartment(x) && x.department == n
    ensures forall t :: Filter(r, KeyIs(NegTotal, t)) == Filter(UnsortedStats(regs, month), KeyIs(NegTotal, t))
  {
    var u := UnsortedStats(regs, month);
    var r := SortByKey(u, NegTotal);
    PermutedCards(DeptNames(regs), StatFor(regs, month), r);
    SortByKeyStableAll(u, NegTotal);
    r
  }

  /** A reordering of the cards `F(n)` of distinct names `n`, where each card
      carries its own name: a card per name, each the card of its name. */
  lemma {:induction false} PermutedCards(names: seq<string>, F: string -> DeptStat, r: seq<DeptStat>)
    requires NoDups(names)
    requires forall n :: F(n).name == n
    requires multiset(r) == multiset(Map(names, F))
    ensures forall i :: 0 <= i < |r| ==> r[i] == F(r[i].name)
    ensures NoDups(CardNames(r))
    ensures forall n :: n in CardNames(r) <==> n in names
  {
    var u := Map(names, F);
    CardsOfNames(names, F);
    NoDupsPermutation(u, r);
    CardsOwnNames(names, F, r);
    var cn := CardNames(r);
    forall i, j | 0 <= i < j < |cn|
      ensures cn[i] != cn[j]
    {
      assert r[i] != r[j];
    }
    forall n | n in names
      ensures n in cn
    {
      var k :| 0 <= k < |names| && names[k] == n;
      assert u[k] in multiset(r);
      var i :| 0 <= i < |r| && r[i] == u[k];
      assert cn[i] == n;
    }
  }

  lemma {:induction false} CardsOfNames(names: seq<string>, F: string -> DeptStat)
    requires NoDups(names)
    requires forall n :: F(n).name == n
    ensures NoDups(Map(names, F))
  {
    var u := Map(names, F);
    forall i, j | 0 <= i < j < |u|
      ensures u[i] != u[j]
    {
      assert u[i].name == names[i] && u[j].name == names[j];
    }
  }

  lemma {:induction false} CardsOwnNames(names: seq<string>, F: string -> DeptStat, r: seq<DeptStat>)
    requires forall n :: F(n).name == n
    requires multiset(r) == multiset(Map(names, F))
    ensures forall i :: 0 <= i < |r| ==> r[i] == F(r[i].name) && r[i].name in names
  {
    var u := Map(names, F);
    forall i | 0 <= i < |r|
      ensures r[i] == F(r[i].name) && r[i].name in names
    {
      assert r[i] in multiset(u);
      var k :| 0 <= k < |u| && u[k] == r[i];
      assert u[k] == F(names[k]);
    }
  }

  function SumTotals(stats: seq<DeptStat>): nat {
    if |stats| == 0 then 0 else stats[0].total + SumTotals(stats[1..])
  }

  /** The rows whose department is one of `names`. */
  function DeptIn(names: seq<string>): Regulation -> bool {
    (r: Regulation) => r.department in names
  }

  /** The number of rows of each of `names`, added up. */
  function SumDeptCounts(regs: seq<Regulation>, names: seq<string>): nat {
    if |names| == 0 then 0 else Count(regs, DeptIs(names[0])) + SumDeptCounts(regs, names[1..])
  }

  /** Distinct departments split the rows of those departments. */
  lemma {:induction false} SumDeptCountsPartition(regs: seq<Regulation>, names: seq<string>)
    requires NoDups(names)
    ensures SumDeptCounts(regs, names) == Count(regs, DeptIn(names))
  {
    if |names| == 0 {
      FilterNone(regs, DeptIn(names));
    } else {
      SumDeptCountsPartition(regs, names[1..]);
      forall i | 0 <= i < |regs|
        ensures (DeptIs(names[0])(regs[i]) || DeptIn(names[1..])(regs[i])) == DeptIn(names)(regs[i])
      {
        assert names == [names[0]] + names[1..];
      }
      CountSplit(regs, DeptIs(names[0]), DeptIn(names[1..]), DeptIn(names));
    }
  }

  /** The cards split the named rows: their totals add up to the number of
      rows that name a department. */
  lemma {:induction false} TotalsCoverRows(regs: seq<Regulation>, month: int)
    ensures SumTotals(UnsortedStats(regs, month)) == Count(regs, HasDepartmentP())
  {
    var names := DeptNames(regs);
    SumTotalsOf(regs, names, StatFor(regs, month));
    SumDeptCountsPartition(regs, names);
    forall i | 0 <= i < |regs|
      ensures DeptIn(names)(regs[i]) == HasDepartmentP()(regs[i])
    {
      var x := regs[i];
      if x.department in names {
        var y :| y in regs && HasDepartment(y) && y.department == x.department;
      } else {
        assert !HasDepartment(x);
      }
    }
    FilterExt(regs, DeptIn(names), HasDepartmentP());
  }

  lemma {:induction false} SumTotalsOf(regs: seq<Regulation>, names: seq<string>, F: string -> DeptStat)
    requires forall n :: F(n).total == Count(regs, DeptIs(n))
    ensures SumTotals(Map(names, F)) == SumDeptCounts(regs, names)
  {
    if |names| > 0 {
      SumTotalsOf(regs, names[1..], F);
      assert Map(names, F)[1..] == Map(names[1..], F);
    }
  }

  // ---------------------------------------------------------------------
  // The four main departments first

  const PriorityDepts: seq<string> := ["환경기획그룹", "안전보건기획그룹", "정보보호사무국", "인사문화그룹"]

  /** `priorityDepts.indexOf(name)`, with -1 for a name not in the list. */
  function IndexOf(name: string): (i: int)
    ensures -1 <= i < |PriorityDepts|
    ensures i >= 0 ==> PriorityDepts[i] == name
    ensures i == -1 <==> name !in PriorityDepts
  {
    if name == PriorityDepts[0] then 0
    else if name == PriorityDepts[1] then 1
    else if name == PriorityDepts[2] then 2
    else if name == PriorityDepts[3] then 3
    else -1
  }

  /** The comparator of the priority sort, as written: both in the list by
      list position, a listed department before an unlisted one, and
      unlisted departments tied. */
  function PriorityCompare(a: DeptStat, b: DeptStat): int {
    var ai := IndexOf(Lookup.DisplayName(a.name));
    var bi := IndexOf(Lookup.DisplayName(b.name));
    if ai != -1 && bi != -1 then ai - bi
    else if ai != -1 then -1
    else if bi != -1 then 1
    else 0
  }

  /** The rank the comparator orders by: the list position, or 4 when unlisted. */
  function PriorityRank(s: DeptStat): (k: int)
    ensures 0 <= k <= 4
    ensures k < 4 ==> PriorityDepts[k] == s.name
    ensures k == 4 <==> s.name !in PriorityDepts
  {
    var i := IndexOf(Lookup.DisplayName(s.name));
    if i == -1 then 4 else i
  }

  /** The comparator orders exactly as the ranks do, so the stable sort by
      rank is the page's sort. */
  lemma {:induction false} PriorityCompareIsRank(a: DeptStat, b: DeptStat)
    ensures PriorityCompare(a, b) < 0 <==> PriorityRank(a) < PriorityRank(b)
    ensures PriorityCompare(a, b) == 0 <==> PriorityRank(a) == PriorityRank(b)
    ensures PriorityCompare(a, b) > 0 <==> PriorityRank(a) > PriorityRank(b)
  {
  }

  /** The cards re-ordered: main departments in list order, then the rest in
      their previous order. */
  function PrioritySort(stats: seq<DeptStat>): (r: seq<DeptStat>)
    ensures multiset(r) == multiset(stats)
    ensures forall i, j :: 0 <= i < j < |r| ==> PriorityRank(r[i]) <= PriorityRank(r[j])
  {
    SortByKey(stats, PriorityRank)
  }

  /** The sorted cards are the class of each rank in turn, each class in its
      previous order. */
  lemma {:induction false} PrioritySortByClass(stats: seq<DeptStat>)
    ensures PrioritySort(stats) == Classes(stats, PriorityRank, 0, 4)
  {
    SortByKeyIsClasses(stats, PriorityRank, 0, 4);
  }

  /** The cards shown: all of them, or the first four. */
  function DisplayDepts(sorted: seq<DeptStat>, showAll: bool): (r: seq<DeptStat>)
    ensures showAll ==> r == sorted
    ensures !showAll ==> |r| == if |sorted| < 4 then |sorted| else 4
    ensures r == sorted[..|r|]
  {
    if showAll then sorted else Take(sorted, 4)
  }

  /** When all four main departments have cards, the collapsed view shows
      exactly those four, in list order. */
  lemma {:induction false} CollapsedViewShowsMainDepartments(stats: seq<DeptStat>)
    requires forall i, j :: 0 <= i < j < |stats| ==> stats[i].name != stats[j].name
    requires forall n :: n in PriorityDepts ==> n in CardNames(stats)
    ensures |DisplayDepts(PrioritySort(stats), false)| == 4
    ensures forall k :: 0 <= k < 4 ==> DisplayDepts(PrioritySort(stats), false)[k].name == PriorityDepts[k]
  {
    MainDepartmentsLead(stats);
    var r := PrioritySort(stats);
    var d := DisplayDepts(r, false);
    assert d == r[..4];
    forall k | 0 <= k < 4
      ensures d[k].name == PriorityDepts[k]
    {
      assert d[k] == r[k];
    }
  }

  /** The first four sorted cards are of ranks 0, 1, 2, 3. */
  lemma {:induction false} MainDepartmentsLead(stats: seq<DeptStat>)
    requires forall i, j :: 0 <= i < j < |stats| ==> stats[i].name != stats[j].name
    requires forall n :: n in PriorityDepts ==> n in CardNames(stats)
    ensures |PrioritySort(stats)| >= 4
    ensures forall k :: 0 <= k < 4 ==> PriorityRank(PrioritySort(stats)[k]) == k
  {
    forall k | 0 <= k < 4
      ensures |Filter(stats, KeyIs(PriorityRank, k))| == 1
    {
      assert PriorityDepts[k] in PriorityDepts;
      var c := ClassOf(stats, k);
    }
    PrioritySortByClass(stats);
    FirstClasses(stats, PriorityRank, 0, 4, 4);
  }

  /** The card of main department `k`, the only one of its rank. */
  function ClassOf(stats: seq<DeptStat>, k: int): (s: DeptStat)
    requires 0 <= k < 4
    requires forall i, j :: 0 <= i < j < |stats| ==> stats[i].name != stats[j].name
    requires PriorityDepts[k] in CardNames(stats)
    ensures s.name == PriorityDepts[k]
    ensures Filter(stats, KeyIs(PriorityRank, k)) == [s]
  {
    var i :| 0 <= i < |stats| && CardNames(stats)[i] == PriorityDepts[k];
    var p := KeyIs(PriorityRank, k);
    assert stats[i].name == PriorityDepts[k];
    assert PriorityRank(stats[i]) == k;
    assert p(stats[i]);
    assert forall j :: 0 <= j < |stats| && j != i ==> !p(stats[j]) by {
      forall j | 0 <= j < |stats| && j != i
        ensures !p(stats[j])
      {
        assert stats[j].name != PriorityDepts[k];
        assert PriorityRank(stats[j]) != k;
      }
    }
    FilterSingle(stats, p, i);
    stats[i]
  }

  // ---------------------------------------------------------------------
  // Colours of the progress figures

  /** The band of a percentage: 2 from 80, 1 from 60, else 0. */
  function Band(p: int): (b: int)
    ensures 0 <= b <= 2
    ensures b == 2 <==> p >= 80
    ensures b == 0 <==> p < 60
  {
    if p >= 80 then 2 else if p >= 60 then 1 else 0
  }

  /** A higher percentage never gets a lower band. */
  lemma {:induction false} BandMonotone(p: int, q: int)
    requires p <= q
    ensures Band(p) <= Band(q)
  {
  }

  /** The value of a percentage's band among three, highest band first. */
  function ByBand<T>(p: int, high: T, mid: T, low: T): (c: T)
    ensures Band(p) == 2 ==> c == high
    ensures Band(p) == 1 ==> c == mid
    ensures Band(p) == 0 ==> c == low
  {
    if Band(p) == 2 then high else if Band(p) == 1 then mid else low
  }

  /** The stroke colour of the progress circle. */
  function CircleColor(p: int): (c: string)
    ensures Band(p) == 2 <==> c == "hsl(142, 76%, 36%)"
    ensures Band(p) == 1 <==> c == "hsl(32, 95%, 44%)"
    ensures Band(p) == 0 <==> c == "hsl(0, 84%, 60%)"
  {
    ByBand(p, "hsl(142, 76%, 36%)", "hsl(32, 95%, 44%)", "hsl(0, 84%, 60%)")
  }

  /** The fill class of the progress bar of the departments page. */
  function BarClass(p: int): (c: string)
    ensures Band(p) == 2 <==> c == "bg-green-500"
    ensures Band(p) == 1 <==> c == "bg-yellow-500"
    ensures Band(p) == 0 <==> c == "bg-red-500"
  {
    ByBand(p, "bg-green-500", "bg-yellow-500", "bg-red-500")
  }
}

=== FILE: email.dfy ===
/** The mail service: the check of the Gmail credentials found in the
    environment, the plain-text rendering of an HTML body, and what
    `sendEmail` returns and writes to its log for each outcome of the SMTP
    exchange. The environment is passed in as a value, the SMTP exchange as
    its outcome, and the log as the list of entries appended to it. */
module Email {
  import opened Wrappers
  import opened Seqs
  import opened Text

  // ---------------------------------------------------------------------
  // The e-mail address pattern

  /** A character of `[^\s@]`. */
  predicate AddressChar(c: char) {
    !IsSpace(c) && c != '@'
  }

  predicate AddressChars(s: string) {
    forall i :: 0 <= i < |s| ==> AddressChar(s[i])
  }

  /** `/^[^\s@]+@[^\s@]+\.[^\s@]+$/.test(u)`: `u` is three non-empty runs
      of address characters, joined by an `@` and then a dot. */
  predicate MatchesEmailPattern(u: string) {
    exists i: nat, j: nat :: 0 < i && i + 1 < j && j + 1 < |u| && u[i] == '@' && u[j] == '.'
      && AddressChars(u[..i]) && AddressChars(u[i + 1..j]) && AddressChars(u[j + 1..])
  }

  /** The address check as a scan: a single `@` after a non-empty local
      part, no white space, and a dot inside the domain that is neither its
      first nor its last character. */
  function EmailShaped(u: string): (ok: bool)
    ensures ok <==> MatchesEmailPattern(u)
  {
    var i := IndexOf(u, '@');
    var domain := if i < |u| then u[i + 1..] else "";
    EmailShapedIsPattern(u);
    0 < i < |u| && AddressChars(u[..i]) && AddressChars(domain) && '.' in Middle(domain)
  }

  /** `d` without its first and last characters. */
  function Middle(d: string): string {
    if |d| < 2 then "" else d[1..|d| - 1]
  }

  /** The scan accepts exactly what the pattern matches. */
  lemma {:induction false} EmailShapedIsPattern(u: string)
    ensures var i := IndexOf(u, '@');
            var domain := if i < |u| then u[i + 1..] else "";
            (0 < i < |u| && AddressChars(u[..i]) && AddressChars(domain) && '.' in Middle(domain))
              <==> MatchesEmailPattern(u)
  {
    var i := IndexOf(u, '@');
    var domain := if i < |u| then u[i + 1..] else "";
    if 0 < i < |u| && AddressChars(u[..i]) && AddressChars(domain) && '.' in Middle(domain) {
      ScanMatches(u, i);
    }
    if MatchesEmailPattern(u) {
      var a: nat, b: nat :| 0 < a && a + 1 < b && b + 1 < |u| && u[a] == '@' && u[b] == '.'
        && AddressChars(u[..a]) && AddressChars(u[a + 1..b]) && AddressChars(u[b + 1..]);
      PatternScans(u, a, b);
    }
  }

  /** A local part and a domain with an inner dot, as the scan finds them,
      match the pattern. */
  lemma {:induction false} ScanMatches(u: string, i: nat)
    requires 0 < i < |u| && u[i] == '@'
    requires AddressChars(u[..i]) && AddressChars(u[i + 1..]) && '.' in Middle(u[i + 1..])
    ensures MatchesEmailPattern(u)
  {
    var domain := u[i + 1..];
    var m :| 0 <= m < |Middle(domain)| && Middle(domain)[m] == '.';
    var j: nat := i + 2 + m;
    assert u[j] == domain[m + 1] == '.';
    assert forall k :: i + 1 <= k < |u| ==> u[k] == domain[k - i - 1];
    assert AddressChars(u[i + 1..j]) && AddressChars(u[j + 1..]);
  }

  /** A match of the pattern is found by the scan: its `@` is the first
      one, and the dot lies inside the domain. */
  lemma {:induction false} PatternScans(u: string, a: nat, b: nat)
    requires 0 < a && a + 1 < b && b + 1 < |u| && u[a] == '@' && u[b] == '.'
    requires AddressChars(u[..a]) && AddressChars(u[a + 1..b]) && AddressChars(u[b + 1..])
    ensures IndexOf(u, '@') == a
    ensures AddressChars(u[a + 1..]) && '.' in Middle(u[a + 1..])
  {
    assert forall k :: 0 <= k < a ==> u[k] == u[..a][k];
    var d := u[a + 1..];
    forall k | 0 <= k < |d|
      ensures AddressChar(d[k])
    {
      if k < b - a - 1 {
        assert d[k] == u[a + 1..b][k];
      } else if k > b - a - 1 {
        assert d[k] == u[b + 1..][k - (b - a)];
      }
    }
    assert Middle(d)[b - a - 2] == '.';
  }

  // ---------------------------------------------------------------------
  // Credentials

  /** The variables of the environment the mailer reads; an unset variable
      is the empty string, which JavaScript treats alike. */
  datatype Env = Env(gmailUser: string, gmailPass: string, gmailAppPassword: string)

  /** `(GMAIL_PASS || GMAIL_APP_PASSWORD)` with all white space removed. */
  function Password(e: Env): (p: string)
    ensures forall i :: 0 <= i < |p| ==> !IsSpace(p[i])
  {
    StripSpaces(if e.gmailPass != "" then e.gmailPass else e.gmailAppPassword)
  }

  /** `isValidGmailCredentials`: the trimmed user is an e-mail address and
      the password has at least eight characters besides white space. */
  function ValidCredentials(e: Env): (ok: bool)
    ensures ok <==> MatchesEmailPattern(Trim(e.gmailUser)) && |Password(e)| >= 8
    ensures ok ==> Trim(e.gmailUser) != "" && Password(e) != ""
  {
    var user := Trim(e.gmailUser);
    var pass := Password(e);
    if user == "" || pass == "" then false
    else if !EmailShaped(user) then false
    else |pass| >= 8
  }

  /** A password taken from `GMAIL_APP_PASSWORD` counts only when
      `GMAIL_PASS` is unset. */
  lemma {:induction false} PassTakesPrecedence(e: Env)
    ensures e.gmailPass != "" ==> Password(e) == StripSpaces(e.gmailPass)
    ensures e.gmailPass == "" ==> Password(e) == StripSpaces(e.gmailAppPassword)
  {
  }

  // ---------------------------------------------------------------------
  // Plain text of an HTML body

  /** `replace(/<[^>]*>/g, '')`: from each `<` that a `>` follows, up to the
      first such `>`, is removed; a `<` with no `>` after it stays. */
  function StripTags(s: string): (r: string)
    ensures forall i :: 0 <= i < |r| ==> r[i] in s
    ensures forall i, j :: 0 <= i < j < |r| ==> !(r[i] == '<' && r[j] == '>')
    decreases |s|
  {
    if |s| == 0 then ""
    else if s[0] == '<' && '>' in s[1..] then
      var rest := s[1..][IndexOf(s[1..], '>') + 1..];
      assert forall c :: c in rest ==> c in s;
      StripTags(rest)
    else
      var t := StripTags(s[1..]);
      assert forall c :: c in t ==> c in s[1..];
      var r := [s[0]] + t;
      assert forall j :: 1 <= j < |r| ==> r[j] == t[j - 1];
      r
  }

  /** Text without `<` has no tags to remove. */
  lemma {:induction false} StripTagsPlain(s: string)
    requires '<' !in s
    ensures StripTags(s) == s
  {
    if |s| > 0 {
      StripTagsPlain(s[1..]);
    }
  }

  /** `replace(/&nbsp;/g, ' ')`, left to right. */
  function ReplaceNbsp(s: string): (r: string)
    ensures forall i :: 0 <= i < |r| ==> r[i] in s || r[i] == ' '
    decreases |s|
  {
    if |s| == 0 then ""
    else if StartsWith(s, "&nbsp;") then
      var t := ReplaceNbsp(s[6..]);
      assert forall c :: c in s[6..] ==> c in s;
      var r := " " + t;
      assert forall j :: 1 <= j < |r| ==> r[j] == t[j - 1];
      r
    else
      var t := ReplaceNbsp(s[1..]);
      assert forall c :: c in s[1..] ==> c in s;
      var r := [s[0]] + t;
      assert forall j :: 1 <= j < |r| ==> r[j] == t[j - 1];
      r
  }

  /** A result that starts with text holding neither `&` nor a space comes
      from a source that starts with the same text. */
  lemma {:induction false} ReplaceNbspHead(t: string, w: string)
    requires '&' !in w && ' ' !in w
    requires StartsWith(ReplaceNbsp(t), w)
    ensures StartsWith(t, w)
    decreases |w|
  {
    if |w| > 0 {
      assert ReplaceNbsp(t)[0] == w[0];
      assert w[0] in w;
      var r := ReplaceNbsp(t[1..]);
      assert ReplaceNbsp(t) == [t[0]] + r;
      assert w[1..] == r[..|w| - 1];
      assert forall c :: c in w[1..] ==> c in w;
      ReplaceNbspHead(t[1..], w[1..]);
      assert t[..|w|] == [t[0]] + t[1..][..|w| - 1];
    }
  }

  /** No `&nbsp;` is left. */
  lemma {:induction false} ReplaceNbspRemovesAll(s: string)
    ensures !Contains(ReplaceNbsp(s), "&nbsp;")
    decreases |s|
  {
    if |s| > 0 {
      var tail := if StartsWith(s, "&nbsp;") then s[6..] else s[1..];
      ReplaceNbspRemovesAll(tail);
      assert ReplaceNbsp(s)[1..] == ReplaceNbsp(tail);
      NoNbspAtStart(s);
      NotContainedPastHead(ReplaceNbsp(s), "&nbsp;");
    }
  }

  /** The result never starts with `&nbsp;`: a replaced one starts with a
      space, and a kept `&` was not followed by `nbsp;`. */
  lemma {:induction false} NoNbspAtStart(s: string)
    ensures !OccursAt(ReplaceNbsp(s), "&nbsp;", 0)
  {
    var r := ReplaceNbsp(s);
    if |s| > 0 && !StartsWith(s, "&nbsp;") && OccursAt(r, "&nbsp;", 0) {
      assert r == [s[0]] + ReplaceNbsp(s[1..]);
      assert ReplaceNbsp(s[1..])[..5] == r[1..6];
      ReplaceNbspHead(s[1..], "nbsp;");
      assert false;
    }
  }

  /** Text without `&` has nothing to replace. */
  lemma {:induction false} ReplaceNbspPlain(s: string)
    requires '&' !in s
    ensures ReplaceNbsp(s) == s
  {
    if |s| > 0 {
      assert s[0] in s;
      ReplaceNbspPlain(s[1..]);
    }
  }

  /** White space is only single spaces between other characters. */
  predicate SingleSpaced(s: string) {
    (forall i :: 0 <= i < |s| && IsSpace(s[i]) ==> s[i] == ' ')
    && forall i :: 0 <= i < |s| - 1 ==> NotTwoSpaces(s, i)
  }

  /** The characters at `i` and `i + 1` are not both white space. */
  predicate NotTwoSpaces(s: string, i: nat)
    requires i + 1 < |s|
  {
    !(IsSpace(s[i]) && IsSpace(s[i + 1]))
  }

  /** `replace(/\s+/g, ' ')`: every run of white space becomes one space. */
  function CollapseSpaces(s: string): (r: string)
    ensures |r| <= |s|
    ensures |s| > 0 ==> |r| > 0 && (IsSpace(r[0]) <==> IsSpace(s[0]))
    decreases |s|
  {
    if |s| == 0 then ""
    else if IsSpace(s[0]) then " " + CollapseSpaces(TrimStart(s))
    else [s[0]] + CollapseSpaces(s[1..])
  }

  /** Collapsing leaves only single spaces. */
  lemma {:induction false} CollapseIsSingleSpaced(s: string)
    ensures SingleSpaced(CollapseSpaces(s))
    decreases |s|
  {
    if |s| > 0 {
      if IsSpace(s[0]) {
        CollapseIsSingleSpaced(TrimStart(s));
        SingleSpacedCons(' ', CollapseSpaces(TrimStart(s)));
      } else {
        CollapseIsSingleSpaced(s[1..]);
        SingleSpacedCons(s[0], CollapseSpaces(s[1..]));
      }
    }
  }

  /** A character put before single-spaced text keeps it single-spaced
      unless it is white space other than a space or before white space. */
  lemma {:induction false} SingleSpacedCons(c: char, t: string)
    requires SingleSpaced(t)
    requires IsSpace(c) ==> c == ' ' && (|t| == 0 || !IsSpace(t[0]))
    ensures SingleSpaced([c] + t)
  {
    var r := [c] + t;
    forall i | 0 <= i < |r| - 1
      ensures NotTwoSpaces(r, i)
    {
      if i > 0 {
        assert NotTwoSpaces(t, i - 1);
        assert r[i] == t[i - 1] && r[i + 1] == t[i];
      }
    }
    assert forall i :: 1 <= i < |r| ==> r[i] == t[i - 1];
  }

  /** Collapsing keeps every character that is not white space, in order. */
  lemma {:induction false} CollapseKeepsText(s: string)
    ensures StripSpaces(CollapseSpaces(s)) == StripSpaces(s)
    decreases |s|
  {
    if |s| > 0 {
      if IsSpace(s[0]) {
        CollapseKeepsText(TrimStart(s));
        SpaceRunKept(s);
      } else {
        CollapseKeepsText(s[1..]);
        TextHeadKept(s);
      }
    }
  }

  /** The step of `CollapseKeepsText` at a run of white space. */
  lemma {:induction false} SpaceRunKept(s: string)
    requires |s| > 0 && IsSpace(s[0])
    requires StripSpaces(CollapseSpaces(TrimStart(s))) == StripSpaces(TrimStart(s))
    ensures StripSpaces(CollapseSpaces(s)) == StripSpaces(s)
  {
    var t := TrimStart(s);
    TrimStartDropsSpace(s);
    SpaceRunDropped(s, t, CollapseSpaces(t));
  }

  /** The step of `CollapseKeepsText` at a character that is not white space. */
  lemma {:induction false} TextHeadKept(s: string)
    requires |s| > 0 && !IsSpace(s[0])
    requires StripSpaces(CollapseSpaces(s[1..])) == StripSpaces(s[1..])
    ensures StripSpaces(CollapseSpaces(s)) == StripSpaces(s)
  {
    assert s == [s[0]] + s[1..];
    KeptHead(s[0], CollapseSpaces(s[1..]), s[1..]);
  }

  /** A character that is not white space, put in front of two texts with
      the same non-space characters, is kept in both. */
  lemma {:induction false} KeptHead(c: char, a: string, b: string)
    requires !IsSpace(c) && StripSpaces(a) == StripSpaces(b)
    ensures StripSpaces([c] + a) == StripSpaces([c] + b)
  {
    FilterCons(c, a, NotSpace);
    FilterCons(c, b, NotSpace);
  }

  /** Replacing a leading run of white space by one space keeps the
      characters that are not white space. */
  lemma {:induction false} SpaceRunDropped(s: string, t: string, u: string)
    requires |t| <= |s| && t == s[|s| - |t|..] && AllSpace(s[..|s| - |t|])
    requires StripSpaces(u) == StripSpaces(t)
    ensures StripSpaces(" " + u) == StripSpaces(s)
  {
    var lead := s[..|s| - |t|];
    assert s == lead + t;
    FilterConcat(lead, t, NotSpace);
    FilterNone(lead, NotSpace);
    FilterCons(' ', u, NotSpace);
  }

  /** Single-spaced text is left as it is. */
  lemma {:induction false} CollapseSingleSpaced(s: string)
    requires SingleSpaced(s)
    ensures CollapseSpaces(s) == s
    decreases |s|
  {
    if |s| > 0 {
      SingleSpacedPiece(s, 1, |s| - 1);
      assert s[1..|s|] == s[1..];
      CollapseSingleSpaced(s[1..]);
      if |s| > 1 {
        assert NotTwoSpaces(s, 0);
      }
      CollapseStep(s);
      assert s == [s[0]] + s[1..];
    }
  }

  /** A character that does not start a run of white space is kept, and
      so is a lone space. */
  lemma {:induction false} CollapseStep(s: string)
    requires |s| > 0 && (IsSpace(s[0]) ==> s[0] == ' ' && (|s| == 1 || !IsSpace(s[1])))
    ensures CollapseSpaces(s) == [s[0]] + CollapseSpaces(s[1..])
  {
    if IsSpace(s[0]) {
      LoneSpace(s);
    }
  }

  /** Trimming the start of text that begins with one white-space character
      removes just that character. */
  lemma {:induction false} LoneSpace(s: string)
    requires |s| > 0 && IsSpace(s[0]) && (|s| == 1 || !IsSpace(s[1]))
    ensures TrimStart(s) == s[1..]
  {
    assert TrimStart(s) == TrimStart(s[1..]);
  }

  /** A piece of single-spaced text is single-spaced. */
  lemma {:induction false} SingleSpacedPiece(s: string, k: nat, n: nat)
    requires SingleSpaced(s) && k + n <= |s|
    ensures SingleSpaced(s[k..k + n])
  {
    var p := s[k..k + n];
    assert forall i :: 0 <= i < |p| ==> p[i] == s[k + i];
    forall i | 0 <= i < |p| - 1
      ensures NotTwoSpaces(p, i)
    {
      assert NotTwoSpaces(s, k + i);
    }
  }

  /** The text printed for an HTML body: tags removed, `&nbsp;` as a space,
      white space collapsed, and the ends trimmed (`trim` is `TrimStart`
      followed by `TrimEnd`). */
  function FlattenHtml(html: string): (r: string)
    ensures SingleSpaced(r)
    ensures |r| == 0 || (r[0] != ' ' && r[|r| - 1] != ' ')
  {
    var x := ReplaceNbsp(StripTags(html));
    var c := CollapseSpaces(x);
    var a := TrimStart(c);
    var r := TrimEnd(a);
    CollapseIsSingleSpaced(x);
    SingleSpacedSuffix(c, a);
    SingleSpacedPrefix(a, r);
    TrimmedEnds(a, r);
    r
  }

  /** Flattening only rearranges white space: apart from white space, the
      text printed is the body with its tags removed and each `&nbsp;` read
      as a space, character for character. */
  lemma {:induction false} FlattenHtmlKeepsText(html: string)
    ensures StripSpaces(FlattenHtml(html)) == StripSpaces(ReplaceNbsp(StripTags(html)))
  {
    var x := ReplaceNbsp(StripTags(html));
    CollapseKeepsText(x);
    TrimKeepsText(CollapseSpaces(x));
  }

  /** A suffix of single-spaced text is single-spaced. */
  lemma {:induction false} SingleSpacedSuffix(c: string, a: string)
    requires SingleSpaced(c) && |a| <= |c| && a == c[|c| - |a|..]
    ensures SingleSpaced(a)
  {
    SingleSpacedPiece(c, |c| - |a|, |a|);
    assert c[|c| - |a|..|c|] == a;
  }

  /** A prefix of single-spaced text is single-spaced. */
  lemma {:induction false} SingleSpacedPrefix(a: string, r: string)
    requires SingleSpaced(a) && |r| <= |a| && r == a[..|r|]
    ensures SingleSpaced(r)
  {
    SingleSpacedPiece(a, 0, |r|);
    assert a[0..|r|] == r;
  }

  /** A prefix of text that starts with no white space, which itself ends
      with none, has no space at either end. */
  lemma {:induction false} TrimmedEnds(a: string, r: string)
    requires |r| <= |a| && r == a[..|r|]
    requires |a| == 0 || !IsSpace(a[0])
    requires |r| == 0 || !IsSpace(r[|r| - 1])
    ensures |r| == 0 || (r[0] != ' ' && r[|r| - 1] != ' ')
  {
    if |r| > 0 {
      assert r[0] == a[0];
    }
  }

  /** Text that is already plain, single-spaced and trimmed comes out
      unchanged. */
  lemma {:induction false} FlattenPlain(s: string)
    requires '<' !in s && '&' !in s && SingleSpaced(s)
    requires |s| == 0 || (!IsSpace(s[0]) && !IsSpace(s[|s| - 1]))
    ensures FlattenHtml(s) == s
  {
    StripTagsPlain(s);
    ReplaceNbspPlain(s);
    CollapseSingleSpaced(s);
    TrimTrimmed(s);
    assert Trim(s) == TrimEnd(TrimStart(s));
  }

  /** The body printed by the demo output: the flattened HTML when there is
      some, else the text, else `내용 없음`. */
  function BodyText(html: string, text: string): (r: string)
    ensures html != "" ==> r == FlattenHtml(html)
    ensures html == "" && text != "" ==> r == text
    ensures html == "" && text == "" ==> r == "내용 없음"
  {
    if html != "" then FlattenHtml(html) else if text != "" then text else "내용 없음"
  }

  // ---------------------------------------------------------------------
  // Sending

  /** A thrown error's `code` and `message`; "" where it has none. Its stack
      trace is not modelled. */
  datatype Error = Error(code: string, message: string)

  /** The mail to send; "" for an absent `text` or `html`. */
  datatype Params = Params(to: string, subject: string, text: string, html: string)

  /** How the SMTP exchange goes: `verify` throws, `sendMail` throws, or the
      mail is accepted under a message id ("" when the server gives none). */
  datatype SmtpOutcome =
    | VerifyFails(error: Error)
    | SendFails(error: Error)
    | Accepted(messageId: string)

  /** An entry appended to `logging.txt`. */
  datatype LogEntry =
    | ErrorEntry(context: string, code: string, message: string, to: string, subject: string,
                 userSet: bool, passLength: nat)
    | SuccessEntry(to: string, subject: string, messageId: string, user: string)

  /** JavaScript's `a || b` on strings. */
  function OrElse(a: string, b: string): string {
    if a != "" then a else b
  }

  /** `logEmailError`: what is recorded of an error. A missing code,
      message, recipient or subject is written as a placeholder, and of the
      password only the length of `GMAIL_PASS` without white space. */
  function ErrorLog(e: Env, err: Error, context: string, p: Params): (entry: LogEntry)
    ensures entry.ErrorEntry? && entry.context == context
    ensures entry.code == (if err.code == "" then "UNKNOWN" else err.code)
    ensures entry.message == (if err.message == "" then "No message" else err.message)
    ensures entry.to == (if p.to == "" then "N/A" else p.to)
    ensures entry.subject == (if p.subject == "" then "N/A" else p.subject)
    ensures entry.userSet <==> e.gmailUser != ""
    ensures entry.passLength == |StripSpaces(e.gmailPass)|
  {
    ErrorEntry(context, OrElse(err.code, "UNKNOWN"), OrElse(err.message, "No message"),
               OrElse(p.to, "N/A"), OrElse(p.subject, "N/A"), e.gmailUser != "",
               |StripSpaces(e.gmailPass)|)
  }

  /** The error entry gives nothing of the password away beyond the length
      of `GMAIL_PASS`: environments that agree on that and on whether a user
      is set are logged alike, whatever `GMAIL_APP_PASSWORD` holds. */
  lemma {:induction false} ErrorLogHidesPassword(e1: Env, e2: Env, err: Error, context: string, p: Params)
    requires (e1.gmailUser == "") == (e2.gmailUser == "")
    requires |StripSpaces(e1.gmailPass)| == |StripSpaces(e2.gmailPass)|
    ensures ErrorLog(e1, err, context, p) == ErrorLog(e2, err, context, p)
  {
  }

  /** `logEmailSuccess`: the entry for a delivered mail. */
  function SuccessLog(e: Env, p: Params, messageId: string): (entry: LogEntry)
    ensures entry.SuccessEntry? && entry.to == p.to && entry.subject == p.subject
    ensures entry.messageId == (if messageId == "" then "N/A" else messageId)
    ensures entry.user == e.gmailUser
  {
    SuccessEntry(p.to, p.subject, OrElse(messageId, "N/A"), e.gmailUser)
  }

  /** The error `sendEmail` logs when the credentials are not valid. */
  const CredentialsError := Error("", "Gmail credentials validation failed")

  /** `sendRealEmail`: the outcome of the exchange as a result, `true` or
      the error thrown on, and the entries it logs. */
  function SendRealEmail(e: Env, p: Params, o: SmtpOutcome): (r: (Result<bool, Error>, seq<LogEntry>))
    ensures r.0.Success? <==> o.Accepted?
    ensures r.0.Success? ==> r.0.value && r.1 == [SuccessLog(e, p, o.messageId)]
    ensures r.0.Failure? ==>
      r.0.error == o.error && r.1 == [ErrorLog(e, o.error, "Gmail SMTP sending failed", p)]
  {
    match o
    case Accepted(id) => (Success(true), [SuccessLog(e, p, id)])
    case VerifyFails(err) => (Failure(err), [ErrorLog(e, err, "Gmail SMTP sending failed", p)])
    case SendFails(err) => (Failure(err), [ErrorLog(e, err, "Gmail SMTP sending failed", p)])
  }

  /** What one call of `sendEmail` does: the value it resolves to, whether
      it opened an SMTP transport, the body it printed, and what it logged. */
  datatype Dispatch = Dispatch(returned: bool, attempted: bool, printed: string, log: seq<LogEntry>)

  /** `sendEmail`: the demo output always, then a real send when the
      credentials are valid. A thrown send is logged a second time and the
      call still resolves to `true`; so does a call with invalid
      credentials, after logging the failed validation. */
  function SendEmail(e: Env, p: Params, o: SmtpOutcome): (r: Dispatch)
    ensures r.returned
    ensures r.printed == BodyText(p.html, p.text)
    ensures r.attempted <==> ValidCredentials(e)
    ensures !ValidCredentials(e) ==>
      r.log == [ErrorLog(e, CredentialsError, "Gmail credentials validation", p)]
    ensures ValidCredentials(e) && o.Accepted? ==>
      r.log == [SuccessLog(e, p, o.messageId), SuccessLog(e, p, "gmail-success")]
    ensures ValidCredentials(e) && !o.Accepted? ==>
      r.log == [ErrorLog(e, o.error, "Gmail SMTP sending failed", p),
                ErrorLog(e, o.error, "Real Gmail sending failed", p)]
  {
    Dispatched(ValidCredentials(e), BodyText(p.html, p.text), e, p, o)
  }

  /** `sendEmail` once the credentials have been checked (`valid`) and the
      demo body printed (`shown`). */
  function Dispatched(valid: bool, shown: string, e: Env, p: Params, o: SmtpOutcome): (r: Dispatch)
    ensures r.returned && r.printed == shown
    ensures r.attempted <==> valid
    ensures !valid ==> r.log == [ErrorLog(e, CredentialsError, "Gmail credentials validation", p)]
    ensures valid && o.Accepted? ==>
      r.log == [SuccessLog(e, p, o.messageId), SuccessLog(e, p, "gmail-success")]
    ensures valid && !o.Accepted? ==>
      r.log == [ErrorLog(e, o.error, "Gmail SMTP sending failed", p),
                ErrorLog(e, o.error, "Real Gmail sending failed", p)]
  {
    if !valid then
      Dispatch(true, false, shown, [ErrorLog(e, CredentialsError, "Gmail credentials validation", p)])
    else
      var (result, log) := SendRealEmail(e, p, o);
      match result
      case Success(ok) =>
        Dispatch(ok, true, shown, log + (if ok then [SuccessLog(e, p, "gmail-success")] else []))
      case Failure(err) =>
        Dispatch(true, true, shown, log + [ErrorLog(e, err, "Real Gmail sending failed", p)])
  }

  /** Every call logs, and the log has a success entry exactly when the
      mail was accepted over valid credentials. */
  lemma {:induction false} SendEmailLogsOutcome(e: Env, p: Params, o: SmtpOutcome)
    ensures |SendEmail(e, p, o).log| > 0
    ensures HasSuccessEntry(SendEmail(e, p, o).log) <==> ValidCredentials(e) && o.Accepted?
  {
    DispatchLogsOutcome(ValidCredentials(e), BodyText(p.html, p.text), e, p, o);
  }

  predicate HasSuccessEntry(log: seq<LogEntry>) {
    exists i :: 0 <= i < |log| && log[i].SuccessEntry?
  }

  lemma {:induction false} DispatchLogsOutcome(valid: bool, shown: string, e: Env, p: Params, o: SmtpOutcome)
    ensures |Dispatched(valid, shown, e, p, o).log| > 0
    ensures HasSuccessEntry(Dispatched(valid, shown, e, p, o).log) <==> valid && o.Accepted?
  {
    var log := Dispatched(valid, shown, e, p, o).log;
    if valid && o.Accepted? {
      assert log[0].SuccessEntry?;
    } else if valid {
      assert log[0].ErrorEntry? && log[1].ErrorEntry?;
    } else {
      assert log[0].ErrorEntry?;
    }
  }

  // ---------------------------------------------------------------------
  // Subjects

  /** `🚨 긴급: {department} 법규 준수 알림` */
  function UrgentSubject(department: string): (r: string)
    ensures StartsWith(r, "🚨 긴급: ") && EndsWith(r, " 법규 준수 알림")
    ensures Contains(r, department)
  {
    Framed("🚨 긴급: ", department, " 법규 준수 알림");
    "🚨 긴급: " + department + " 법규 준수 알림"
  }

  /** `⏰ 법규 시행 알림: {name} (D-{days})` */
  function ReminderSubject(name: string, days: int): (r: string)
    ensures StartsWith(r, "⏰ 법규 시행 알림: ") && EndsWith(r, ")")
    ensures Contains(r, name)
  {
    Framed("⏰ 법규 시행 알림: ", name, " (D-" + IntToString(days) + ")");
    assert EndsWith(" (D-" + IntToString(days) + ")", ")");
    "⏰ 법규 시행 알림: " + name + (" (D-" + IntToString(days) + ")")
  }

  /** `📊 {month} 월간 법규 준수 보고서 - {department}` */
  function ReportSubject(month: string, department: string): (r: string)
    ensures StartsWith(r, "📊 ") && EndsWith(r, department)
    ensures Contains(r, month)
  {
    Framed("📊 ", month, " 월간 법규 준수 보고서 - " + department);
    var r := "📊 " + month + (" 월간 법규 준수 보고서 - " + department);
    assert r[|r| - |department|..] == department;
    r
  }

  /** `🔔 시스템 알림: {title}` */
  function SystemSubject(title: string): (r: string)
    ensures StartsWith(r, "🔔 시스템 알림: ") && EndsWith(r, title)
  {
    Framed("🔔 시스템 알림: ", title, "");
    assert "🔔 시스템 알림: " + title + "" == "🔔 시스템 알림: " + title;
    "🔔 시스템 알림: " + title
  }

  /** The subject tells the department, the regulation and the days left,
      the report's month and department, and the title apart. */
  lemma {:induction false} SubjectsDistinguish(a: string, b: string, m: string, d: int)
    ensures UrgentSubject(a) == UrgentSubject(b) ==> a == b
    ensures ReminderSubject(a, d) == ReminderSubject(b, d) ==> a == b
    ensures ReportSubject(m, a) == ReportSubject(m, b) ==> a == b
    ensures SystemSubject(a) == SystemSubject(b) ==> a == b
  {
    if UrgentSubject(a) == UrgentSubject(b) {
      MiddleCancel("🚨 긴급: ", a, b, " 법규 준수 알림");
    }
    if ReminderSubject(a, d) == ReminderSubject(b, d) {
      MiddleCancel("⏰ 법규 시행 알림: ", a, b, " (D-" + IntToString(d) + ")");
    }
    if ReportSubject(m, a) == ReportSubject(m, b) {
      MiddleCancel("📊 " + m + " 월간 법규 준수 보고서 - ", a, b, "");
    }
    if SystemSubject(a) == SystemSubject(b) {
      MiddleCancel("🔔 시스템 알림: ", a, b, "");
    }
  }
}

=== FILE: email_old.dfy ===
/** The earlier mail service: the same address check with a sixteen
    character app password taken from `GMAIL_APP_PASSWORD` only, no log
    file, and a `sendEmail` that resolves to `false` when the SMTP exchange
    fails. */
module EmailOld {
  import opened Wrappers
  import opened Seqs
  import opened Text
  import opened Email

  /** `GMAIL_APP_PASSWORD` with all white space removed. */
  function AppPassword(e: Env): (p: string)
    ensures forall i :: 0 <= i < |p| ==> !IsSpace(p[i])
  {
    StripSpaces(e.gmailAppPassword)
  }

  /** The old `isValidGmailCredentials`: the trimmed user is an e-mail
      address and the app password has exactly sixteen characters besides
      white space. */
  function ValidCredentialsOld(e: Env): (ok: bool)
    ensures ok <==> MatchesEmailPattern(Trim(e.gmailUser)) && |AppPassword(e)| == 16
  {
    var user := Trim(e.gmailUser);
    var pass := AppPassword(e);
    if user == "" || pass == "" then false
    else if !EmailShaped(user) then false
    else |pass| == 16
  }

  /** With `GMAIL_PASS` unset, what the old check accepts the current one
      accepts too. */
  lemma {:induction false} OldValidIsValid(e: Env)
    requires e.gmailPass == ""
    ensures ValidCredentialsOld(e) ==> ValidCredentials(e)
  {
    PassTakesPrecedence(e);
  }

  /** What one call of the old `sendEmail` does: the value it resolves to,
      whether it opened an SMTP transport, and the body printed by the
      demo output, if it was printed. */
  datatype OldDispatch = OldDispatch(returned: bool, attempted: bool, printed: Option<string>)

  /** The old `sendEmail`: invalid credentials print the demo output and
      resolve to `true` without a transport; otherwise the result is
      whether `verify` and `sendMail` both succeed. */
  function SendEmailOld(e: Env, p: Params, o: SmtpOutcome): (r: OldDispatch)
    ensures r.attempted <==> ValidCredentialsOld(e)
    ensures !r.attempted ==> r.returned && r.printed == Some(BodyText(p.html, p.text))
    ensures r.attempted ==> (r.returned <==> o.Accepted?) && r.printed.None?
  {
    if !ValidCredentialsOld(e) then OldDispatch(true, false, Some(BodyText(p.html, p.text)))
    else
      match o
      case VerifyFails(_) => OldDispatch(false, true, None)
      case SendFails(_) => OldDispatch(false, true, None)
      case Accepted(_) => OldDispatch(true, true, None)
  }

  /** The two services part ways on a failed exchange: where both find the
      credentials valid and the exchange fails, the old one resolves to
      `false` and the current one to `true`. */
  lemma {:induction false} FailedSendDiffers(e: Env, p: Params, o: SmtpOutcome)
    requires e.gmailPass == "" && ValidCredentialsOld(e) && !o.Accepted?
    ensures !SendEmailOld(e, p, o).returned && SendEmail(e, p, o).returned
  {
    OldValidIsValid(e);
  }
}

=== FILE: excel_service.dfy ===
/** The spreadsheet-backed regulation store of the server: a five-minute
    cache in front of the sheet reader, and the queries every endpoint is
    built on. Reading the sheet is a parameter: the rows it produced, or the
    error it threw. */
module ExcelService {
  import opened Wrappers
  import opened Text
  import Seqs
  import LexOrder
  import opened Records

  /** How long loaded rows are served without reading the sheet again, in
      milliseconds: five minutes. */
  const CacheDuration: int := 5 * 60 * 1000

  /** The message of the error `loadData` throws when the sheet cannot be read. */
  const LoadError: string := "Failed to load legal regulation data"

  /** The header text of the number column; a row repeating the header is
      not data. */
  const NumberHeader: string := "번호"

  /** The rows kept from the sheet: they have a number and a law name, and
      are not a repeated header row. */
  predicate KeepRow(r: Regulation) {
    r.number != "" && r.lawName != "" && r.number != NumberHeader
  }

  function KeepRowP(): Regulation -> bool {
    (r: Regulation) => KeepRow(r)
  }

  /** The cached rows and the time they were loaded. */
  datatype Cache = Cache(data: seq<Regulation>, lastLoadTime: int)

  /** The store as created: no rows, never loaded. */
  const Initial: Cache := Cache([], 0)

  /** Every cached row passed the row filter. */
  predicate Valid(c: Cache) {
    forall i :: 0 <= i < |c.data| ==> KeepRow(c.data[i])
  }

  predicate ShouldReload(c: Cache, now: int) {
    now - c.lastLoadTime > CacheDuration
  }

  /** `loadData` at time `now`. `sheet` is what reading the sheet yields: its
      rows, or a failure. Returns the outcome and the cache afterwards. */
  function LoadData(c: Cache, now: int, sheet: Result<seq<Regulation>, string>)
    : (r: (Result<seq<Regulation>, string>, Cache))
    requires Valid(c)
    ensures Valid(r.1)
    // A fresh, non-empty cache is served as it is.
    ensures |c.data| > 0 && !ShouldReload(c, now) ==> r == (Success(c.data), c)
    // Otherwise the sheet is read: its rows that pass the filter, in order
    // and each as often as the sheet holds it, become the cache and the
    // answer ...
    ensures (|c.data| == 0 || ShouldReload(c, now)) && sheet.Success? ==>
              r.0.Success? && r.1 == Cache(r.0.value, now)
              && (forall x :: x in r.0.value <==> x in sheet.value && KeepRow(x))
              && Seqs.Selects(r.0.value, sheet.value, KeepRowP())
              && |r.0.value| == Seqs.Count(sheet.value, KeepRowP())
    // ... or, when reading fails, the load fails and the cache is untouched.
    ensures (|c.data| == 0 || ShouldReload(c, now)) && sheet.Failure? ==>
              r == (Failure(LoadError), c)
    ensures r.0.Success? ==> forall i :: 0 <= i < |r.0.value| ==> KeepRow(r.0.value[i])
  {
    if |c.data| > 0 && !ShouldReload(c, now) then (Success(c.data), c)
    else
      match sheet
      case Failure(_) => (Failure(LoadError), c)
      case Success(rows) =>
        var kept := Seqs.Filter(rows, KeepRowP());
        Seqs.FilterSelects(rows, KeepRowP());
        Seqs.FilterMembers(rows, KeepRowP());
        (Success(kept), Cache(kept, now))
  }

  /** Within five minutes of a load that kept at least one row, the next
      load answers the same rows from the cache, whatever the sheet now holds. */
  lemma {:induction false} LoadServedFromCache(c: Cache, now: int, sheet: Result<seq<Regulation>, string>,
                            later: int, sheet2: Result<seq<Regulation>, string>)
    requires Valid(c)
    requires LoadData(c, now, sheet).0.Success? && |LoadData(c, now, sheet).0.value| > 0
    requires now <= later <= LoadData(c, now, sheet).1.lastLoadTime + CacheDuration
    ensures LoadData(LoadData(c, now, sheet).1, later, sheet2).0 == LoadData(c, now, sheet).0
  {
  }

  /** A failed load leaves the store exactly as it was, so a later load
      retries the sheet (or serves the old rows when they are still fresh). */
  lemma {:induction false} LoadFailureKeepsCache(c: Cache, now: int, err: string)
    requires Valid(c)
    requires |c.data| == 0 || ShouldReload(c, now)
    ensures LoadData(c, now, Failure(err)).1 == c
    ensures LoadData(c, now, Failure(err)).0 == Failure(LoadError)
  {
  }

  // ---------------------------------------------------------------------
  // Queries over the loaded rows

  /** `cell?.toLowerCase().includes(term)` when the search term is already
      folded: a missing cell never matches. */
  predicate CellMatches(cell: string, term: string) {
    cell != "" && Contains(Lower(cell), term)
  }

  /** The rows whose `field` contains `query`, ignoring case. */
  function FieldMatchP(field: Regulation -> string, query: string): Regulation -> bool {
    (x: Regulation) => CellMatches(field(x), Lower(query))
  }

  function DepartmentField(x: Regulation): string { x.department }
  function LawTypeField(x: Regulation): string { x.lawType }

  /** The rows whose `field` contains `query`, ignoring case, in sheet
      order and each as often as the sheet holds it. */
  function RowsMatching(data: seq<Regulation>, field: Regulation -> string, query: string): (r: seq<Regulation>)
    ensures forall x :: x in r <==> x in data && CellMatches(field(x), Lower(query))
    ensures Seqs.Selects(r, data, FieldMatchP(field, query))
    ensures |r| == Seqs.Count(data, FieldMatchP(field, query))
  {
    Seqs.FilterSelects(data, FieldMatchP(field, query));
    Seqs.FilterMembers(data, FieldMatchP(field, query));
    Seqs.Filter(data, FieldMatchP(field, query))
  }

  /** `getRegulationsByDepartment`: rows whose department contains the query,
      ignoring case. */
  function ByDepartment(data: seq<Regulation>, department: string): (r: seq<Regulation>)
    ensures forall x :: x in r <==> x in data && CellMatches(x.department, Lower(department))
    ensures Seqs.Selects(r, data, FieldMatchP(DepartmentField, department))
    ensures |r| == Seqs.Count(data, FieldMatchP(DepartmentField, department))
  {
    RowsMatching(data, DepartmentField, department)
  }

  /** `getRegulationsByType`: rows whose law type contains the query,
      ignoring case. */
  function ByType(data: seq<Regulation>, lawType: string): (r: seq<Regulation>)
    ensures forall x :: x in r <==> x in data && CellMatches(x.lawType, Lower(lawType))
    ensures Seqs.Selects(r, data, FieldMatchP(LawTypeField, lawType))
    ensures |r| == Seqs.Count(data, FieldMatchP(LawTypeField, lawType))
  {
    RowsMatching(data, LawTypeField, lawType)
  }

  /** The empty query keeps exactly the rows that have a department. */
  lemma {:induction false} ByDepartmentEmptyQuery(data: seq<Regulation>)
    ensures forall x :: x in ByDepartment(data, "") <==> x in data && x.department != ""
  {
    forall x | x in data && x.department != ""
      ensures CellMatches(x.department, Lower(""))
    {
      ContainsAt(Lower(x.department), "", 0);
    }
  }

  /** `getRegulationById`: the first row with that number, or nothing. */
  function ById(data: seq<Regulation>, id: string): (r: Option<Regulation>)
    ensures r.Some? ==> r.value in data && r.value.number == id
    ensures r.Some? ==> exists i :: 0 <= i < |data| && data[i] == r.value
                          && forall j :: 0 <= j < i ==> data[j].number != id
    ensures r.None? <==> forall i :: 0 <= i < |data| ==> data[i].number != id
  {
    if |data| == 0 then None
    else if data[0].number == id then Some(data[0])
    else
      var rest := ById(data[1..], id);
      assert forall i :: 1 <= i < |data| ==> data[i] == data[1..][i - 1];
      if rest.Some? then
        var k :| 0 <= k < |data[1..]| && data[1..][k] == rest.value
                 && forall j :: 0 <= j < k ==> data[1..][j].number != id;
        assert data[k + 1] == rest.value;
        rest
      else rest
  }

  /** The fields `searchRegulations` looks in: law name, short name,
      ministry, department and AI summary. */
  predicate SearchMatches(x: Regulation, term: string) {
    CellMatches(x.lawName, term) || CellMatches(x.shortName, term)
    || CellMatches(x.ministry, term) || CellMatches(x.department, term)
    || CellMatches(x.aiSummary, term)
  }

  /** The rows `searchRegulations` keeps for `query`. */
  function SearchP(query: string): Regulation -> bool {
    (x: Regulation) => SearchMatches(x, Lower(query))
  }

  /** `searchRegulations`: rows where any searched field contains the
      query, ignoring case, in sheet order and each as often as the sheet
      holds it. */
  function Search(data: seq<Regulation>, query: string): (r: seq<Regulation>)
    ensures forall x :: x in r <==> x in data && SearchMatches(x, Lower(query))
    ensures Seqs.Selects(r, data, SearchP(query))
    ensures |r| == Seqs.Count(data, SearchP(query))
  {
    Seqs.FilterSelects(data, SearchP(query));
    Seqs.FilterMembers(data, SearchP(query));
    Seqs.Filter(data, SearchP(query))
  }

  /** Searching finds at least what the department filter finds. */
  lemma {:induction false} SearchCoversDepartment(data: seq<Regulation>, query: string)
    ensures forall x :: x in ByDepartment(data, query) ==> x in Search(data, query)
  {
  }

  /** `getDepartments`: the distinct named departments, sorted. */
  function Departments(data: seq<Regulation>): (r: seq<string>)
    ensures LexOrder.StrictlySorted(r)
    ensures forall d :: d in r <==> exists x :: x in data && HasValue(x.department) && x.department == d
  {
    var field := (x: Regulation) => x.department;
    Seqs.MapFilterMembers(data, HasDepartment, field);
    DistinctSorted(Seqs.Map(Seqs.Filter(data, HasDepartment), field))
  }

  /** `getRegulationTypes`: the distinct named law types, sorted. */
  function RegulationTypes(data: seq<Regulation>): (r: seq<string>)
    ensures LexOrder.StrictlySorted(r)
    ensures forall t :: t in r <==> exists x :: x in data && HasValue(x.lawType) && x.lawType == t
  {
    var named := (x: Regulation) => HasValue(x.lawType);
    var field := (x: Regulation) => x.lawType;
    Seqs.MapFilterMembers(data, named, field);
    DistinctSorted(Seqs.Map(Seqs.Filter(data, named), field))
  }

  /** `Array.from(new Set(values)).sort()` */
  function DistinctSorted(values: seq<string>): (r: seq<string>)
    ensures LexOrder.StrictlySorted(r)
    ensures forall d :: d in r <==> d in values
  {
    var d := Seqs.Dedup(values);
    LexOrder.SortDistinct(d);
    assert forall v :: v in LexOrder.Sort(d) <==> v in multiset(LexOrder.Sort(d));
    LexOrder.Sort(d)
  }
}

=== FILE: keywords.dfy ===
/** First-match keyword classification: an ordered list of categories, each
    with its keywords; a text falls in the first category one of whose
    keywords it contains. */
module Keywords {
  import opened Wrappers
  import opened Text

  datatype Rule = Rule(category: string, keywords: seq<string>)

  /** `keywords.some(k => text.includes(k))` */
  predicate MentionsAny(text: string, keywords: seq<string>) {
    exists k :: 0 <= k < |keywords| && Contains(text, keywords[k])
  }

  /** The position of the first rule whose keywords the text mentions. */
  function FirstRule(rules: seq<Rule>, text: string): (r: Option<nat>)
    ensures r.Some? ==> r.value < |rules| && MentionsAny(text, rules[r.value].keywords)
    ensures r.Some? ==> forall j :: 0 <= j < r.value ==> !MentionsAny(text, rules[j].keywords)
    ensures r.None? <==> forall j :: 0 <= j < |rules| ==> !MentionsAny(text, rules[j].keywords)
  {
    if |rules| == 0 then None
    else if MentionsAny(text, rules[0].keywords) then Some(0)
    else
      match FirstRule(rules[1..], text)
      case None => None
      case Some(i) => Some(i + 1)
  }

  /** The category of the first matching rule, or `fallback`. */
  function Classify(rules: seq<Rule>, text: string, fallback: string): (r: string)
    ensures (forall j :: 0 <= j < |rules| ==> !MentionsAny(text, rules[j].keywords)) ==> r == fallback
    ensures forall i :: 0 <= i < |rules| && MentionsAny(text, rules[i].keywords)
              && (forall j :: 0 <= j < i ==> !MentionsAny(text, rules[j].keywords))
              ==> r == rules[i].category
  {
    match FirstRule(rules, text)
    case None => fallback
    case Some(i) => rules[i].category
  }

  /** A text that mentions a keyword of rule `i` is classified by rule `i` or
      by an earlier rule. */
  lemma {:induction false} ClassifiedNoLaterThan(rules: seq<Rule>, text: string, fallback: string, i: int, k: int)
    requires 0 <= i < |rules| && 0 <= k < |rules[i].keywords|
    requires Contains(text, rules[i].keywords[k])
    ensures exists j :: 0 <= j <= i && Classify(rules, text, fallback) == rules[j].category
  {
    var r := FirstRule(rules, text);
    assert MentionsAny(text, rules[i].keywords);
    assert r.Some? && r.value <= i;
  }

  /** Text without any keyword of any rule gets the fallback. */
  lemma {:induction false} UnmatchedGetsFallback(rules: seq<Rule>, text: string, fallback: string)
    requires forall i, k :: 0 <= i < |rules| && 0 <= k < |rules[i].keywords| ==> !Contains(text, rules[i].keywords[k])
    ensures Classify(rules, text, fallback) == fallback
  {
  }

  /** The empty text mentions no non-empty keyword. */
  lemma {:induction false} EmptyMentionsNothing(keywords: seq<string>)
    requires forall k :: 0 <= k < |keywords| ==> keywords[k] != ""
    ensures !MentionsAny("", keywords)
  {
  }
}

=== FILE: law_sync.dfy ===
/** The law synchroniser: how a scraped notice title is accepted and
    categorised, how a date written in one of three Korean styles is read,
    how many scraped notices are kept, and which departments a new
    regulation concerns. Fetching the pages and writing to the database are
    not modelled; their results come in as parameters. */
module LawSync {
  import opened Wrappers
  import opened Seqs
  import opened Text
  import Keywords

  // ---------------------------------------------------------------------
  // Categories

  const OtherLaw: string := "기타법령"

  /** The categories and their keywords, in the order they are checked. */
  const CategoryRules: seq<Keywords.Rule> := [
    Keywords.Rule("정보보호법", ["개인정보", "정보통신", "데이터", "사이버", "보안"]),
    Keywords.Rule("안전법", ["안전", "보건", "산업안전", "화재", "재난", "위험"]),
    Keywords.Rule("노동법", ["근로", "노동", "임금", "휴가", "고용"]),
    Keywords.Rule("환경법", ["환경", "대기", "수질", "폐기물", "화학물질"]),
    Keywords.Rule("세법", ["세금", "세법", "소득세", "부가가치세", "법인세"]),
    Keywords.Rule("건설법", ["건설", "건축", "도시계획", "토지"]),
    Keywords.Rule("금융법", ["금융", "은행", "보험", "투자", "자본시장"]),
    Keywords.Rule("상법", ["상법", "회사", "상행위"]),
    Keywords.Rule("경제법", ["공정거래", "독점", "경쟁"]),
    Keywords.Rule("식품법", ["식품", "위생", "건강기능식품"])
  ]

  /** `categorizeRegulation`: the first category with a keyword in the
      title, or 기타법령. */
  function Categorize(title: string): (r: string)
    ensures r == OtherLaw || exists i :: 0 <= i < |CategoryRules| && r == CategoryRules[i].category
    ensures (forall i :: 0 <= i < |CategoryRules| ==> !Keywords.MentionsAny(title, CategoryRules[i].keywords)) ==> r == OtherLaw
    // The first rule, in the order listed, whose keyword the title contains
    // decides the category.
    ensures forall i :: 0 <= i < |CategoryRules| && Keywords.MentionsAny(title, CategoryRules[i].keywords)
              && (forall j :: 0 <= j < i ==> !Keywords.MentionsAny(title, CategoryRules[j].keywords))
              ==> r == CategoryRules[i].category
  {
    Keywords.Classify(CategoryRules, title, OtherLaw)
  }

  /** The ten categories are distinct and none is 기타법령, so the category
      names the rule that decided it: it is rule `i`'s exactly when rule `i`
      is the first whose keyword the title contains. */
  lemma {:induction false} CategoryNamesFirstRule(title: string, i: int)
    requires 0 <= i < |CategoryRules|
    ensures Categorize(title) == CategoryRules[i].category <==>
              Keywords.MentionsAny(title, CategoryRules[i].keywords)
              && forall j :: 0 <= j < i ==> !Keywords.MentionsAny(title, CategoryRules[j].keywords)
  {
    assert forall a, b :: 0 <= a < b < |CategoryRules| ==> CategoryRules[a].category != CategoryRules[b].category;
    assert forall a :: 0 <= a < |CategoryRules| ==> CategoryRules[a].category != OtherLaw;
    match Keywords.FirstRule(CategoryRules, title)
    case None =>
    case Some(k) =>
      assert Categorize(title) == CategoryRules[k].category;
  }

  /** Earlier categories win: a title that mentions both 보안 and 안전 is
      an information-protection law, not a safety law; a title with none of
      the keywords is 기타법령. */
  lemma {:induction false} CategoryOrder()
    ensures Categorize("보안 및 안전 관리 개정") == "정보보호법"
    ensures Categorize("산업안전보건법 시행령 개정") == "안전법"
    ensures Categorize("민법 개정") == OtherLaw
  {
    assert Contains("보안 및 안전 관리 개정", "보안") by {
      ContainsAt("보안 및 안전 관리 개정", "보안", 0);
    }
    assert Keywords.MentionsAny("보안 및 안전 관리 개정", CategoryRules[0].keywords) by {
      assert CategoryRules[0].keywords[4] == "보안";
    }
    var t := "산업안전보건법 시행령 개정";
    assert Contains(t, "안전") by {
      assert t[2..4] == "안전";
      ContainsAt(t, "안전", 2);
    }
    assert Keywords.MentionsAny(t, CategoryRules[1].keywords) by {
      assert CategoryRules[1].keywords[0] == "안전";
    }
    NoKeywordOfFirstRule(t);
    NoKeywordAnywhere("민법 개정");
  }

  /** "산업안전보건법 시행령 개정" mentions none of the first rule's keywords. */
  lemma {:induction false} NoKeywordOfFirstRule(t: string)
    requires t == "산업안전보건법 시행령 개정"
    ensures !Keywords.MentionsAny(t, CategoryRules[0].keywords)
  {
    forall k | 0 <= k < |CategoryRules[0].keywords|
      ensures !Contains(t, CategoryRules[0].keywords[k])
    {
      var w := CategoryRules[0].keywords[k];
      assert w[0] in {'개', '정', '데', '사', '보'};
      forall i | 0 <= i <= |t| - |w|
        ensures !OccursAt(t, w, i)
      {
        if t[i] == w[0] {
          assert t[i..i + |w|][0] == t[i];
          assert t[i..i + |w|][1] == t[i + 1];
          assert w[1] != t[i + 1];
        }
      }
    }
  }

  /** "민법 개정" mentions no keyword of any category. */
  lemma {:induction false} NoKeywordAnywhere(t: string)
    requires t == "민법 개정"
    ensures forall i :: 0 <= i < |CategoryRules| ==> !Keywords.MentionsAny(t, CategoryRules[i].keywords)
  {
    forall i, k | 0 <= i < |CategoryRules| && 0 <= k < |CategoryRules[i].keywords|
      ensures !Contains(t, CategoryRules[i].keywords[k])
    {
      var w := CategoryRules[i].keywords[k];
      forall j | 0 <= j <= |t| - |w|
        ensures !OccursAt(t, w, j)
      {
        assert t[j..j + |w|][0] == t[j];
        assert t[j..j + |w|][1] == t[j + 1];
      }
    }
  }

  // ---------------------------------------------------------------------
  // Accepting scraped notices

  /** A notice is taken when its title is non-empty and announces an
      amendment, an enactment or an entry into force. */
  predicate TitleAccepted(title: string) {
    title != "" && (Contains(title, "개정") || Contains(title, "제정") || Contains(title, "시행"))
  }

  /** A notice as scraped: its title and the text of its date cell. */
  datatype Notice = Notice(title: string, date: string)

  /** A regulation found by the crawler: the title, its category and the
      date read from the notice. */
  datatype Found = Found(name: string, category: string, effectiveDate: ParsedDate)

  function FoundOf(n: Notice): Found {
    Found(n.title, Categorize(n.title), ParseKoreanDate(n.date))
  }

  function TakenP(recent: Notice -> bool): Notice -> bool {
    (n: Notice) => TitleAccepted(n.title) && recent(n)
  }

  /** The regulations one page yields: the accepted notices whose date is
      recent enough (a date comparison, given as `recent`), in page order,
      each with its category. */
  function Collect(notices: seq<Notice>, recent: Notice -> bool): (r: seq<Found>)
    ensures |r| <= |notices|
    ensures forall i :: 0 <= i < |r| ==> TitleAccepted(r[i].name) && r[i].category == Categorize(r[i].name)
    ensures forall n :: n in notices && TitleAccepted(n.title) && recent(n) ==> FoundOf(n) in r
    ensures exists taken :: Selects(taken, notices, TakenP(recent)) && r == Map(taken, FoundOf)
    ensures |r| == Count(notices, TakenP(recent))
  {
    var taken := Filter(notices, TakenP(recent));
    CollectMembers(notices, recent);
    MapFilterSelects(notices, TakenP(recent), FoundOf);
    Map(taken, FoundOf)
  }

  /** Each collected regulation is an accepted notice, categorised, and
      every accepted recent notice is collected. */
  lemma {:induction false} CollectMembers(notices: seq<Notice>, recent: Notice -> bool)
    ensures var r := Map(Filter(notices, TakenP(recent)), FoundOf);
            (forall i :: 0 <= i < |r| ==> TitleAccepted(r[i].name) && r[i].category == Categorize(r[i].name))
            && (forall n :: n in notices && TitleAccepted(n.title) && recent(n) ==> FoundOf(n) in r)
  {
    var taken := Filter(notices, TakenP(recent));
    var r := Map(taken, FoundOf);
    FilterMembers(notices, TakenP(recent));
    forall n | n in taken
      ensures FoundOf(n) in r
    {
      var i :| 0 <= i < |taken| && taken[i] == n;
      assert r[i] == FoundOf(n);
    }
  }

  /** Collecting the notices of two pages one after the other gives the
      regulations of the first page followed by those of the second. */
  lemma {:induction false} CollectConcat(a: seq<Notice>, b: seq<Notice>, recent: Notice -> bool)
    ensures Collect(a + b, recent) == Collect(a, recent) + Collect(b, recent)
  {
    FilterConcat(a, b, TakenP(recent));
    MapConcat(Filter(a, TakenP(recent)), Filter(b, TakenP(recent)), FoundOf);
  }

  /** At most 100 of the crawled regulations; when the crawl found nothing
      or failed, the built-in list instead. */
  function CapCrawl<T(==)>(crawled: Result<seq<T>, string>, builtIn: seq<T>): (r: seq<T>)
    ensures crawled.Failure? ==> r == builtIn
    ensures crawled.Success? && crawled.value == [] ==> r == builtIn
    ensures crawled.Success? && crawled.value != [] ==>
              0 < |r| <= 100 && IsPrefix(r, crawled.value)
    ensures crawled.Success? && |crawled.value| <= 100 && crawled.value != [] ==> r == crawled.value
    ensures crawled.Success? && |crawled.value| > 100 ==> |r| == 100
  {
    if crawled.Failure? || crawled.value == [] then builtIn
    else Take(crawled.value, 100)
  }

  /** A capped crawl is not cut again. */
  lemma {:induction false} CapCrawlIdempotent<T>(crawled: Result<seq<T>, string>, builtIn: seq<T>)
    requires crawled.Success? && crawled.value != []
    ensures CapCrawl(Success(CapCrawl(crawled, builtIn)), builtIn) == CapCrawl(crawled, builtIn)
  {
  }

  // ---------------------------------------------------------------------
  // Reading a date: `parseKoreanDate` without its final ISO fallback

  /** One of the three date patterns: the character after the four-digit
      year, the one after the month, the one after the day (if any), and
      whether white space may follow the year and the month. */
  datatype Pattern = Pattern(afterYear: char, afterMonth: char, afterDay: Option<char>, spaces: bool)

  /** `(\d{4})\.(\d{1,2})\.(\d{1,2})` */
  const DotPattern: Pattern := Pattern('.', '.', None, false)

  /** `(\d{4})-(\d{1,2})-(\d{1,2})` */
  const DashPattern: Pattern := Pattern('-', '-', None, false)

  /** `(\d{4})년\s*(\d{1,2})월\s*(\d{1,2})일` */
  const KoreanPattern: Pattern := Pattern('년', '월', Some('일'), true)

  /** The patterns in the order they are tried. */
  const DatePatterns: seq<Pattern> := [DotPattern, DashPattern, KoreanPattern]

  /** Year, month (as written, from 1) and day captured by a pattern. */
  datatype DateParts = DateParts(year: nat, month: nat, day: nat)

  /** The outcome of `parseKoreanDate`: nothing for an empty string, the
      arguments `year, month - 1, day` that a pattern match passes to
      `new Date` (as captured; the calendar arithmetic by which `Date`
      rolls an out-of-range month or day over is not modelled), and
      otherwise the string is handed to the `Date` constructor, which this
      model does not follow. */
  datatype ParsedDate = NoDate | Ymd(year: nat, monthIndex: int, day: nat) | Unmatched

  /** `\s*`: the index after the white space from `j` on. */
  function SkipSpaces(s: string, j: nat): (k: nat)
    requires j <= |s|
    ensures j <= k <= |s|
    ensures forall i :: j <= i < k ==> IsSpace(s[i])
    ensures k < |s| ==> !IsSpace(s[k])
    decreases |s| - j
  {
    if j < |s| && IsSpace(s[j]) then SkipSpaces(s, j + 1) else j
  }

  /** `(\d{1,2})` followed by `stop` when there is one: two digits when
      they can be followed as required, otherwise one. Gives the value and
      the index after the stop character. */
  function Number(s: string, j: nat, stop: Option<char>): (r: Option<(nat, nat)>)
    ensures r.Some? ==> j < r.value.1 <= |s| && r.value.0 < 100
    ensures r.Some? ==> var n := r.value.1 - j - (if stop.Some? then 1 else 0);
              1 <= n <= 2 && AllDigits(s[j..j + n]) && r.value.0 == DigitsValue(s[j..j + n])
              && (stop.Some? ==> s[j + n] == stop.value)
  {
    var two := j + 2 <= |s| && IsDigit(s[j]) && IsDigit(s[j + 1]);
    var one := j + 1 <= |s| && IsDigit(s[j]);
    if two && (stop.None? || (j + 2 < |s| && s[j + 2] == stop.value)) then
      DigitsTwo(s[j..j + 2]);
      Some((10 * (s[j] as int - '0' as int) + (s[j + 1] as int - '0' as int),
            j + 2 + (if stop.Some? then 1 else 0)))
    else if one && (stop.None? || (j + 1 < |s| && s[j + 1] == stop.value)) then
      DigitsOne(s[j..j + 1]);
      Some((s[j] as int - '0' as int, j + 1 + (if stop.Some? then 1 else 0)))
    else None
  }

  lemma {:induction false} DigitsOne(s: string)
    requires |s| == 1 && AllDigits(s)
    ensures DigitsValue(s) == s[0] as int - '0' as int
  {
    assert s[..0] == [];
  }

  lemma {:induction false} DigitsTwo(s: string)
    requires |s| == 2 && AllDigits(s)
    ensures DigitsValue(s) == 10 * (s[0] as int - '0' as int) + (s[1] as int - '0' as int)
  {
    DigitsOne(s[..1]);
  }

  /** Pattern `p` matches at index `i` of `s`. */
  function MatchAt(s: string, p: Pattern, i: nat): (r: Option<DateParts>)
    ensures r.Some? ==> i + 5 <= |s| && AllDigits(s[i..i + 4]) && s[i + 4] == p.afterYear
    ensures r.Some? ==> r.value.year == DigitsValue(s[i..i + 4]) && r.value.month < 100 && r.value.day < 100
  {
    if i + 5 <= |s| && AllDigits(s[i..i + 4]) && s[i + 4] == p.afterYear then
      var j := if p.spaces then SkipSpaces(s, i + 5) else i + 5;
      match Number(s, j, Some(p.afterMonth))
      case None => None
      case Some(month) =>
        var k := if p.spaces then SkipSpaces(s, month.1) else month.1;
        match Number(s, k, p.afterDay)
        case None => None
        case Some(day) => Some(DateParts(DigitsValue(s[i..i + 4]), month.0, day.0))
    else None
  }

  /** `s.match(pattern)`: the leftmost match at or after `from`. */
  function FindMatch(s: string, p: Pattern, from: nat): (r: Option<DateParts>)
    ensures r.Some? ==> from + 5 <= |s|
  {
    Leftmost(MatcherIn(s, p), from, |s|)
  }

  /** Pattern `p` tried at each index of `s`. */
  function MatcherIn(s: string, p: Pattern): nat -> Option<DateParts> {
    (i: nat) => MatchAt(s, p, i)
  }

  /** The first index from `from` on, among those where a date of at least
      five characters can start in a string of length `end`, at which `at`
      gives something, and what it gives there. */
  function Leftmost(at: nat -> Option<DateParts>, from: nat, end: nat): (r: Option<DateParts>)
    ensures r.Some? ==> from + 5 <= end
    decreases end - from
  {
    if from + 5 > end then None
    else if at(from).Some? then at(from)
    else Leftmost(at, from + 1, end)
  }

  /** `Leftmost` gives nothing exactly when no index in range gives
      something, and otherwise what the least such index gives. */
  lemma {:induction false} LeftmostIsLeast(at: nat -> Option<DateParts>, from: nat, end: nat)
    ensures Leftmost(at, from, end).None? <==> forall i: nat :: from <= i && i + 5 <= end ==> at(i).None?
    ensures Leftmost(at, from, end).Some? ==>
              exists i: nat :: from <= i && i + 5 <= end && at(i) == Leftmost(at, from, end)
                && forall j: nat :: from <= j < i ==> at(j).None?
    decreases end - from
  {
    if from + 5 <= end && at(from).None? {
      LeftmostIsLeast(at, from + 1, end);
      if Leftmost(at, from, end).Some? {
        var i: nat :| from + 1 <= i && i + 5 <= end && at(i) == Leftmost(at, from + 1, end)
                      && forall j: nat :: from + 1 <= j < i ==> at(j).None?;
        assert forall j: nat :: from <= j < i ==> at(j).None?;
      }
    }
  }

  /** `FindMatch` gives nothing exactly when the pattern matches nowhere
      from `from` on, and otherwise the match at the least index. */
  lemma {:induction false} FindMatchLeftmost(s: string, p: Pattern, from: nat)
    ensures FindMatch(s, p, from).None? <==> forall i: nat :: from <= i ==> MatchAt(s, p, i).None?
    ensures FindMatch(s, p, from).Some? ==>
              exists i: nat :: from <= i && MatchAt(s, p, i) == FindMatch(s, p, from)
                && forall j: nat :: from <= j < i ==> MatchAt(s, p, j).None?
  {
    var at := MatcherIn(s, p);
    LeftmostIsLeast(at, from, |s|);
    assert forall i: nat :: at(i) == MatchAt(s, p, i);
  }

  function YmdOf(d: DateParts): ParsedDate {
    Ymd(d.year, d.month as int - 1, d.day)
  }

  /** `parseKoreanDate` up to its ISO fallback: the first pattern that
      matches anywhere decides, at its leftmost match, and the month is
      stored counted from 0. */
  function ParseKoreanDate(s: string): (r: ParsedDate)
    ensures r == NoDate <==> s == ""
    ensures r == Unmatched <==>
              s != "" && forall k :: 0 <= k < |DatePatterns| ==> FindMatch(s, DatePatterns[k], 0).None?
    ensures r.Ymd? ==>
              exists k :: 0 <= k < |DatePatterns| && FindMatch(s, DatePatterns[k], 0).Some?
                && r == YmdOf(FindMatch(s, DatePatterns[k], 0).value)
                && forall k' :: 0 <= k' < k ==> FindMatch(s, DatePatterns[k'], 0).None?
  {
    if s == "" then NoDate
    else
      match FirstMatch(DatePatterns, FinderIn(s))
      case None => Unmatched
      case Some(m) => YmdOf(m.1)
  }

  /** The leftmost match of a pattern in `s`. */
  function FinderIn(s: string): Pattern -> Option<DateParts> {
    (p: Pattern) => FindMatch(s, p, 0)
  }

  /** The index of the first pattern of `ps` that `find` finds, and what it
      finds. */
  function FirstMatch(ps: seq<Pattern>, find: Pattern -> Option<DateParts>): (r: Option<(nat, DateParts)>)
    ensures r.None? <==> forall k :: 0 <= k < |ps| ==> find(ps[k]).None?
    ensures r.Some? ==> r.value.0 < |ps| && find(ps[r.value.0]) == Some(r.value.1)
    ensures r.Some? ==> forall k :: 0 <= k < r.value.0 ==> find(ps[k]).None?
  {
    if |ps| == 0 then None
    else
      match find(ps[0])
      case Some(d) => Some((0, d))
      case None =>
        assert forall k :: 1 <= k < |ps| ==> ps[k] == ps[1..][k - 1];
        match FirstMatch(ps[1..], find)
        case None => None
        case Some(m) => Some((m.0 + 1, m.1))
  }

  /** Digits of length 1 or 2. */
  predicate ShortDigits(ds: string) {
    1 <= |ds| <= 2 && AllDigits(ds)
  }

  /** A short number followed by its stop character reads back. */
  lemma {:induction false} NumberReads(pre: string, ds: string, stop: Option<char>, post: string)
    requires ShortDigits(ds)
    requires stop.Some? ==> |post| > 0 && post[0] == stop.value && !IsDigit(stop.value)
    requires stop.None? ==> |post| == 0 || !IsDigit(post[0])
    ensures var s := pre + ds + post;
            Number(s, |pre|, stop) == Some((DigitsValue(ds), |pre| + |ds| + (if stop.Some? then 1 else 0)))
  {
    var s := pre + ds + post;
    var j := |pre|;
    assert s[j..j + |ds|] == ds;
    assert s[j] == ds[0];
    if |ds| == 2 {
      assert s[j + 1] == ds[1];
      DigitsTwo(ds);
      if stop.Some? {
        assert s[j + 2] == post[0];
      }
    } else {
      DigitsOne(ds);
      if j + 1 < |s| {
        assert s[j + 1] == post[0];
      }
    }
  }

  /** A date written `YYYY.M.D` reads back (months and days of one or two
      digits, as in `2024.01.01` and `2024.1.1`). */
  lemma {:induction false} DotDateRoundTrip(ys: string, ms: string, ds: string)
    requires |ys| == 4 && AllDigits(ys) && ShortDigits(ms) && ShortDigits(ds)
    ensures ParseKoreanDate(ys + "." + ms + "." + ds) == Ymd(DigitsValue(ys), DigitsValue(ms) - 1, DigitsValue(ds))
  {
    SeparatedMatch(ys, ms, ds, DotPattern);
    ReadBy(ys + "." + ms + "." + ds, 0, DateParts(DigitsValue(ys), DigitsValue(ms), DigitsValue(ds)));
  }

  /** A date written `YYYY-M-D` reads back: the dot pattern, tried first,
      finds no dot. */
  lemma {:induction false} DashDateRoundTrip(ys: string, ms: string, ds: string)
    requires |ys| == 4 && AllDigits(ys) && ShortDigits(ms) && ShortDigits(ds)
    ensures ParseKoreanDate(ys + "-" + ms + "-" + ds) == Ymd(DigitsValue(ys), DigitsValue(ms) - 1, DigitsValue(ds))
  {
    SeparatedMatch(ys, ms, ds, DashPattern);
    DashDateSeparators(ys, ms, ds);
    NoSeparatorNoMatch(ys + "-" + ms + "-" + ds, DotPattern);
    ReadBy(ys + "-" + ms + "-" + ds, 1, DateParts(DigitsValue(ys), DigitsValue(ms), DigitsValue(ds)));
  }

  /** A date written `YYYY년 M월 D일` reads back; the two earlier patterns
      find neither a dot nor a dash. */
  lemma {:induction false} KoreanDateRoundTrip(ys: string, ms: string, ds: string)
    requires |ys| == 4 && AllDigits(ys) && ShortDigits(ms) && ShortDigits(ds)
    ensures ParseKoreanDate(ys + "년 " + ms + "월 " + ds + "일") == Ymd(DigitsValue(ys), DigitsValue(ms) - 1, DigitsValue(ds))
  {
    KoreanMatch(ys, ms, ds);
    KoreanDateSeparators(ys, ms, ds);
    NoSeparatorNoMatch(ys + "년 " + ms + "월 " + ds + "일", DotPattern);
    NoSeparatorNoMatch(ys + "년 " + ms + "월 " + ds + "일", DashPattern);
    ReadBy(ys + "년 " + ms + "월 " + ds + "일", 2, DateParts(DigitsValue(ys), DigitsValue(ms), DigitsValue(ds)));
  }

  /** A string in which pattern `k` finds `d`, and in which no earlier
      pattern finds anything, is read by pattern `k`. */
  lemma {:induction false} ReadBy(s: string, k: nat, d: DateParts)
    requires k < |DatePatterns| && FindMatch(s, DatePatterns[k], 0) == Some(d)
    requires forall k' :: 0 <= k' < k ==> FindMatch(s, DatePatterns[k'], 0).None?
    ensures ParseKoreanDate(s) == YmdOf(d)
  {
  }

  /** A pattern cannot match where its year separator does not occur. */
  lemma {:induction false} NoSeparatorNoMatch(s: string, p: Pattern)
    requires p.afterYear !in s
    ensures FindMatch(s, p, 0).None?
  {
    FindMatchLeftmost(s, p, 0);
  }

  /** A match at the start is the leftmost match. */
  lemma {:induction false} FoundAtStart(s: string, p: Pattern, d: DateParts)
    requires MatchAt(s, p, 0) == Some(d)
    ensures FindMatch(s, p, 0) == Some(d)
  {
  }

  /** The dot and the dash patterns find `YYYY.M.D` and `YYYY-M-D` at
      their start. */
  lemma {:induction false} SeparatedMatch(ys: string, ms: string, ds: string, p: Pattern)
    requires |ys| == 4 && AllDigits(ys) && ShortDigits(ms) && ShortDigits(ds)
    requires p == DotPattern || p == DashPattern
    ensures FindMatch(ys + [p.afterYear] + ms + [p.afterMonth] + ds, p, 0)
              == Some(DateParts(DigitsValue(ys), DigitsValue(ms), DigitsValue(ds)))
  {
    var c := p.afterYear;
    var s := ys + [c] + ms + [c] + ds;
    assert s[..4] == ys && s[4] == c;
    assert s == ys + [c] + ms + ([c] + ds);
    NumberReads(ys + [c], ms, Some(c), [c] + ds);
    assert s == ys + [c] + ms + [c] + ds + "";
    NumberReads(ys + [c] + ms + [c], ds, None, "");
    FoundAtStart(s, p, DateParts(DigitsValue(ys), DigitsValue(ms), DigitsValue(ds)));
  }

  /** `YYYY-M-D` holds no dot. */
  lemma {:induction false} DashDateSeparators(ys: string, ms: string, ds: string)
    requires AllDigits(ys) && AllDigits(ms) && AllDigits(ds)
    ensures '.' !in ys + "-" + ms + "-" + ds
  {
    var s := ys + "-" + ms + "-" + ds;
    forall i | 0 <= i < |s|
      ensures s[i] != '.'
    {
      if i < |ys| { assert s[i] == ys[i]; }
      else if |ys| + 1 <= i < |ys| + 1 + |ms| { assert s[i] == ms[i - |ys| - 1]; }
      else if |ys| + 2 + |ms| <= i { assert s[i] == ds[i - |ys| - 2 - |ms|]; }
    }
  }

  /** `YYYY년 M월 D일` holds neither a dot nor a dash. */
  lemma {:induction false} KoreanDateSeparators(ys: string, ms: string, ds: string)
    requires AllDigits(ys) && AllDigits(ms) && AllDigits(ds)
    ensures '.' !in ys + "년 " + ms + "월 " + ds + "일" && '-' !in ys + "년 " + ms + "월 " + ds + "일"
  {
    var s := ys + "년 " + ms + "월 " + ds + "일";
    forall i | 0 <= i < |s|
      ensures s[i] != '.' && s[i] != '-'
    {
      if i < |ys| { assert s[i] == ys[i]; }
      else if |ys| + 2 <= i < |ys| + 2 + |ms| { assert s[i] == ms[i - |ys| - 2]; }
      else if |ys| + 4 + |ms| <= i < |ys| + 4 + |ms| + |ds| { assert s[i] == ds[i - |ys| - 4 - |ms|]; }
    }
  }

  /** The Korean pattern finds `YYYY년 M월 D일` at its start. */
  lemma {:induction false} KoreanMatch(ys: string, ms: string, ds: string)
    requires |ys| == 4 && AllDigits(ys) && ShortDigits(ms) && ShortDigits(ds)
    ensures FindMatch(ys + "년 " + ms + "월 " + ds + "일", KoreanPattern, 0)
              == Some(DateParts(DigitsValue(ys), DigitsValue(ms), DigitsValue(ds)))
  {
    var s := ys + "년 " + ms + "월 " + ds + "일";
    var k := 6 + |ms| + 1;
    assert s[..4] == ys && s[4] == '년';
    assert s[5] == ' ' && s[6] == ms[0];
    OneSpace(s, 5);
    assert s == ys + "년 " + ms + ("월 " + ds + "일");
    NumberReads(ys + "년 ", ms, Some('월'), "월 " + ds + "일");
    assert s[k] == ' ' && s[k + 1] == ds[0];
    OneSpace(s, k);
    assert s == ys + "년 " + ms + "월 " + ds + "일";
    NumberReads(ys + "년 " + ms + "월 ", ds, Some('일'), "일");
    MatchAtReads(s, KoreanPattern, DigitsValue(ms), DigitsValue(ds), k);
    FoundAtStart(s, KoreanPattern, DateParts(DigitsValue(ys), DigitsValue(ms), DigitsValue(ds)));
  }

  /** A pattern matches at the start of a string whose year, month and day
      read as it requires. */
  lemma {:induction false} MatchAtReads(s: string, p: Pattern, month: nat, day: nat, next: nat)
    requires 5 <= |s| && AllDigits(s[..4]) && s[4] == p.afterYear
    requires Number(s, if p.spaces then SkipSpaces(s, 5) else 5, Some(p.afterMonth)) == Some((month, next))
    requires next <= |s|
    requires var d := Number(s, if p.spaces then SkipSpaces(s, next) else next, p.afterDay);
             d.Some? && d.value.0 == day
    ensures MatchAt(s, p, 0) == Some(DateParts(DigitsValue(s[..4]), month, day))
  {
    assert s[0..4] == s[..4];
  }

  /** A single space before a digit is skipped. */
  lemma {:induction false} OneSpace(s: string, j: nat)
    requires j + 1 < |s| && s[j] == ' ' && IsDigit(s[j + 1])
    ensures SkipSpaces(s, j) == j + 1
  {
    assert SkipSpaces(s, j + 1) == j + 1;
  }

  // ---------------------------------------------------------------------
  // Departments a regulation concerns

  /** A department of the organisation. */
  datatype Department = Department(id: nat, name: string, code: string)

  /** The name and code keywords of the departments a category concerns;
      none for a category without an entry. */
  function DepartmentKeywords(category: string): (r: seq<string>)
    ensures category !in ["정보보호법", "안전법", "노동법", "환경법", "금융법"] ==> r == []
    ensures category in ["정보보호법", "안전법", "노동법", "환경법", "금융법"] ==> r != []
    // No keyword is empty, so no category concerns a department merely
    // because `includes("")` holds for every name.
    ensures forall i :: 0 <= i < |r| ==> r[i] != ""
  {
    if category == "정보보호법" then ["IT", "보안", "개발"]
    else if category == "안전법" then ["인사", "총무", "시설"]
    else if category == "노동법" then ["인사", "법무"]
    else if category == "환경법" then ["시설", "생산"]
    else if category == "금융법" then ["재무", "회계"]
    else []
  }

  /** The categories that concern every department. */
  const CriticalCategories: seq<string> := ["정보보호법", "안전법", "노동법"]

  /** A department's name or code contains one of the keywords. */
  predicate Relevant(d: Department, keywords: seq<string>) {
    Keywords.MentionsAny(d.name, keywords) || Keywords.MentionsAny(d.code, keywords)
  }

  function RelevantP(keywords: seq<string>): Department -> bool {
    (d: Department) => Relevant(d, keywords)
  }

  function IdOf(d: Department): nat {
    d.id
  }

  /** `ids.forEach(id => { if (!acc.includes(id)) acc.push(id) })` */
  function AppendMissing(acc: seq<nat>, ids: seq<nat>): (r: seq<nat>)
    ensures IsPrefix(acc, r)
    ensures forall x :: x in r <==> x in acc || x in ids
    ensures NoDups(acc) ==> NoDups(r)
    decreases |ids|
  {
    if |ids| == 0 then acc
    else
      var next := if ids[0] in acc then acc else acc + [ids[0]];
      var r := AppendMissing(next, ids[1..]);
      assert ids == [ids[0]] + ids[1..];
      assert acc == next[..|acc|];
      r
  }

  /** `analyzeRegulationImpact`: the ids of the departments whose name or
      code mentions a keyword of the category, in the order listed, then,
      for a critical category, the ids of the remaining departments. */
  function AffectedDepartments(category: string, departments: seq<Department>): (r: seq<nat>)
    ensures forall id :: id in r <==>
              exists d :: d in departments && d.id == id
                          && (Relevant(d, DepartmentKeywords(category)) || category in CriticalCategories)
    ensures NoDups(Map(departments, IdOf)) ==> NoDups(r)
    // The matched departments come first, one id each, in list order.
    ensures category !in CriticalCategories ==>
              exists kept :: Selects(kept, departments, RelevantP(DepartmentKeywords(category)))
                             && r == Map(kept, IdOf)
    ensures category in CriticalCategories ==>
              exists kept :: Selects(kept, departments, RelevantP(DepartmentKeywords(category)))
                             && IsPrefix(Map(kept, IdOf), r)
  {
    var matched := Filter(departments, RelevantP(DepartmentKeywords(category)));
    FilterMembers(departments, RelevantP(DepartmentKeywords(category)));
    MapFilterSelects(departments, RelevantP(DepartmentKeywords(category)), IdOf);
    var first := Map(matched, IdOf);
    IdsOfMembers(matched);
    IdsOfMembers(departments);
    FilterKeepsDistinct(departments, RelevantP(DepartmentKeywords(category)), IdOf);
    if category in CriticalCategories then AppendMissing(first, Map(departments, IdOf)) else first
  }

  /** The ids of a list are the ids of its members. */
  lemma {:induction false} IdsOfMembers(ds: seq<Department>)
    ensures forall id :: id in Map(ds, IdOf) <==> exists d :: d in ds && d.id == id
  {
    var m := Map(ds, IdOf);
    forall id | id in m
      ensures exists d :: d in ds && d.id == id
    {
      var i :| 0 <= i < |m| && m[i] == id;
      assert ds[i] in ds;
    }
    forall d | d in ds
      ensures d.id in m
    {
      var i :| 0 <= i < |ds| && ds[i] == d;
      assert m[i] == d.id;
    }
  }
}

=== FILE: lexorder.dfy ===
/** The default order of `Array.prototype.sort` on strings: lexicographic
    comparison of character codes, a prefix before its extensions. */
module LexOrder {
  import opened Seqs

  /** `a` sorts before or equal to `b`. */
  predicate LexLe(a: string, b: string) {
    |a| == 0 || (|b| > 0 && (a[0] < b[0] || (a[0] == b[0] && LexLe(a[1..], b[1..]))))
  }

  lemma {:induction false} LexLeRefl(a: string)
    ensures LexLe(a, a)
  {
    if |a| > 0 {
      LexLeRefl(a[1..]);
    }
  }

  lemma {:induction false} LexLeTotal(a: string, b: string)
    ensures LexLe(a, b) || LexLe(b, a)
  {
    if |a| > 0 && |b| > 0 && a[0] == b[0] {
      LexLeTotal(a[1..], b[1..]);
    }
  }

  lemma {:induction false} LexLeAntisym(a: string, b: string)
    requires LexLe(a, b) && LexLe(b, a)
    ensures a == b
  {
    if |a| > 0 && |b| > 0 {
      LexLeAntisym(a[1..], b[1..]);
      assert a == [a[0]] + a[1..];
      assert b == [b[0]] + b[1..];
    }
  }

  lemma {:induction false} LexLeTrans(a: string, b: string, c: string)
    requires LexLe(a, b) && LexLe(b, c)
    ensures LexLe(a, c)
  {
    if |a| > 0 && |b| > 0 && |c| > 0 && a[0] == b[0] && b[0] == c[0] {
      LexLeTrans(a[1..], b[1..], c[1..]);
    }
  }

  predicate Sorted(s: seq<string>) {
    forall i, j :: 0 <= i < j < |s| ==> LexLe(s[i], s[j])
  }

  /** Each string is strictly before the next: sorted with no repetition. */
  predicate StrictlySorted(s: seq<string>) {
    forall i, j :: 0 <= i < j < |s| ==> LexLe(s[i], s[j]) && s[i] != s[j]
  }

  lemma {:induction false} SortedCons(x: string, t: seq<string>)
    requires Sorted(t)
    requires |t| > 0 ==> LexLe(x, t[0])
    ensures Sorted([x] + t)
  {
    var r := [x] + t;
    forall i, j | 0 <= i < j < |r|
      ensures LexLe(r[i], r[j])
    {
      if i == 0 {
        if j > 1 {
          LexLeTrans(x, t[0], t[j - 1]);
        }
      }
    }
  }

  /** Inserts `x` before the first element it does not follow. */
  function Insert(x: string, s: seq<string>): (r: seq<string>)
    requires Sorted(s)
    ensures Sorted(r)
    ensures |r| == |s| + 1
    ensures multiset(r) == multiset(s) + multiset{x}
    ensures r[0] == x || (|s| > 0 && r[0] == s[0])
  {
    if |s| == 0 || LexLe(x, s[0]) then
      SortedCons(x, s);
      [x] + s
    else
      LexLeTotal(x, s[0]);
      var t := Insert(x, s[1..]);
      assert s == [s[0]] + s[1..];
      SortedCons(s[0], t);
      [s[0]] + t
  }

  /** `Array.prototype.sort()` on strings. */
  function Sort(s: seq<string>): (r: seq<string>)
    ensures Sorted(r)
    ensures multiset(r) == multiset(s)
    ensures |r| == |s|
  {
    if |s| == 0 then []
    else
      assert s == [s[0]] + s[1..];
      Insert(s[0], Sort(s[1..]))
  }

  /** Sorting strings that are pairwise distinct yields a strictly increasing
      list. */
  lemma {:induction false} SortDistinct(s: seq<string>)
    requires NoDups(s)
    ensures StrictlySorted(Sort(s))
  {
    var r := Sort(s);
    forall i, j | 0 <= i < j < |r|
      ensures r[i] != r[j]
    {
      if r[i] == r[j] {
        MultiplicityTwo(r, i, j);
        assert multiset(s)[r[i]] >= 2;
        NoDupsMultiplicity(s, r[i]);
      }
    }
  }
}

=== FILE: lookup.dfy ===
/** The object-literal lookup tables of the pages, `table[key] || fallback`:
    department badge colours and display names, and the status and priority
    badges of the shared utilities. */
module Lookup {

  /** The eight departments the pages know by name. */
  const KnownDepartments: seq<string> := [
    "인사문화그룹", "환경기획그룹", "안전보건기획그룹", "정보보호사무국",
    "회계세무그룹", "법무실", "노사협력그룹", "윤리경영사무국"
  ]

  const UnknownDepartmentColor: string := "bg-gray-500"

  /** `getDepartmentColor` of the department pages: the badge colour of a
      department; every known department has one of its own and every other
      name is grey. */
  function DepartmentColor(name: string): (r: string)
    ensures r == UnknownDepartmentColor <==> name !in KnownDepartments
  {
    match name
    case "인사문화그룹" => "bg-blue-500"
    case "환경기획그룹" => "bg-green-500"
    case "안전보건기획그룹" => "bg-orange-500"
    case "정보보호사무국" => "bg-purple-500"
    case "회계세무그룹" => "bg-indigo-500"
    case "법무실" => "bg-red-500"
    case "노사협력그룹" => "bg-yellow-500"
    case "윤리경영사무국" => "bg-pink-500"
    case _ => UnknownDepartmentColor
  }

  /** No two departments share a colour unless neither is known. */
  lemma {:induction false} DepartmentColorsDistinct(a: string, b: string)
    requires a in KnownDepartments && a != b
    ensures DepartmentColor(a) != DepartmentColor(b)
  {
  }

  /** `getDisplayName`: the table maps each known department to itself and
      any other name falls back to itself, so every name is shown as it is. */
  function DisplayName(name: string): (r: string)
    ensures r == name
  {
    match name
    case "인사문화그룹" => "인사문화그룹"
    case "환경기획그룹" => "환경기획그룹"
    case "안전보건기획그룹" => "안전보건기획그룹"
    case "정보보호사무국" => "정보보호사무국"
    case "회계세무그룹" => "회계세무그룹"
    case "법무실" => "법무실"
    case "노사협력그룹" => "노사협력그룹"
    case "윤리경영사무국" => "윤리경영사무국"
    case _ => name
  }

  /** The department codes of the shared utilities. */
  const DepartmentCodes: seq<string> := ["HR", "SAFETY", "ENV", "IT", "LEGAL", "FINANCE", "OPERATIONS"]

  /** `getDepartmentColor` of the shared utilities, keyed by department code:
      a colour per code, grey for any other code. */
  function CodeColor(code: string): (r: string)
    ensures r == UnknownDepartmentColor <==> code !in DepartmentCodes
  {
    match code
    case "HR" => "bg-dept-hr"
    case "SAFETY" => "bg-dept-safety"
    case "ENV" => "bg-dept-env"
    case "IT" => "bg-dept-it"
    case "LEGAL" => "bg-dept-legal"
    case "FINANCE" => "bg-dept-finance"
    case "OPERATIONS" => "bg-dept-operations"
    case _ => UnknownDepartmentColor
  }

  lemma {:induction false} CodeColorsDistinct(a: string, b: string)
    requires a in DepartmentCodes && a != b
    ensures CodeColor(a) != CodeColor(b)
  {
  }

  const NeutralBadge: string := "bg-gray-100 text-gray-800"

  /** The statuses `getStatusColor` knows. */
  const Statuses: seq<string> := ["완료", "분석중", "대기중", "오류"]

  /** `getStatusColor`: a light badge per status, neutral for any other. */
  function StatusColor(status: string): (r: string)
    ensures r == NeutralBadge <==> status !in Statuses
  {
    match status
    case "완료" => "bg-green-100 text-green-800"
    case "분석중" => "bg-yellow-100 text-yellow-800"
    case "대기중" => "bg-blue-100 text-blue-800"
    case "오류" => "bg-red-100 text-red-800"
    case _ => NeutralBadge
  }

  lemma {:induction false} StatusColorsDistinct(a: string, b: string)
    requires a in Statuses && a != b
    ensures StatusColor(a) != StatusColor(b)
  {
  }

  /** The priorities `getPriorityColor` knows. */
  const Priorities: seq<string> := ["높음", "중간", "낮음", "긴급"]

  /** `getPriorityColor`: a badge per priority, the urgent one solid red,
      neutral for any other. */
  function PriorityColor(priority: string): (r: string)
    ensures r == NeutralBadge <==> priority !in Priorities
    ensures priority == "긴급" <==> r == "bg-red-500 text-white"
  {
    match priority
    case "높음" => "bg-red-100 text-red-800"
    case "중간" => "bg-yellow-100 text-yellow-800"
    case "낮음" => "bg-green-100 text-green-800"
    case "긴급" => "bg-red-500 text-white"
    case _ => NeutralBadge
  }

  lemma {:induction false} PriorityColorsDistinct(a: string, b: string)
    requires a in Priorities && a != b
    ensures PriorityColor(a) != PriorityColor(b)
  {
  }
}

=== FILE: openai.dfy ===
/** The post-processing of the answers of the language model: the defaults
    that stand in for missing or unusable fields, the clamping of scores,
    the risk level's fallback on the priority, and the monthly split of the
    report. The call to the model is its reply, passed in; a reply that
    does not parse as JSON is a thrown error like a failed call. */
module OpenAi {
  import opened Wrappers
  import opened Text

  /** A value read from the parsed reply; `Missing` is `undefined`. Numbers
      are exact reals. */
  datatype Json =
    | Missing
    | Null
    | Bool(b: bool)
    | Num(n: real)
    | Str(s: string)
    | Arr(items: seq<Json>)
    | Obj(fields: seq<(string, Json)>)

  /** JavaScript truthiness: `undefined`, `null`, `false`, `0` and `""` are
      falsy, every array and object is truthy. */
  predicate Truthy(v: Json) {
    match v
    case Missing => false
    case Null => false
    case Bool(b) => b
    case Num(n) => n != 0.0
    case Str(s) => s != ""
    case Arr(_) => true
    case Obj(_) => true
  }

  /** `v || d` */
  function OrElse(v: Json, d: Json): (r: Json)
    ensures Truthy(v) ==> r == v
    ensures !Truthy(v) ==> r == d
  {
    if Truthy(v) then v else d
  }

  /** What a call to the model gives: a reply, or an error thrown by the
      call or by `JSON.parse`, with its message when it is an `Error`. */
  datatype Reply<T> = Parsed(value: T) | Threw(message: Option<string>)

  /** The cause named when the thrown value is not an `Error`. */
  const UnknownError: string := "알 수 없는 오류"

  /** The error each function throws on: its own prefix, then the cause's
      message or `알 수 없는 오류`. */
  function Rethrown(prefix: string, message: Option<string>): (r: string)
    ensures StartsWith(r, prefix)
    ensures |prefix| <= |r| && r[..|prefix|] == prefix
    ensures message.Some? ==> r[|prefix|..] == message.value
    ensures message.None? ==> r[|prefix|..] == UnknownError
  {
    var m := if message.Some? then message.value else UnknownError;
    assert (prefix + m)[..|prefix|] == prefix;
    prefix + m
  }

  // ---------------------------------------------------------------------
  // analyzeRegulationCompliance

  /** The fields of a compliance analysis, as parsed or after defaults. */
  datatype Analysis = Analysis(findings: Json, recommendations: Json, riskLevel: Json,
                               compliance: Json, actionItems: Json)

  /** The plan used when the reply has none. */
  const DefaultActionItems: Json := Obj([
    ("immediate", Arr([Str("법규 검토 및 현황 파악")])),
    ("shortTerm", Arr([Str("정책 개정안 수립")])),
    ("longTerm", Arr([Str("지속적 모니터링 체계 구축")]))])

  /** The findings used when the reply has none. */
  const DefaultFindings: string := "분석 중 오류가 발생했습니다."

  /** The recommendations used when a reply has none. */
  const DefaultRecommendations: string := "수동 검토가 필요합니다."

  /** Every falsy field replaced by its default: a compliance of `0` also
      becomes 50. */
  function WithAnalysisDefaults(a: Analysis): (r: Analysis)
    ensures Truthy(r.findings) && Truthy(r.recommendations) && Truthy(r.riskLevel)
    ensures Truthy(r.compliance) && Truthy(r.actionItems)
    ensures !Truthy(a.findings) ==> r.findings == Str(DefaultFindings)
    ensures !Truthy(a.recommendations) ==> r.recommendations == Str(DefaultRecommendations)
    ensures !Truthy(a.compliance) ==> r.compliance == Num(50.0)
    ensures !Truthy(a.riskLevel) ==> r.riskLevel == Str("중위험")
    ensures !Truthy(a.actionItems) ==> r.actionItems == DefaultActionItems
    ensures Truthy(a.findings) ==> r.findings == a.findings
    ensures Truthy(a.recommendations) ==> r.recommendations == a.recommendations
    ensures Truthy(a.compliance) ==> r.compliance == a.compliance
    ensures Truthy(a.riskLevel) ==> r.riskLevel == a.riskLevel
    ensures Truthy(a.actionItems) ==> r.actionItems == a.actionItems
  {
    Analysis(OrElse(a.findings, Str(DefaultFindings)),
             OrElse(a.recommendations, Str(DefaultRecommendations)),
             OrElse(a.riskLevel, Str("중위험")),
             OrElse(a.compliance, Num(50.0)),
             OrElse(a.actionItems, DefaultActionItems))
  }

  /** Applying the defaults twice changes nothing more. */
  lemma {:induction false} AnalysisDefaultsIdempotent(a: Analysis)
    ensures WithAnalysisDefaults(WithAnalysisDefaults(a)) == WithAnalysisDefaults(a)
  {
    var r := WithAnalysisDefaults(a);
    assert Truthy(r.findings) && Truthy(r.recommendations) && Truthy(r.actionItems);
  }

  /** `analyzeRegulationCompliance`: the reply with defaults, or the
      error thrown on. */
  function AnalyzeRegulationCompliance(reply: Reply<Analysis>): (r: Result<Analysis, string>)
    ensures reply.Parsed? ==> r == Success(WithAnalysisDefaults(reply.value))
    ensures reply.Threw? ==> r.Failure? && StartsWith(r.error, "AI 분석 실패: ")
    ensures reply.Threw? ==> r == Failure(Rethrown("AI 분석 실패: ", reply.message))
  {
    match reply
    case Parsed(a) => Success(WithAnalysisDefaults(a))
    case Threw(m) => Failure(Rethrown("AI 분석 실패: ", m))
  }

  // ---------------------------------------------------------------------
  // analyzeDocument

  /** `Math.max(0, Math.min(100, x))` */
  function Clamp(x: real): (r: real)
    ensures 0.0 <= r <= 100.0
    ensures 0.0 <= x <= 100.0 ==> r == x
    ensures x < 0.0 ==> r == 0.0
    ensures x > 100.0 ==> r == 100.0
  {
    if x < 0.0 then 0.0 else if x > 100.0 then 100.0 else x
  }

  /** Clamping keeps the order of scores. */
  lemma {:induction false} ClampMonotone(x: real, y: real)
    requires x <= y
    ensures Clamp(x) <= Clamp(y)
  {
  }

  /** A number is clamped into [0, 100]; anything else scores 50. */
  function ComplianceScore(v: Json): (r: real)
    ensures 0.0 <= r <= 100.0
    ensures v.Num? ==> r == Clamp(v.n)
    ensures !v.Num? ==> r == 50.0
  {
    if v.Num? then Clamp(v.n) else 50.0
  }

  /** The parsed reply of `analyzeDocument`. */
  datatype DocumentReply = DocumentReply(findings: Json, recommendations: Json, complianceScore: Json)

  datatype DocumentAnalysis = DocumentAnalysis(findings: Json, recommendations: Json, complianceScore: real)

  /** The findings used when a document reply has none. */
  const DefaultDocumentFindings: string := "문서 분석 중 오류가 발생했습니다."

  /** `analyzeDocument`: the texts with defaults and the score clamped. */
  function AnalyzeDocument(reply: Reply<DocumentReply>): (r: Result<DocumentAnalysis, string>)
    ensures r.Success? <==> reply.Parsed?
    ensures r.Success? ==> 0.0 <= r.value.complianceScore <= 100.0
    ensures r.Success? ==> Truthy(r.value.findings) && Truthy(r.value.recommendations)
    ensures r.Success? ==> r.value.findings == (if Truthy(reply.value.findings) then reply.value.findings
                                                 else Str(DefaultDocumentFindings))
    ensures r.Success? ==> r.value.recommendations == (if Truthy(reply.value.recommendations) then reply.value.recommendations
                                                        else Str(DefaultRecommendations))
    ensures r.Success? ==> r.value.complianceScore == ComplianceScore(reply.value.complianceScore)
    ensures r.Failure? ==> StartsWith(r.error, "문서 분석 실패: ")
    ensures r.Failure? ==> r.error == Rethrown("문서 분석 실패: ", reply.message)
  {
    match reply
    case Parsed(d) =>
      Success(DocumentAnalysis(OrElse(d.findings, Str(DefaultDocumentFindings)),
                               OrElse(d.recommendations, Str(DefaultRecommendations)),
                               ComplianceScore(d.complianceScore)))
    case Threw(m) => Failure(Rethrown("문서 분석 실패: ", m))
  }

  /** A score already in range passes through unchanged. */
  lemma {:induction false} ScoreInRangeKept(d: DocumentReply)
    requires d.complianceScore.Num? && 0.0 <= d.complianceScore.n <= 100.0
    ensures AnalyzeDocument(Parsed(d)).value.complianceScore == d.complianceScore.n
  {
  }

  // ---------------------------------------------------------------------
  // summarizeRegulation

  /** The summary given when the model answers nothing but white space. */
  const SummaryFallback: string := "요약 생성에 실패했습니다."

  /** `content?.trim() || "요약 생성에 실패했습니다."` */
  function Summary(reply: Reply<Option<string>>): (r: Result<string, string>)
    ensures r.Success? <==> reply.Parsed?
    ensures r.Success? ==> r.value != ""
    ensures r.Success? && reply.value.Some? && Trim(reply.value.value) != "" ==>
      r.value == Trim(reply.value.value)
    ensures r.Success? && (reply.value.None? || AllSpace(reply.value.value)) ==> r.value == SummaryFallback
    ensures r.Failure? ==> StartsWith(r.error, "법규 요약 실패: ")
    ensures r.Failure? ==> r.error == Rethrown("법규 요약 실패: ", reply.message)
  {
    match reply
    case Parsed(content) =>
      var t := if content.Some? then Trim(content.value) else "";
      TrimBlank(if content.Some? then content.value else "");
      Success(if t != "" then t else SummaryFallback)
    case Threw(m) => Failure(Rethrown("법규 요약 실패: ", m))
  }

  /** A summary is already trimmed: handed back as the model's answer, it
      comes out unchanged. */
  lemma {:induction false} SummaryStable(reply: Reply<Option<string>>)
    requires reply.Parsed?
    ensures Summary(Parsed(Some(Summary(reply).value))) == Summary(reply)
  {
    var content := reply.value;
    var t := if content.Some? then Trim(content.value) else "";
    if t != "" {
      TrimTrimmed(t);
    } else {
      TrimTrimmed(SummaryFallback);
    }
  }

  /** An answer padded with white space gives the answer itself. */
  lemma {:induction false} SummaryOfPaddedAnswer(pad: string, w: string)
    requires AllSpace(pad) && |w| > 0 && !IsSpace(w[0]) && !IsSpace(w[|w| - 1])
    ensures Summary(Parsed(Some(pad + w + pad))) == Success(w)
  {
    PaddedTrim(pad, w);
  }

  // ---------------------------------------------------------------------
  // generateComplianceReport

  /** The report's monthly figures: `min(100, floor(compliance * 1.1))`
      completed and the rest of 100 not completed. */
  function MonthlySplit(compliance: real): (r: (int, int))
    ensures r.0 + r.1 == 100
    ensures r.0 <= 100 && r.1 >= 0
    ensures compliance >= 0.0 ==> r.0 >= 0 && r.1 <= 100
    ensures r.0 < 100 ==> r.0 == (compliance * 11.0 / 10.0).Floor
    ensures (compliance * 11.0 / 10.0).Floor >= 100 ==> r.0 == 100
  {
    var completed := if (compliance * 11.0 / 10.0).Floor < 100 then (compliance * 11.0 / 10.0).Floor else 100;
    (completed, 100 - completed)
  }

  /** A higher compliance never completes less. */
  lemma {:induction false} MonthlySplitMonotone(x: real, y: real)
    requires x <= y
    ensures MonthlySplit(x).0 <= MonthlySplit(y).0
  {
    assert x * 11.0 / 10.0 <= y * 11.0 / 10.0;
  }

  // ---------------------------------------------------------------------
  // generateMonthlyInsights

  datatype InsightsReply = InsightsReply(summary: Json, keyFindings: Json, recommendations: Json,
                                         trendAnalysis: Json)

  datatype Insights = Insights(summary: Json, keyFindings: seq<Json>, recommendations: seq<Json>,
                               trendAnalysis: Json)

  /** An array as it is; anything else the one-item default list. */
  function ListOr(v: Json, d: string): (r: seq<Json>)
    ensures v.Arr? ==> r == v.items
    ensures !v.Arr? ==> r == [Str(d)]
  {
    if v.Arr? then v.items else [Str(d)]
  }

  /** The summary used when the monthly reply has none. */
  const DefaultMonthlySummary: string := "월간 분석 요약을 생성할 수 없습니다."

  /** The trend analysis used when the monthly reply has none. */
  const DefaultTrendAnalysis: string := "동향 분석 데이터가 부족합니다."

  /** `generateMonthlyInsights`: the texts with defaults, and lists kept
      only when they are arrays, an empty array included. */
  function MonthlyInsights(reply: Reply<InsightsReply>): (r: Result<Insights, string>)
    ensures r.Success? <==> reply.Parsed?
    ensures r.Success? ==> Truthy(r.value.summary) && Truthy(r.value.trendAnalysis)
    ensures r.Success? ==> r.value.summary == (if Truthy(reply.value.summary) then reply.value.summary
                                                else Str(DefaultMonthlySummary))
    ensures r.Success? ==> r.value.trendAnalysis == (if Truthy(reply.value.trendAnalysis) then reply.value.trendAnalysis
                                                      else Str(DefaultTrendAnalysis))
    ensures r.Failure? ==> r.error == Rethrown("월간 인사이트 생성 실패: ", reply.message)
    ensures r.Success? ==> r.value.keyFindings == ListOr(reply.value.keyFindings, "분석 데이터 부족")
    ensures r.Success? ==> r.value.recommendations == ListOr(reply.value.recommendations, "추가 검토 필요")
    ensures r.Failure? ==> StartsWith(r.error, "월간 인사이트 생성 실패: ")
  {
    match reply
    case Parsed(i) =>
      Success(Insights(OrElse(i.summary, Str(DefaultMonthlySummary)),
                       ListOr(i.keyFindings, "분석 데이터 부족"),
                       ListOr(i.recommendations, "추가 검토 필요"),
                       OrElse(i.trendAnalysis, Str(DefaultTrendAnalysis))))
    case Threw(m) => Failure(Rethrown("월간 인사이트 생성 실패: ", m))
  }

  /** The insights, handed back as the reply, come out unchanged: the
      defaults fill only what was missing and leave nothing to fill. */
  lemma {:induction false} MonthlyInsightsStable(reply: Reply<InsightsReply>)
    requires reply.Parsed?
    ensures var v := MonthlyInsights(reply).value;
            MonthlyInsights(Parsed(InsightsReply(v.summary, Arr(v.keyFindings), Arr(v.recommendations),
                                                 v.trendAnalysis))) == Success(v)
  {
    var v := MonthlyInsights(reply).value;
    assert Truthy(v.summary) && Truthy(v.trendAnalysis);
  }

  // ---------------------------------------------------------------------
  // assessRiskLevel

  const RiskLevels: seq<string> := ["고위험", "중위험", "저위험"]

  /** The level read off the priority: 높음 is high, 보통 medium, anything
      else low. */
  function RiskFromPriority(priority: string): (r: string)
    ensures r in RiskLevels
    ensures r == "고위험" <==> priority == "높음"
    ensures r == "중위험" <==> priority == "보통"
  {
    if priority == "높음" then "고위험" else if priority == "보통" then "중위험" else "저위험"
  }

  /** `assessRiskLevel`: the trimmed answer when it is one of the three
      levels, else, and also when the call fails, the priority's level. */
  function AssessRiskLevel(reply: Reply<Option<string>>, priority: string): (r: string)
    ensures r in RiskLevels
    ensures reply.Parsed? && Answer(reply.value) in RiskLevels ==> r == Answer(reply.value)
    ensures !(reply.Parsed? && Answer(reply.value) in RiskLevels) ==> r == RiskFromPriority(priority)
  {
    match reply
    case Parsed(content) =>
      var a := Answer(content);
      if a in RiskLevels then a else RiskFromPriority(priority)
    case Threw(_) => RiskFromPriority(priority)
  }

  /** `content?.trim() || ""` */
  function Answer(content: Option<string>): string {
    if content.Some? then Trim(content.value) else ""
  }

  /** The model decides over the priority: any level it answers, however
      padded, is taken, whatever the priority says. */
  lemma {:induction false} AnswerOverridesPriority(level: string, pad: string, priority: string)
    requires level in RiskLevels && AllSpace(pad)
    ensures AssessRiskLevel(Parsed(Some(pad + level + pad)), priority) == level
  {
    PaddedTrim(pad, level);
  }

  /** White space around a word without white space at its ends is what
      trimming removes. */
  lemma {:induction false} PaddedTrim(pad: string, w: string)
    requires AllSpace(pad) && |w| > 0 && !IsSpace(w[0]) && !IsSpace(w[|w| - 1])
    ensures Trim(pad + w + pad) == w
  {
    TrimStartPadding(pad, w + pad);
    assert pad + w + pad == pad + (w + pad);
    TrimEndPadding(w, pad);
  }
}

=== FILE: records.dfy ===
/** One row of the legal-regulation spreadsheet and the per-row tests that
    the server and every page apply to it. A cell that is missing from the
    sheet is the empty string, so JavaScript truthiness of a cell is
    "non-empty". */
module Records {
  import opened Wrappers
  import opened Text
  import Seqs

  /** A regulation row, one field per column of the sheet:
      number (번호), promulgation number (공포번호), promulgation date (공포일자),
      effective date (시행일자), short name (법령(약칭)), law name (법률명),
      law type (법령종류), ministry (소관부처), planned (예정),
      department (담당부서), person in charge (담당자),
      amended on (제/개정일(시행일)), amended articles (개정 법률 조항),
      amendment content (주요 개정 내용), enactment kind (제정·개정구분),
      comparison URL (신구법비교_URL), reason URL (제정/개정 이유_URL),
      AI summary (AI 주요 개정 정리) and AI follow-up (AI 후속 조치 사항). */
  datatype Regulation = Regulation(
    number: string,
    promulgationNumber: string,
    promulgationDate: string,
    effectiveDate: string,
    shortName: string,
    lawName: string,
    lawType: string,
    ministry: string,
    planned: string,
    department: string,
    personInCharge: string,
    amendedOn: string,
    amendedArticles: string,
    amendmentContent: string,
    enactmentKind: string,
    comparisonUrl: string,
    reasonUrl: string,
    aiSummary: string,
    aiFollowUp: string)

  /** The text the sheet holds in an empty cell that was exported from Python. */
  const NoneText: string := "None"

  /** The AI summary of a regulation for which nothing was found. */
  const EmptySummary: string := "- [개정이유]: 없음\n\n- [주요내용]: 없음"

  /** The AI follow-up of a regulation that needs no action. */
  const NoAction: string := "내용/조치사항 없음"

  /** The year the whole dashboard reports on. */
  const Year: string := "2025"

  /** A cell that is neither missing nor the text "None". */
  predicate HasValue(cell: string) {
    cell != "" && cell != NoneText
  }

  /** `Array.from(new Set(values.filter(v => v && v !== 'None')))`: the
      named values, each once, in the order they first appear. */
  function UniqueNamed(values: seq<string>): (r: seq<string>)
    ensures Seqs.NoDups(r)
    ensures forall v :: v in r <==> v in values && HasValue(v)
    ensures forall i, j :: 0 <= i < j < |r| ==> Seqs.FirstIndex(values, r[i]) < Seqs.FirstIndex(values, r[j])
  {
    var named := Seqs.Filter(values, HasValue);
    Seqs.FilterMembers(values, HasValue);
    Seqs.DedupFirstOccurrence(named);
    Seqs.FirstIndexOrder(values, HasValue, Seqs.Dedup(named));
    Seqs.Dedup(named)
  }

  /** The department of a row when it names one. */
  predicate HasDepartment(r: Regulation) {
    HasValue(r.department)
  }

  /** Takes effect during the reporting year: the effective date has a value
      and mentions 2025. */
  predicate IsYearly(r: Regulation) {
    HasValue(r.effectiveDate) && Contains(r.effectiveDate, Year)
  }

  /** The AI summary holds an actual analysis. */
  predicate IsAnalyzed(r: Regulation) {
    r.aiSummary != "" && r.aiSummary != EmptySummary
  }

  /** The AI follow-up names an action to take. */
  predicate NeedsAction(r: Regulation) {
    r.aiFollowUp != NoAction
  }

  // ---------------------------------------------------------------------
  // The month of a "2025-MM" date: `date.match(/2025-(\d{2})/)`

  /** `2025-` followed by two digits starts at index `i` of `s`. */
  predicate MonthAt(s: string, i: int) {
    0 <= i && i + 7 <= |s| && s[i..i + 5] == Year + "-" && IsDigit(s[i + 5]) && IsDigit(s[i + 6])
  }

  /** The value of the two digits after `2025-` at index `i`. */
  function MonthValueAt(s: string, i: int): (m: nat)
    requires MonthAt(s, i)
    ensures m < 100
  {
    10 * (s[i + 5] as int - '0' as int) + (s[i + 6] as int - '0' as int)
  }

  /** The leftmost match at or after index `from`. */
  function FindMonthFrom(s: string, from: nat): (r: Option<nat>)
    ensures r.Some? ==> from <= r.value && MonthAt(s, r.value)
    ensures r.Some? ==> forall j :: from <= j < r.value ==> !MonthAt(s, j)
    ensures r.None? ==> forall j :: from <= j ==> !MonthAt(s, j)
    decreases |s| - from
  {
    if from + 7 > |s| then None
    else if MonthAt(s, from) then Some(from)
    else FindMonthFrom(s, from + 1)
  }

  /** `parseInt` of the captured month of the leftmost `2025-MM` in `s`, or
      `None` when the pattern does not occur. */
  function Month2025(s: string): (r: Option<nat>)
    ensures r.Some? <==> exists i :: MonthAt(s, i)
    ensures r.Some? ==> exists i :: MonthAt(s, i) && r.value == MonthValueAt(s, i)
                          && forall j :: 0 <= j < i ==> !MonthAt(s, j)
    ensures r.Some? ==> r.value < 100
  {
    match FindMonthFrom(s, 0)
    case None => None
    case Some(i) => Some(MonthValueAt(s, i))
  }

  /** A date of the form `2025-MM...` yields month `MM`. */
  lemma {:induction false} Month2025Prefix(mm: string, rest: string)
    requires |mm| == 2 && AllDigits(mm)
    ensures Month2025(Year + "-" + mm + rest) == Some(DigitsValue(mm))
  {
    var s := Year + "-" + mm + rest;
    assert s[..5] == Year + "-" && s[5] == mm[0] && s[6] == mm[1];
    assert MonthAt(s, 0);
    assert mm[..1][..0] == [];
    assert DigitsValue(mm[..1]) == mm[0] as int - '0' as int;
  }

  /** A `2025-MM` match means the text mentions 2025, so the separate
      `includes('2025')` test in front of it never rejects a matched date. */
  lemma {:induction false} MonthImpliesYear(s: string, i: int)
    requires MonthAt(s, i)
    ensures Contains(s, Year)
  {
    assert s[i..i + 4] == s[i..i + 5][..4];
    ContainsAt(s, Year, i);
  }

  /** Effective in month `month` of 2025. */
  predicate IsInMonth(r: Regulation, month: int) {
    IsYearly(r) && Month2025(r.effectiveDate) == Some(month)
  }

  /** Effective in 2025 before month `month`: January up to the month before. */
  predicate IsBeforeMonth(r: Regulation, month: int) {
    IsYearly(r) && Month2025(r.effectiveDate).Some?
    && 1 <= Month2025(r.effectiveDate).value < month
  }

  /** The `includes('2025')` guard is implied by the month match, so a row is
      in a month exactly when its date has a value and a `2025-MM` match with
      that month. */
  lemma {:induction false} InMonthWithoutYearTest(r: Regulation, month: int)
    ensures IsInMonth(r, month) <==> HasValue(r.effectiveDate) && Month2025(r.effectiveDate) == Some(month)
  {
    if Month2025(r.effectiveDate).Some? {
      var i :| MonthAt(r.effectiveDate, i);
      MonthImpliesYear(r.effectiveDate, i);
    }
  }
}

=== FILE: regulations_page.dfy ===
/** The regulation monitoring page: the list as filtered by the search box
    and the two drop-downs, the options of the drop-downs, the counts by
    law type, and the display of effective dates. */
module RegulationsPage {
  import opened Wrappers
  import opened Seqs
  import opened Text
  import opened Records
  import ExcelService

  // ---------------------------------------------------------------------
  // The filtered list

  /** The page's own search: law name, short name, ministry or department
      contains the folded term. Unlike the server's search it does not look
      at the AI summary. */
  predicate PageSearchMatches(x: Regulation, term: string) {
    ExcelService.CellMatches(x.lawName, term) || ExcelService.CellMatches(x.shortName, term)
    || ExcelService.CellMatches(x.ministry, term) || ExcelService.CellMatches(x.department, term)
  }

  /** A drop-down choice: `all`, or a value the field must equal. */
  predicate Chosen(choice: string, value: string) {
    choice == "all" || value == choice
  }

  /** A row is listed when the search, the department choice and the type
      choice all accept it. */
  predicate Listed(x: Regulation, search: string, department: string, lawType: string) {
    PageSearchMatches(x, Lower(search)) && Chosen(department, x.department) && Chosen(lawType, x.lawType)
  }

  function ListedP(search: string, department: string, lawType: string): Regulation -> bool {
    (x: Regulation) => Listed(x, search, department, lawType)
  }

  /** `filteredRegulations`: nothing before the rows have loaded, then the
      listed rows in their order. */
  function Filtered(regs: Option<seq<Regulation>>, search: string, department: string, lawType: string)
    : (r: seq<Regulation>)
    ensures regs.None? ==> r == []
    ensures regs.Some? ==> IsSubseq(r, regs.value)
    ensures regs.Some? ==> forall x :: x in r <==> x in regs.value && Listed(x, search, department, lawType)
    ensures regs.Some? ==> Selects(r, regs.value, ListedP(search, department, lawType))
    ensures regs.Some? ==> |r| == Count(regs.value, ListedP(search, department, lawType))
  {
    if regs.None? then []
    else
      FilterSelects(regs.value, ListedP(search, department, lawType));
      FilterSubseq(regs.value, ListedP(search, department, lawType));
      FilterMembers(regs.value, ListedP(search, department, lawType));
      Filter(regs.value, ListedP(search, department, lawType))
  }

  /** Whatever the AI summary says, it neither lets a row in nor keeps it
      out of the list. */
  lemma {:induction false} SummaryNotSearched(x: Regulation, summary: string, search: string,
                                              department: string, lawType: string)
    ensures Listed(x.(aiSummary := summary), search, department, lawType) == Listed(x, search, department, lawType)
  {
  }

  /** A row the page lists is one the server's search returns too. */
  lemma {:induction false} PageSearchWithinServerSearch(regs: seq<Regulation>, search: string,
                                                        department: string, lawType: string)
    ensures forall x :: x in Filtered(Some(regs), search, department, lawType) ==>
      x in ExcelService.Search(regs, search)
  {
  }

  // ---------------------------------------------------------------------
  // Drop-down options

  function DepartmentOf(x: Regulation): string { x.department }
  function LawTypeOf(x: Regulation): string { x.lawType }

  /** The department options, in order of first appearance. */
  function UniqueDepartments(regs: Option<seq<Regulation>>): (r: seq<string>)
    ensures NoDups(r)
    ensures forall d :: d in r <==> regs.Some? && exists x :: x in regs.value && HasValue(x.department) && x.department == d
  {
    var values := if regs.Some? then Map(regs.value, DepartmentOf) else [];
    MapMembers(if regs.Some? then regs.value else [], DepartmentOf);
    UniqueNamed(values)
  }

  /** The type options, in order of first appearance. */
  function UniqueTypes(regs: Option<seq<Regulation>>): (r: seq<string>)
    ensures NoDups(r)
    ensures forall t :: t in r <==> regs.Some? && exists x :: x in regs.value && HasValue(x.lawType) && x.lawType == t
  {
    var values := if regs.Some? then Map(regs.value, LawTypeOf) else [];
    MapMembers(if regs.Some? then regs.value else [], LawTypeOf);
    UniqueNamed(values)
  }

  // ---------------------------------------------------------------------
  // Counts by law type

  datatype TypeStats = TypeStats(total: nat, laws: nat, decrees: nat, rules: nat)

  /** An act of the National Assembly. */
  predicate IsLaw(x: Regulation) { x.lawType == "법률" }

  /** A presidential decree. */
  predicate IsDecree(x: Regulation) { x.lawType == "대통령령" }

  /** An enforcement rule: its type mentions 규칙 or 시행규칙, or its name
      mentions 시행규칙 or ends in 규칙. */
  predicate IsRule(x: Regulation) {
    Contains(x.lawType, "규칙") || Contains(x.lawType, "시행규칙")
    || Contains(x.lawName, "시행규칙") || EndsWith(x.lawName, "규칙")
  }

  function IsLawP(): Regulation -> bool { (x: Regulation) => IsLaw(x) }
  function IsDecreeP(): Regulation -> bool { (x: Regulation) => IsDecree(x) }
  function IsRuleP(): Regulation -> bool { (x: Regulation) => IsRule(x) }
  function AnyP(): Regulation -> bool { (x: Regulation) => true }

  /** The type counts over all loaded rows, whatever the filters; zero
      before the rows have loaded. */
  function TypeStatistics(regs: Option<seq<Regulation>>): (s: TypeStats)
    ensures regs.None? ==> s == TypeStats(0, 0, 0, 0)
    ensures regs.Some? ==> s.total == |regs.value|
    ensures s.laws + s.decrees <= s.total && s.rules <= s.total
    ensures regs.Some? ==> s.laws == Count(regs.value, IsLawP()) && s.decrees == Count(regs.value, IsDecreeP())
    ensures regs.Some? ==> s.rules == Count(regs.value, IsRuleP())
  {
    if regs.None? then TypeStats(0, 0, 0, 0)
    else
      var rows := regs.value;
      CountDisjoint(rows, IsLawP(), IsDecreeP(), AnyP());
      FilterAll(rows, AnyP());
      TypeStats(|rows|, Count(rows, IsLawP()), Count(rows, IsDecreeP()), Count(rows, IsRuleP()))
  }

  /** For loaded rows, which all have a law name, the count of acts is the
      length of the list the page shows with an empty search and the type
      drop-down on 법률, and likewise for decrees and 대통령령. */
  lemma {:induction false} TypeCountsMatchTypeFilter(rows: seq<Regulation>)
    requires forall i :: 0 <= i < |rows| ==> rows[i].lawName != ""
    ensures TypeStatistics(Some(rows)).laws == |Filtered(Some(rows), "", "all", "법률")|
    ensures TypeStatistics(Some(rows)).decrees == |Filtered(Some(rows), "", "all", "대통령령")|
  {
    forall i | 0 <= i < |rows|
      ensures PageSearchMatches(rows[i], Lower(""))
    {
      ContainsAt(Lower(rows[i].lawName), "", 0);
    }
    FilterExt(rows, IsLawP(), ListedP("", "all", "법률"));
    FilterExt(rows, IsDecreeP(), ListedP("", "all", "대통령령"));
  }

  /** The test of the type for 시행규칙 adds nothing to its test for 규칙. */
  lemma {:induction false} RuleTestReduces(x: Regulation)
    ensures IsRule(x) <==> Contains(x.lawType, "규칙") || Contains(x.lawName, "시행규칙") || EndsWith(x.lawName, "규칙")
  {
    if Contains(x.lawType, "시행규칙") {
      EndsWithContains("시행규칙", "규칙");
      ContainsTrans(x.lawType, "시행규칙", "규칙");
    }
  }

  // ---------------------------------------------------------------------
  // Dates

  /** `formatKoreanDate`: `-` for a date without a value, a date with a
      dot as it is, and any other date in the Korean locale's format
      (`locale`, which the model does not compute). */
  function FormatKoreanDate(date: string, locale: string -> string): (r: string)
    ensures !HasValue(date) ==> r == "-"
    ensures HasValue(date) && '.' in date ==> r == date
    ensures HasValue(date) && '.' !in date ==> r == locale(date)
  {
    if !HasValue(date) then "-" else if '.' in date then date else locale(date)
  }

  /** A date shown with dots shows the same when formatted again. */
  lemma {:induction false} FormatStable(date: string, locale: string -> string)
    requires '.' in FormatKoreanDate(date, locale)
    ensures FormatKoreanDate(FormatKoreanDate(date, locale), locale) == FormatKoreanDate(date, locale)
  {
  }
}

=== FILE: routes.dfy ===
/** The HTTP endpoints of the server that read the regulation store: the
    list with its query filters, the detail lookup, the dashboard figures,
    and the conversion of an uploaded sheet. Each endpoint receives what the
    store's load produced: its rows, or the error it threw. */
module Routes {
  import opened Wrappers
  import opened Text
  import opened Seqs
  import opened Records
  import opened ExcelService
  import Keywords
  import DepartmentStats

  /** An HTTP answer: a body with status 200, or an error status with its
      message. */
  datatype Response<T> = Ok(body: T) | Status(code: nat, message: string)

  const ListError: string := "법규 목록을 가져오는 중 오류가 발생했습니다."
  const DetailError: string := "법규를 가져오는 중 오류가 발생했습니다."
  const NotFoundMessage: string := "법규를 찾을 수 없습니다."
  const StatsError: string := "대시보드 통계를 가져오는 중 오류가 발생했습니다."
  const MonthlyError: string := "한달 이내 개정 법규 현황을 가져오는 중 오류가 발생했습니다."
  const YearlyError: string := "연간 시행 예정 법규 현황을 가져오는 중 오류가 발생했습니다."

  /** The query parameters of `GET /api/regulations`; an absent parameter is
      the empty string. */
  datatype ListQuery = ListQuery(search: string, department: string, lawType: string)

  /** `GET /api/regulations`: one filter, the search before the department
      before the type; no parameter lists every row. */
  function ListRegulations(data: Result<seq<Regulation>, string>, q: ListQuery): (r: Response<seq<Regulation>>)
    ensures data.Failure? <==> r == Status(500, ListError)
    ensures data.Success? ==> r.Ok? && IsSubseq(r.body, data.value)
    ensures data.Success? && q.search != "" ==>
              (forall x :: x in r.body <==> x in data.value && SearchMatches(x, Lower(q.search)))
              && Selects(r.body, data.value, SearchP(q.search))
              && |r.body| == Count(data.value, SearchP(q.search))
    ensures data.Success? && q.search == "" && q.department != "" ==>
              (forall x :: x in r.body <==> x in data.value && CellMatches(x.department, Lower(q.department)))
              && Selects(r.body, data.value, FieldMatchP(DepartmentField, q.department))
              && |r.body| == Count(data.value, FieldMatchP(DepartmentField, q.department))
    ensures data.Success? && q.search == "" && q.department == "" && q.lawType != "" ==>
              (forall x :: x in r.body <==> x in data.value && CellMatches(x.lawType, Lower(q.lawType)))
              && Selects(r.body, data.value, FieldMatchP(LawTypeField, q.lawType))
              && |r.body| == Count(data.value, FieldMatchP(LawTypeField, q.lawType))
    ensures data.Success? && q.search == "" && q.department == "" && q.lawType == "" ==> r.body == data.value
  {
    match data
    case Failure(_) => Status(500, ListError)
    case Success(rows) =>
      if q.search != "" then
        SelectsSubseq(Search(rows, q.search), rows, SearchP(q.search));
        Ok(Search(rows, q.search))
      else if q.department != "" then
        SelectsSubseq(ByDepartment(rows, q.department), rows, FieldMatchP(DepartmentField, q.department));
        Ok(ByDepartment(rows, q.department))
      else if q.lawType != "" then
        SelectsSubseq(ByType(rows, q.lawType), rows, FieldMatchP(LawTypeField, q.lawType));
        Ok(ByType(rows, q.lawType))
      else
        IsSubseqRefl(rows);
        Ok(rows)
  }

  /** A search parameter overrides the other two. */
  lemma {:induction false} SearchOverridesFilters(data: seq<Regulation>, search: string, d1: string, t1: string, d2: string, t2: string)
    requires search != ""
    ensures ListRegulations(Success(data), ListQuery(search, d1, t1)) == ListRegulations(Success(data), ListQuery(search, d2, t2))
  {
  }

  /** `GET /api/regulations/:id`: the first row with that number, 404 when
      there is none. */
  function RegulationDetail(data: Result<seq<Regulation>, string>, id: string): (r: Response<Regulation>)
    ensures data.Failure? <==> r == Status(500, DetailError)
    ensures data.Success? ==>
              (r == Status(404, NotFoundMessage) <==> forall i :: 0 <= i < |data.value| ==> data.value[i].number != id)
    ensures r.Ok? ==> r.body in data.value && r.body.number == id
  {
    match data
    case Failure(_) => Status(500, DetailError)
    case Success(rows) =>
      match ById(rows, id)
      case None => Status(404, NotFoundMessage)
      case Some(x) => Ok(x)
  }

  // ---------------------------------------------------------------------
  // Dashboard figures

  /** A follow-up that names an action: present and not the no-action text. */
  predicate IsRiskItem(x: Regulation) {
    x.aiFollowUp != "" && x.aiFollowUp != NoAction
  }

  datatype DashboardStats = DashboardStats(totalRegulations: nat, totalDepartments: nat, riskItems: nat, yearlyAmendments: nat)

  /** `GET /api/dashboard/stats` */
  function Stats(data: Result<seq<Regulation>, string>): (r: Response<DashboardStats>)
    ensures data.Failure? <==> r == Status(500, StatsError)
    ensures data.Success? ==> r.Ok?
    ensures r.Ok? ==> r.body.totalRegulations == |data.value|
    ensures r.Ok? ==> r.body.totalDepartments == |Departments(data.value)|
    ensures r.Ok? ==> r.body.riskItems == Count(data.value, (x: Regulation) => IsRiskItem(x))
    ensures r.Ok? ==> r.body.yearlyAmendments == Count(data.value, DepartmentStats.YearlyP())
    ensures r.Ok? ==> r.body.riskItems <= r.body.totalRegulations && r.body.yearlyAmendments <= r.body.totalRegulations
  {
    match data
    case Failure(_) => Status(500, StatsError)
    case Success(rows) =>
      CountMono(rows, (x: Regulation) => IsRiskItem(x), (x: Regulation) => true);
      CountMono(rows, DepartmentStats.YearlyP(), (x: Regulation) => true);
      Ok(DashboardStats(|rows|, |Departments(rows)|,
                        Count(rows, (x: Regulation) => IsRiskItem(x)),
                        Count(rows, DepartmentStats.YearlyP())))
  }

  function NoFollowUpP(): Regulation -> bool {
    (x: Regulation) => x.aiFollowUp == ""
  }

  function NoActionP(): Regulation -> bool {
    (x: Regulation) => x.aiFollowUp == NoAction
  }

  function RiskP(): Regulation -> bool {
    (x: Regulation) => IsRiskItem(x)
  }

  /** Every row is a risk item, has no follow-up, or has the no-action text:
      the three counts add up to the number of rows. */
  lemma {:induction false} RiskItemsPartition(rows: seq<Regulation>)
    ensures Count(rows, RiskP()) + Count(rows, NoFollowUpP()) + Count(rows, NoActionP()) == |rows|
  {
    if |rows| > 0 {
      RiskItemsPartition(rows[1..]);
    }
  }

  /** One entry of the amendment lists: four fields of a row. */
  datatype Amendment = Amendment(name: string, lawType: string, effectiveDate: string, department: string)

  function ToAmendment(x: Regulation): Amendment {
    Amendment(x.lawName, x.lawType, x.effectiveDate, x.department)
  }

  /** The June test of `GET /api/dashboard/monthly-amendments` as written:
      the date mentions 2025 and contains `-06` anywhere. */
  predicate JuneAsWritten(x: Regulation) {
    HasValue(x.effectiveDate) && Contains(x.effectiveDate, Year) && Contains(x.effectiveDate, "-06")
  }

  function JuneAsWrittenP(): Regulation -> bool {
    (x: Regulation) => JuneAsWritten(x)
  }

  /** `GET /api/dashboard/monthly-amendments` as written: the amendment
      entries of exactly the rows the June test keeps, in sheet order; a
      failed load answers 500. */
  function MonthlyAmendmentsAsWritten(data: Result<seq<Regulation>, string>): (r: Response<seq<Amendment>>)
    ensures data.Failure? <==> r == Status(500, MonthlyError)
    ensures r.Ok? ==> |r.body| <= |data.value|
    ensures r.Ok? ==> forall a :: a in r.body <==> exists x :: x in data.value && JuneAsWritten(x) && a == ToAmendment(x)
    ensures r.Ok? ==> exists kept :: Selects(kept, data.value, JuneAsWrittenP()) && r.body == Map(kept, ToAmendment)
    ensures r.Ok? ==> |r.body| == Count(data.value, JuneAsWrittenP())
  {
    match data
    case Failure(_) => Status(500, MonthlyError)
    case Success(rows) =>
      MapFilterMembers(rows, JuneAsWrittenP(), ToAmendment);
      MapFilterSelects(rows, JuneAsWrittenP(), ToAmendment);
      Ok(Map(Filter(rows, JuneAsWrittenP()), ToAmendment))
  }

  /** The date "2025-01-06" is the sixth of January, yet the test takes it
      for a June date. */
  lemma JuneAsWrittenAcceptsJanuary(x: Regulation)
    requires x.effectiveDate == "2025-01-06"
    ensures JuneAsWritten(x)
    ensures !IsInMonth(x, 6)
    ensures Month2025(x.effectiveDate) == Some(1)
  {
    ContainsAt(x.effectiveDate, Year, 0);
    ContainsAt(x.effectiveDate, "-06", 7);
    Month2025Prefix("01", "-06");
  }

  /** The endpoint with the evidently intended June test: the month of the
      `2025-MM` date is 6. A failed load answers 500 as before. */
  function MonthlyAmendments(data: Result<seq<Regulation>, string>): (r: Response<seq<Amendment>>)
    ensures data.Failure? <==> r == Status(500, MonthlyError)
    ensures r.Ok? ==> |r.body| <= |data.value|
    ensures r.Ok? ==> forall a :: a in r.body <==> exists x :: x in data.value && IsInMonth(x, 6) && a == ToAmendment(x)
    ensures r.Ok? ==> exists kept :: Selects(kept, data.value, DepartmentStats.InMonthP(6)) && r.body == Map(kept, ToAmendment)
    ensures r.Ok? ==> |r.body| == Count(data.value, DepartmentStats.InMonthP(6))
  {
    match data
    case Failure(_) => Status(500, MonthlyError)
    case Success(rows) =>
      MapFilterMembers(rows, DepartmentStats.InMonthP(6), ToAmendment);
      MapFilterSelects(rows, DepartmentStats.InMonthP(6), ToAmendment);
      Ok(Map(Filter(rows, DepartmentStats.InMonthP(6)), ToAmendment))
  }

  /** Every row the corrected test keeps, the written one keeps too. */
  lemma {:induction false} JuneCorrectedWithinAsWritten(x: Regulation)
    requires IsInMonth(x, 6)
    ensures JuneAsWritten(x)
  {
    var s := x.effectiveDate;
    var i :| MonthAt(s, i) && 6 == MonthValueAt(s, i);
    JuneDigits(s, i);
    ContainsAt(s, "-06", i + 4);
  }

  lemma {:induction false} JuneDigits(s: string, i: int)
    requires MonthAt(s, i) && MonthValueAt(s, i) == 6
    ensures 0 <= i + 4 && i + 7 <= |s| && s[i + 4..i + 7] == "-06"
  {
    assert s[i..i + 5][4] == s[i + 4];
    assert s[i + 5] == '0' && s[i + 6] == '6';
  }

  datatype YearlyAmendments = YearlyAmendments(year: int, totalCount: nat, amendments: seq<Amendment>)

  /** `GET /api/dashboard/yearly-amendments` */
  function Yearly(data: Result<seq<Regulation>, string>): (r: Response<YearlyAmendments>)
    ensures data.Failure? <==> r == Status(500, YearlyError)
    ensures r.Ok? ==> r.body.year == 2025 && r.body.totalCount == |r.body.amendments|
    ensures r.Ok? ==> forall a :: a in r.body.amendments <==> exists x :: x in data.value && IsYearly(x) && a == ToAmendment(x)
    ensures r.Ok? ==> r.body.totalCount == Count(data.value, DepartmentStats.YearlyP())
    ensures r.Ok? ==> exists kept :: Selects(kept, data.value, DepartmentStats.YearlyP())
                                     && r.body.amendments == Map(kept, ToAmendment)
  {
    match data
    case Failure(_) => Status(500, YearlyError)
    case Success(rows) =>
      var list := Map(Filter(rows, DepartmentStats.YearlyP()), ToAmendment);
      MapFilterMembers(rows, DepartmentStats.YearlyP(), ToAmendment);
      MapFilterSelects(rows, DepartmentStats.YearlyP(), ToAmendment);
      Ok(YearlyAmendments(2025, |list|, list))
  }

  /** The count on the dashboard and the count of the yearly list agree. */
  lemma {:induction false} YearlyCountMatchesStats(rows: seq<Regulation>)
    ensures Yearly(Success(rows)).body.totalCount == Stats(Success(rows)).body.yearlyAmendments
  {
  }

  // ---------------------------------------------------------------------
  // Converting an uploaded sheet

  /** Cell `k` of a sheet row, the empty string past its end. */
  function Cell(row: seq<string>, k: nat): string {
    if k < |row| then row[k] else ""
  }

  /** A converted row. The effective date is the raw cell text: turning it
      into a date is not part of this model. */
  datatype Processed = Processed(id: nat, name: string, category: string, effectiveDate: string, department: string)

  const OtherCategory: string := "기타"

  /** The category rules by department, checked in order. */
  const DepartmentRules: seq<Keywords.Rule> := [
    Keywords.Rule("환경안전법", ["환경", "안전"]),
    Keywords.Rule("정보보호법", ["IT", "정보"]),
    Keywords.Rule("노동법", ["인사", "노무"])
  ]

  /** The category of a department: 환경/안전 first, then IT/정보, then
      인사/노무, otherwise 기타; no department is 기타. */
  function DepartmentCategory(department: string): (r: string)
    ensures r == Keywords.Classify(DepartmentRules, department, OtherCategory)
    ensures r in ["환경안전법", "정보보호법", "노동법", OtherCategory]
  {
    if department == "" then OtherCategory
    else Keywords.Classify(DepartmentRules, department, OtherCategory)
  }

  /** Column 5 (F, the law name) is present. */
  predicate HasLawName(row: seq<string>) {
    Cell(row, 5) != ""
  }

  function HasLawNameP(): seq<string> -> bool {
    row => HasLawName(row)
  }

  /** The data rows: every row after the header row. */
  function DataRows(data: seq<seq<string>>): seq<seq<string>> {
    if |data| == 0 then [] else data[1..]
  }

  /** The rows that are converted: every data row with a law name, in
      order, and no other row. */
  function ConvertedRows(data: seq<seq<string>>): (r: seq<seq<string>>)
    ensures IsSubseq(r, DataRows(data))
    ensures forall i :: 0 <= i < |r| ==> HasLawName(r[i])
    ensures forall row :: row in r <==> row in DataRows(data) && HasLawName(row)
    ensures Selects(r, DataRows(data), HasLawNameP())
  {
    FilterSubseq(DataRows(data), HasLawNameP());
    FilterMembers(DataRows(data), HasLawNameP());
    FilterSelects(DataRows(data), HasLawNameP());
    Filter(DataRows(data), HasLawNameP())
  }

  /** The `id`-th converted row: D is the effective date, F the law name, J
      the department. */
  function Convert(row: seq<string>, id: nat): Processed {
    Processed(id, Cell(row, 5), DepartmentCategory(Cell(row, 9)), Cell(row, 3), Cell(row, 9))
  }

  /** The rows numbered 1, 2, 3, ... and converted. */
  function Numbered(kept: seq<seq<string>>): (r: seq<Processed>)
    ensures |r| == |kept|
    ensures forall k :: 0 <= k < |r| ==> r[k] == Convert(kept[k], k + 1)
  {
    if |kept| == 0 then []
    else Numbered(kept[..|kept| - 1]) + [Convert(kept[|kept| - 1], |kept|)]
  }

  /** The converted rows carry the ids 1, 2, 3, ... and a law name each. */
  lemma {:induction false} ConvertedIds(data: seq<seq<string>>)
    ensures forall k :: 0 <= k < |Numbered(ConvertedRows(data))| ==>
              Numbered(ConvertedRows(data))[k].id == k + 1 && Numbered(ConvertedRows(data))[k].name != ""
  {
    var kept := ConvertedRows(data);
    var r := Numbered(kept);
    forall k | 0 <= k < |r|
      ensures r[k].id == k + 1 && r[k].name != ""
    {
      assert r[k] == Convert(kept[k], k + 1);
      assert HasLawName(kept[k]);
    }
  }

  /** `processExcelData`: the header row is skipped, rows without a law name
      are skipped, and the others are numbered 1, 2, 3, ... in order. */
  method ProcessExcelData(data: seq<seq<string>>) returns (r: seq<Processed>)
    ensures r == Numbered(ConvertedRows(data))
  {
    var kept := FilterWhere(DataRows(data), HasLawNameP());
    r := [];
    var i := 0;
    while i < |kept|
      invariant 0 <= i <= |kept|
      invariant r == Numbered(kept[..i])
    {
      assert kept[..i + 1][..i] == kept[..i];
      r := r + [Convert(kept[i], i + 1)];
      i := i + 1;
    }
    assert kept[..i] == kept;
  }
}

=== FILE: scheduler.dfy ===
/** The background jobs of the server: the once-a-minute check that starts
    the monthly job, the timers and their shutdown, and the two monthly
    mailers that send each department the regulations that concern it.
    The clock, the timers and the mail transport are parameters. */
module Scheduler {
  import opened Wrappers
  import opened Seqs
  import opened Text
  import opened Records
  import opened DepartmentStats

  // ---------------------------------------------------------------------
  // The monthly trigger

  /** The wall-clock reading the minute timer looks at. */
  datatype Tick = Tick(day: int, hour: int, minute: int)

  /** The monthly job runs on the first of the month at 9:00. */
  predicate MonthlyTrigger(t: Tick) {
    t.day == 1 && t.hour == 9 && t.minute == 0
  }

  function MonthlyTriggerP(): Tick -> bool {
    (t: Tick) => MonthlyTrigger(t)
  }

  /** The timer looks at the clock once a minute, so the readings of one
      month are distinct: the job runs at most once among them, and exactly
      once when the readings include 9:00 on the first. */
  lemma {:induction false} FiresAtMostOnce(ticks: seq<Tick>)
    requires NoDups(ticks)
    ensures Count(ticks, MonthlyTriggerP()) <= 1
    ensures Tick(1, 9, 0) in ticks ==> Count(ticks, MonthlyTriggerP()) == 1
  {
    FilterMembers(ticks, MonthlyTriggerP());
    if |ticks| > 0 {
      var t := ticks[1..];
      assert NoDups(t) by {
        forall i, j | 0 <= i < j < |t|
          ensures t[i] != t[j]
        {
          assert t[i] == ticks[i + 1] && t[j] == ticks[j + 1];
        }
      }
      FiresAtMostOnce(t);
      FilterMembers(t, MonthlyTriggerP());
      assert ticks == [ticks[0]] + t;
      FilterCons(ticks[0], t, MonthlyTriggerP());
      if MonthlyTrigger(ticks[0]) {
        forall x | x in t
          ensures !MonthlyTrigger(x)
        {
          var k :| 0 <= k < |t| && t[k] == x;
          assert ticks[k + 1] == x;
        }
        FilterNone(t, MonthlyTriggerP());
      }
    }
  }

  // ---------------------------------------------------------------------
  // Starting and stopping the timers

  /** The timers registered and not yet stopped, and the timers cleared. */
  datatype Timers = Timers(active: seq<nat>, cleared: set<nat>)

  /** A timer is running when it is registered and has not been cleared. */
  predicate Running(s: Timers, id: nat) {
    id in s.active && id !in s.cleared
  }

  /** `startSchedulers` registers the monthly timer and the notification
      timer, in that order, after those already registered. */
  function StartSchedulers(s: Timers, monthly: nat, notification: nat): (r: Timers)
    requires monthly !in s.cleared && notification !in s.cleared
    ensures Running(r, monthly) && Running(r, notification)
    ensures forall id :: Running(s, id) ==> Running(r, id)
    ensures |r.active| == |s.active| + 2
  {
    Timers(s.active + [monthly, notification], s.cleared)
  }

  /** `stopSchedulers` clears every registered timer and empties the list. */
  function StopSchedulers(s: Timers): (r: Timers)
    ensures r.active == []
    ensures forall id :: id in r.cleared <==> id in s.cleared || id in s.active
    ensures forall id :: !Running(r, id)
  {
    Timers([], s.cleared + set id | id in s.active)
  }

  /** Stopping after a start leaves neither new timer running, and stopping
      twice is stopping once. */
  lemma {:induction false} StopAfterStart(s: Timers, monthly: nat, notification: nat)
    requires monthly !in s.cleared && notification !in s.cleared
    ensures monthly in StopSchedulers(StartSchedulers(s, monthly, notification)).cleared
    ensures notification in StopSchedulers(StartSchedulers(s, monthly, notification)).cleared
    ensures StopSchedulers(StopSchedulers(s)) == StopSchedulers(s)
  {
    var t := StartSchedulers(s, monthly, notification);
    assert t.active[|s.active|] == monthly && t.active[|s.active| + 1] == notification;
  }

  // ---------------------------------------------------------------------
  // Sending one mail after another

  /** What one call of the mail transport does. */
  datatype SendOutcome = Delivered | NotDelivered | Threw(error: string)

  /** The items sent, in order, whether each was delivered, and the error
      that ended the loop early, if any. */
  datatype Run<T> = Run(attempted: seq<T>, delivered: seq<bool>, error: Option<string>)

  /** `for (const x of xs) { const ok = await send(x); ... }`: a send that
      reports failure does not stop the loop; a send that throws does. */
  function SendEach<T(==)>(xs: seq<T>, send: T -> SendOutcome): (r: Run<T>)
    ensures |r.attempted| == |r.delivered|
    ensures IsPrefix(r.attempted, xs)
    ensures r.error.None? <==> forall i :: 0 <= i < |xs| ==> !send(xs[i]).Threw?
    ensures r.error.None? ==> r.attempted == xs
    ensures r.error.Some? ==> |r.attempted| < |xs| && send(xs[|r.attempted|]) == Threw(r.error.value)
    ensures forall i :: 0 <= i < |r.attempted| ==> !send(xs[i]).Threw?
    ensures forall i :: 0 <= i < |r.attempted| ==> (r.delivered[i] <==> send(xs[i]) == Delivered)
  {
    if |xs| == 0 then Run([], [], None)
    else if send(xs[0]).Threw? then Run([], [], Some(send(xs[0]).error))
    else
      var rest := SendEach(xs[1..], send);
      Run([xs[0]] + rest.attempted, [send(xs[0]) == Delivered] + rest.delivered, rest.error)
  }

  // ---------------------------------------------------------------------
  // The custom mailer: chosen departments, the current month's regulations

  /** A department and the address its mail goes to. */
  datatype DeptEmail = DeptEmail(department: string, email: string)

  /** One regulation as the mail lists it: its name, type, effective date,
      enactment kind (`-` when missing), and the AI summary and follow-up
      when they say something. */
  datatype MailItem = MailItem(
    lawName: string,
    lawType: string,
    effectiveDate: string,
    kind: string,
    summary: Option<string>,
    followUp: Option<string>)

  /** A mail to one department. */
  datatype Mail = Mail(request: DeptEmail, subject: string, items: seq<MailItem>)

  /** The placeholder summary as the mailer spells it: with a backslash and
      an `n` where the pages have a line break. */
  const EscapedEmptySummary: string := "- [개정이유]: 없음\\n\\n- [주요내용]: 없음"

  /** The mailer's test for showing the AI summary, as written. */
  predicate ShowsSummaryAsWritten(r: Regulation) {
    r.aiSummary != "" && r.aiSummary != EscapedEmptySummary
  }

  /** The placeholder summary the sheet holds (with line breaks) passes the
      test as written, so the mail shows "nothing found" as a summary. */
  lemma {:induction false} PlaceholderSummaryShown(r: Regulation)
    requires r.aiSummary == EmptySummary
    ensures ShowsSummaryAsWritten(r)
    ensures !IsAnalyzed(r)
  {
    assert EmptySummary[12] == '\n' && EscapedEmptySummary[12] == '\\';
  }

  /** The test the pages apply: show the summary when it holds an analysis. */
  predicate ShowsSummary(r: Regulation) {
    r.aiSummary != "" && r.aiSummary != EmptySummary
  }

  /** The two tests differ only on the two spellings of the placeholder. */
  lemma {:induction false} ShowsSummaryCorrected(r: Regulation)
    ensures ShowsSummary(r) <==> IsAnalyzed(r)
    ensures r.aiSummary == EmptySummary ==> !ShowsSummary(r)
    ensures r.aiSummary != EmptySummary && r.aiSummary != EscapedEmptySummary ==>
              (ShowsSummary(r) <==> ShowsSummaryAsWritten(r))
  {
  }

  /** The item a regulation becomes in the mail, as the mailer builds it:
      the summary is shown unless it is empty or the escaped placeholder, so
      the placeholder the sheet actually holds is mailed as a summary. */
  function ItemOf(r: Regulation): (item: MailItem)
    ensures item.lawName == r.lawName && item.lawType == r.lawType && item.effectiveDate == r.effectiveDate
    ensures item.kind != ""
    ensures r.enactmentKind != "" ==> item.kind == r.enactmentKind
    ensures r.enactmentKind == "" ==> item.kind == "-"
    ensures item.summary.Some? <==> ShowsSummaryAsWritten(r)
    ensures item.summary.Some? ==> item.summary.value == r.aiSummary
    ensures item.followUp.Some? <==> r.aiFollowUp != "" && NeedsAction(r)
    ensures item.followUp.Some? ==> item.followUp.value == r.aiFollowUp
  {
    MailItemWith(r, ShowsSummaryAsWritten(r))
  }

  /** The item with the evidently intended summary test: shown exactly when
      the row holds an actual analysis, as on the pages. */
  function ItemOfCorrected(r: Regulation): (item: MailItem)
    ensures item.lawName == r.lawName && item.lawType == r.lawType && item.effectiveDate == r.effectiveDate
    ensures item.kind != ""
    ensures r.enactmentKind != "" ==> item.kind == r.enactmentKind
    ensures r.enactmentKind == "" ==> item.kind == "-"
    ensures item.summary.Some? <==> IsAnalyzed(r)
    ensures item.summary.Some? ==> item.summary.value == r.aiSummary
    ensures item.followUp.Some? <==> r.aiFollowUp != "" && NeedsAction(r)
    ensures item.followUp.Some? ==> item.followUp.value == r.aiFollowUp
  {
    MailItemWith(r, ShowsSummary(r))
  }

  /** The mail item of `r`, its summary shown when `show` holds. */
  function MailItemWith(r: Regulation, show: bool): MailItem {
    MailItem(r.lawName, r.lawType, r.effectiveDate,
             if r.enactmentKind != "" then r.enactmentKind else "-",
             if show then Some(r.aiSummary) else None,
             if r.aiFollowUp != "" && r.aiFollowUp != NoAction then Some(r.aiFollowUp) else None)
  }

  /** The mailed item and the intended one differ exactly for the two
      spellings of the placeholder: the one the sheet holds is mailed, the
      escaped one (which no page writes) is hidden. */
  lemma {:induction false} ItemsDifferOnPlaceholder(r: Regulation)
    ensures ItemOf(r) != ItemOfCorrected(r) <==> r.aiSummary == EmptySummary || r.aiSummary == EscapedEmptySummary
    ensures r.aiSummary == EmptySummary ==> ItemOf(r).summary == Some(EmptySummary) && ItemOfCorrected(r).summary.None?
  {
    assert EmptySummary != EscapedEmptySummary by {
      assert EmptySummary[12] == '\n' && EscapedEmptySummary[12] == '\\';
    }
  }

  /** `📋 {department} {month}월 시행 예정 법규 안내` */
  function MonthlySubject(department: string, month: int): (r: string)
    ensures StartsWith(r, "📋 ")
    ensures EndsWith(r, "월 시행 예정 법규 안내")
    ensures Contains(r, department)
  {
    var mid := department + " " + IntToString(month);
    var tail := "월 시행 예정 법규 안내";
    Framed("📋 ", mid, tail);
    ContainsConcat(department, " " + IntToString(month));
    assert mid == department + (" " + IntToString(month));
    ContainsTrans("📋 " + mid + tail, mid, department);
    "📋 " + mid + tail
  }

  /** Different departments get different subjects in the same month, and
      the same department gets different subjects in different months. */
  lemma {:induction false} SubjectDistinguishes(d1: string, d2: string, m1: nat, m2: nat)
    ensures d1 != d2 ==> MonthlySubject(d1, m1) != MonthlySubject(d2, m1)
    ensures m1 != m2 ==> MonthlySubject(d1, m1) != MonthlySubject(d1, m2)
  {
    var tail := "월 시행 예정 법규 안내";
    var s1, s2 := NatToString(m1), NatToString(m2);
    SubjectParts(d1, m1);
    SubjectParts(d2, m1);
    SubjectParts(d1, m2);
    if MonthlySubject(d1, m1) == MonthlySubject(d2, m1) {
      MiddleCancel("📋 ", d1, d2, " " + s1 + tail);
    }
    if MonthlySubject(d1, m1) == MonthlySubject(d1, m2) {
      MiddleCancel("📋 " + d1 + " ", s1, s2, tail);
      NatToStringInjective(m1, m2);
    }
  }

  /** The subject split around the department and around the month. */
  lemma {:induction false} SubjectParts(d: string, m: nat)
    ensures MonthlySubject(d, m) == "📋 " + d + (" " + NatToString(m) + "월 시행 예정 법규 안내")
    ensures MonthlySubject(d, m) == ("📋 " + d + " ") + NatToString(m) + "월 시행 예정 법규 안내"
  {
    var n, tail := NatToString(m), "월 시행 예정 법규 안내";
    assert IntToString(m) == n;
    assert "📋 " + (d + " " + n) + tail == "📋 " + d + (" " + n + tail);
    assert "📋 " + (d + " " + n) + tail == ("📋 " + d + " ") + n + tail;
  }

  /** The regulations the custom mailer draws from: a date with a value
      whose `2025-MM` match is the current month. Its separate test that the
      date mentions 2025 adds nothing to the match. */
  function CurrentMonthRows(regs: seq<Regulation>, month: int): (r: seq<Regulation>)
    ensures forall x :: x in r <==> x in regs && HasValue(x.effectiveDate) && Month2025(x.effectiveDate) == Some(month)
    ensures IsSubseq(r, regs)
    ensures Selects(r, regs, InMonthP(month))
    ensures |r| == Count(regs, InMonthP(month))
  {
    FilterSelects(regs, InMonthP(month));
    FilterMembers(regs, InMonthP(month));
    FilterSubseq(regs, InMonthP(month));
    forall x
      ensures IsInMonth(x, month) <==> HasValue(x.effectiveDate) && Month2025(x.effectiveDate) == Some(month)
    {
      InMonthWithoutYearTest(x, month);
    }
    Filter(regs, InMonthP(month))
  }

  /** A requested department has regulations this month. */
  function HasRowsP(current: seq<Regulation>): DeptEmail -> bool {
    (q: DeptEmail) => |DeptRows(current, q.department)| > 0
  }

  /** The mail for one requested department. */
  function MailFor(current: seq<Regulation>, month: int): DeptEmail -> Mail {
    (q: DeptEmail) => Mail(q, MonthlySubject(q.department, month), Map(DeptRows(current, q.department), ItemOf))
  }

  function RequestOf(m: Mail): DeptEmail {
    m.request
  }

  /** The mails the custom mailer sends: one per requested department that
      has regulations this month, in the order requested, listing exactly
      that department's regulations. */
  function CustomMails(current: seq<Regulation>, month: int, requests: seq<DeptEmail>): (r: seq<Mail>)
    ensures Map(r, RequestOf) == Filter(requests, HasRowsP(current))
    ensures forall q :: q in Map(r, RequestOf) <==> q in requests && exists x :: x in current && x.department == q.department
    ensures forall i :: 0 <= i < |r| ==> r[i].subject == MonthlySubject(r[i].request.department, month)
    ensures forall i :: 0 <= i < |r| ==>
              0 < |r[i].items| == |DeptRows(current, r[i].request.department)|
    ensures forall i :: 0 <= i < |r| ==> r[i].items == Map(DeptRows(current, r[i].request.department), ItemOf)
  {
    var r := Map(Filter(requests, HasRowsP(current)), MailFor(current, month));
    CustomMailsRequests(current, month, requests, r);
    CustomMailsContents(current, month, requests, r);
    r
  }

  /** The mails go to the requests that have rows, in the order requested. */
  lemma {:induction false} CustomMailsRequests(current: seq<Regulation>, month: int, requests: seq<DeptEmail>, r: seq<Mail>)
    requires r == Map(Filter(requests, HasRowsP(current)), MailFor(current, month))
    ensures Map(r, RequestOf) == Filter(requests, HasRowsP(current))
    ensures forall q :: q in Map(r, RequestOf) <==> q in requests && exists x :: x in current && x.department == q.department
  {
    var wanted := Filter(requests, HasRowsP(current));
    var m := Map(r, RequestOf);
    assert m == wanted by {
      assert forall i :: 0 <= i < |m| ==> m[i] == wanted[i];
    }
    FilterMembers(requests, HasRowsP(current));
    forall q | true
      ensures q in m <==> q in requests && exists x :: x in current && x.department == q.department
    {
      HasRowsIff(current, q);
    }
  }

  /** A department has rows this month exactly when some row of the month
      names it. */
  lemma {:induction false} HasRowsIff(current: seq<Regulation>, q: DeptEmail)
    ensures HasRowsP(current)(q) <==> exists x :: x in current && x.department == q.department
  {
    var rows := DeptRows(current, q.department);
    if |rows| > 0 {
      assert rows[0] in rows;
    }
  }

  /** Each mail has the monthly subject of its department and lists that
      department's rows of the month, at least one. */
  lemma {:induction false} CustomMailsContents(current: seq<Regulation>, month: int, requests: seq<DeptEmail>, r: seq<Mail>)
    requires r == Map(Filter(requests, HasRowsP(current)), MailFor(current, month))
    ensures forall i :: 0 <= i < |r| ==> r[i].subject == MonthlySubject(r[i].request.department, month)
    ensures forall i :: 0 <= i < |r| ==>
              0 < |r[i].items| == |DeptRows(current, r[i].request.department)|
    ensures forall i :: 0 <= i < |r| ==> r[i].items == Map(DeptRows(current, r[i].request.department), ItemOf)
  {
    var wanted := Filter(requests, HasRowsP(current));
    FilterMembers(requests, HasRowsP(current));
    forall i | 0 <= i < |r|
      ensures r[i].subject == MonthlySubject(r[i].request.department, month)
      ensures 0 < |r[i].items| == |DeptRows(current, r[i].request.department)|
      ensures r[i].items == Map(DeptRows(current, r[i].request.department), ItemOf)
    {
      var q := wanted[i];
      assert r[i] == MailFor(current, month)(q);
      assert q in wanted;
    }
  }

  /** `sendCustomMonthlyUpcomingRegulations`: a failed load, or a send that
      throws, is passed on to the caller; otherwise the result says, mail by
      mail, whether the transport delivered it. */
  function CustomMonthly(load: Result<seq<Regulation>, string>, month: int, requests: seq<DeptEmail>,
                         send: Mail -> SendOutcome): (r: Result<seq<bool>, string>)
    ensures load.Failure? ==> r == Failure(load.error)
    ensures load.Success? ==>
              var mails := CustomMails(CurrentMonthRows(load.value, month), month, requests);
              (r.Success? <==> forall i :: 0 <= i < |mails| ==> !send(mails[i]).Threw?)
    ensures load.Success? && r.Success? ==>
              var mails := CustomMails(CurrentMonthRows(load.value, month), month, requests);
              |r.value| == |mails| && forall i :: 0 <= i < |mails| ==> (r.value[i] <==> send(mails[i]) == Delivered)
  {
    if load.Failure? then Failure(load.error)
    else
      var run := SendEach(CustomMails(CurrentMonthRows(load.value, month), month, requests), send);
      if run.error.Some? then Failure(run.error.value) else Success(run.delivered)
  }

  // ---------------------------------------------------------------------
  // The default mailer: every department with upcoming regulations

  /** A department and its upcoming regulations. */
  datatype Group = Group(department: string, rows: seq<Regulation>)

  function GroupFor(upcoming: seq<Regulation>): string -> Group {
    d => Group(d, DeptRows(upcoming, d))
  }

  function GroupName(g: Group): string {
    g.department
  }

  /** One group per distinct named department of the upcoming regulations,
      in first-occurrence order, holding exactly that department's rows;
      no group is empty. */
  function Groups(upcoming: seq<Regulation>): (r: seq<Group>)
    ensures Map(r, GroupName) == DeptNames(upcoming)
    ensures NoDups(Map(r, GroupName))
    ensures forall d :: d in Map(r, GroupName) <==> exists x :: x in upcoming && HasDepartment(x) && x.department == d
    ensures forall i :: 0 <= i < |r| ==> r[i].rows == DeptRows(upcoming, r[i].department) && |r[i].rows| > 0
  {
    var names := DeptNames(upcoming);
    MapLeftInverse(names, GroupFor(upcoming), GroupName);
    forall d | d in names
      ensures |DeptRows(upcoming, d)| > 0
    {
      NamedDepartmentHasRows(upcoming, d);
    }
    Map(names, GroupFor(upcoming))
  }

  /** A department named by some row has at least that row. */
  lemma {:induction false} NamedDepartmentHasRows(upcoming: seq<Regulation>, d: string)
    requires d in DeptNames(upcoming)
    ensures |DeptRows(upcoming, d)| > 0
  {
    var x :| x in upcoming && HasDepartment(x) && x.department == d;
    FilterMembers(upcoming, DeptIs(d));
    assert x in DeptRows(upcoming, d);
  }

  /** `sendMonthlyUpcomingRegulations`: which regulations are upcoming is a
      date computation and comes in as a predicate. A department whose mail
      fails does not stop the others; a load failure or a send that throws
      ends the loop, and the error is logged and not passed on. */
  function DefaultMonthly(load: Result<seq<Regulation>, string>, upcoming: Regulation -> bool,
                          send: Group -> SendOutcome): (r: Run<Group>)
    ensures load.Failure? ==> r.attempted == [] && r.error == Some(load.error)
    ensures load.Success? ==> IsPrefix(r.attempted, Groups(Filter(load.value, upcoming)))
    ensures (load.Success? && forall i :: 0 <= i < |Groups(Filter(load.value, upcoming))| ==>
                                  !send(Groups(Filter(load.value, upcoming))[i]).Threw?) ==>
              r.attempted == Groups(Filter(load.value, upcoming)) && r.error.None?
    ensures |r.attempted| == |r.delivered|
    ensures forall i :: 0 <= i < |r.attempted| ==> (r.delivered[i] <==> send(r.attempted[i]) == Delivered)
  {
    if load.Failure? then Run([], [], Some(load.error))
    else
      SendEach(Groups(Filter(load.value, upcoming)), send)
  }
}

=== FILE: seqs.dfy ===
/** Generic sequence operations shared by every part of the model: the
    order-preserving filter behind JavaScript's `Array.prototype.filter`,
    counting, first-occurrence de-duplication (`Array.from(new Set(...))`)
    and the stable sort behind `Array.prototype.sort` with a numeric key. */
module Seqs {

  /** `a` occurs in `b` in order, possibly with gaps. */
  predicate IsSubseq<T(==)>(a: seq<T>, b: seq<T>)
    decreases |b|
  {
    if |a| == 0 then true
    else if |b| == 0 then false
    else if a[0] == b[0] then IsSubseq(a[1..], b[1..])
    else IsSubseq(a, b[1..])
  }

  /** Every sequence is a subsequence of itself. */
  lemma {:induction false} IsSubseqRefl<T>(s: seq<T>)
    ensures IsSubseq(s, s)
  {
    if |s| > 0 {
      IsSubseqRefl(s[1..]);
    }
  }

  predicate NoDups<T(==)>(s: seq<T>) {
    forall i, j :: 0 <= i < j < |s| ==> s[i] != s[j]
  }

  /** `Array.prototype.filter`: the elements of `s` that satisfy `p`, in order. */
  function Filter<T(==)>(s: seq<T>, p: T -> bool): (r: seq<T>)
    ensures |r| <= |s|
    ensures forall i :: 0 <= i < |r| ==> p(r[i])
  {
    if |s| == 0 then []
    else if p(s[0]) then [s[0]] + Filter(s[1..], p)
    else Filter(s[1..], p)
  }

  /** The filter keeps exactly the elements that satisfy `p`. */
  lemma {:induction false} FilterMembers<T>(s: seq<T>, p: T -> bool)
    ensures forall x :: x in Filter(s, p) <==> x in s && p(x)
  {
    if |s| > 0 {
      FilterMembers(s[1..], p);
      assert s == [s[0]] + s[1..];
    }
  }

  /** A filter that every element passes changes nothing. */
  lemma {:induction false} FilterAll<T>(s: seq<T>, p: T -> bool)
    requires forall i :: 0 <= i < |s| ==> p(s[i])
    ensures Filter(s, p) == s
  {
    if |s| > 0 {
      FilterAll(s[1..], p);
      assert s == [s[0]] + s[1..];
    }
  }

  /** The filter keeps the order of the elements it keeps. */
  lemma {:induction false} FilterSubseq<T>(s: seq<T>, p: T -> bool)
    ensures IsSubseq(Filter(s, p), s)
  {
    if |s| > 0 {
      FilterSubseq(s[1..], p);
      var f := Filter(s[1..], p);
      if p(s[0]) {
        assert ([s[0]] + f)[1..] == f;
      } else if |f| > 0 {
        assert p(f[0]);
      }
    }
  }

  /** `r` is what filtering `s` by `p` must give, said without `Filter`: the
      elements of `r` appear in `s` in the same order, and every element
      satisfying `p` occurs in `r` exactly as often as in `s`, every other
      element not at all. `SelectsUnique` shows only `Filter(s, p)` qualifies. */
  ghost predicate Selects<T(!new)>(r: seq<T>, s: seq<T>, p: T -> bool) {
    IsSubseq(r, s) && forall x :: multiset(r)[x] == if p(x) then multiset(s)[x] else 0
  }

  /** A selection is in particular a subsequence. */
  lemma {:induction false} SelectsSubseq<T(!new)>(r: seq<T>, s: seq<T>, p: T -> bool)
    requires Selects(r, s, p)
    ensures IsSubseq(r, s)
  {
  }

  /** A subsequence holds no more copies of anything than the whole. */
  lemma {:induction false} SubseqMultiset<T>(a: seq<T>, b: seq<T>)
    requires IsSubseq(a, b)
    ensures multiset(a) <= multiset(b)
    decreases |b|
  {
    if |a| > 0 {
      assert b == [b[0]] + b[1..];
      if a[0] == b[0] {
        SubseqMultiset(a[1..], b[1..]);
        assert a == [a[0]] + a[1..];
      } else {
        SubseqMultiset(a, b[1..]);
      }
    }
  }

  /** The filter keeps every copy of an element satisfying `p` and no copy
      of any other. */
  lemma {:induction false} FilterMultiset<T>(s: seq<T>, p: T -> bool)
    ensures forall x :: multiset(Filter(s, p))[x] == if p(x) then multiset(s)[x] else 0
  {
    if |s| > 0 {
      FilterMultiset(s[1..], p);
      assert s == [s[0]] + s[1..];
      FilterCons(s[0], s[1..], p);
    }
  }

  /** `Filter` meets its specification `Selects`. */
  lemma {:induction false} FilterSelects<T(!new)>(s: seq<T>, p: T -> bool)
    ensures Selects(Filter(s, p), s, p)
  {
    FilterSubseq(s, p);
    FilterMultiset(s, p);
  }

  /** `Selects` pins the result down: it can only be `Filter(s, p)`. */
  lemma {:induction false} SelectsUnique<T(!new)>(r: seq<T>, s: seq<T>, p: T -> bool)
    requires Selects(r, s, p)
    ensures r == Filter(s, p)
    decreases |s|
  {
    if |s| == 0 {
      assert forall x :: multiset(r)[x] == 0;
    } else {
      var t := s[1..];
      assert s == [s[0]] + t;
      assert multiset(s) == multiset{s[0]} + multiset(t);
      if |r| > 0 && r[0] == s[0] {
        assert r == [r[0]] + r[1..];
        assert multiset(r) == multiset{s[0]} + multiset(r[1..]);
        assert multiset(r)[s[0]] > 0;
        SelectsUnique(r[1..], t, p);
      } else {
        assert IsSubseq(r, t);
        SubseqMultiset(r, t);
        assert multiset(r)[s[0]] <= multiset(t)[s[0]] < multiset(s)[s[0]];
        forall x
          ensures multiset(r)[x] == if p(x) then multiset(t)[x] else 0
        {
          if p(x) {
            assert x != s[0];
          }
        }
        SelectsUnique(r, t, p);
      }
    }
  }

  /** A selection has as many elements as the filter counts. */
  lemma {:induction false} SelectsCount<T(!new)>(r: seq<T>, s: seq<T>, p: T -> bool)
    requires Selects(r, s, p)
    ensures |r| == Count(s, p)
  {
    SelectsUnique(r, s, p);
  }

  /** `s.filter(p).length` */
  function Count<T(==)>(s: seq<T>, p: T -> bool): nat {
    |Filter(s, p)|
  }

  /** `s.filter(p).length`, counted in one pass. */
  method CountWhere<T(==)>(s: seq<T>, p: T -> bool) returns (n: nat)
    ensures n == Count(s, p)
  {
    n := 0;
    var i := 0;
    while i < |s|
      invariant 0 <= i <= |s|
      invariant n == Count(s[..i], p)
    {
      assert s[..i + 1] == s[..i] + [s[i]];
      FilterConcat(s[..i], [s[i]], p);
      if p(s[i]) {
        n := n + 1;
      }
      i := i + 1;
    }
    assert s[..i] == s;
  }

  /** `s.filter(p)`, built in one pass. */
  method FilterWhere<T(==)>(s: seq<T>, p: T -> bool) returns (r: seq<T>)
    ensures r == Filter(s, p)
  {
    r := [];
    var i := 0;
    while i < |s|
      invariant 0 <= i <= |s|
      invariant r == Filter(s[..i], p)
    {
      assert Filter(s[..i + 1], p) == Filter(s[..i], p) + (if p(s[i]) then [s[i]] else []) by {
        assert s[..i + 1] == s[..i] + [s[i]];
        FilterSnoc(s[..i], s[i], p);
      }
      if p(s[i]) {
        r := r + [s[i]];
      }
      i := i + 1;
    }
    assert s[..i] == s;
  }

  function Not<T>(p: T -> bool): T -> bool {
    x => !p(x)
  }

  /** `Array.prototype.map` */
  function Map<T, U>(s: seq<T>, f: T -> U): (r: seq<U>)
    ensures |r| == |s|
    ensures forall i :: 0 <= i < |s| ==> r[i] == f(s[i])
  {
    if |s| == 0 then [] else [f(s[0])] + Map(s[1..], f)
  }

  /** The values of `f` on `s` are exactly the values it takes on some
      element of `s`. */
  lemma {:induction false} MapMembers<T, U>(s: seq<T>, f: T -> U)
    ensures forall y :: y in Map(s, f) <==> exists x :: x in s && f(x) == y
  {
    forall x | x in s
      ensures f(x) in Map(s, f)
    {
      var i :| 0 <= i < |s| && s[i] == x;
      assert Map(s, f)[i] == f(x);
    }
    forall y | y in Map(s, f)
      ensures exists x :: x in s && f(x) == y
    {
      var i :| 0 <= i < |s| && Map(s, f)[i] == y;
      assert s[i] in s;
    }
  }

  /** The values of `f` on the elements that satisfy `p` are exactly the
      values it takes on some element of `s` satisfying `p`. */
  lemma {:induction false} MapFilterMembers<T, U>(s: seq<T>, p: T -> bool, f: T -> U)
    ensures forall y :: y in Map(Filter(s, p), f) <==> exists x :: x in s && p(x) && f(x) == y
  {
    var named := Filter(s, p);
    FilterMembers(s, p);
    forall x | x in named
      ensures f(x) in Map(named, f)
    {
      var i :| 0 <= i < |named| && named[i] == x;
      assert Map(named, f)[i] == f(x);
    }
    forall y | y in Map(named, f)
      ensures exists x :: x in s && p(x) && f(x) == y
    {
      var i :| 0 <= i < |named| && Map(named, f)[i] == y;
      assert named[i] in named;
    }
  }

  /** `s.filter(p).map(f)` maps a selection of `s` by `p`, one value per
      element that satisfies `p`. */
  lemma {:induction false} MapFilterSelects<T(!new), U>(s: seq<T>, p: T -> bool, f: T -> U)
    ensures exists kept :: Selects(kept, s, p) && Map(Filter(s, p), f) == Map(kept, f)
    ensures |Map(Filter(s, p), f)| == Count(s, p)
  {
    FilterSelects(s, p);
  }

  /** Mapping distributes over concatenation. */
  lemma {:induction false} MapConcat<T, U>(a: seq<T>, b: seq<T>, f: T -> U)
    ensures Map(a + b, f) == Map(a, f) + Map(b, f)
  {
    var m := Map(a + b, f);
    assert forall i :: 0 <= i < |a| ==> m[i] == f(a[i]);
    assert forall i :: |a| <= i < |m| ==> m[i] == f(b[i - |a|]);
  }

  /** Mapping by `f` and then by a left inverse `g` of it gives back `s`. */
  lemma {:induction false} MapLeftInverse<T, U>(s: seq<T>, f: T -> U, g: U -> T)
    requires forall i :: 0 <= i < |s| ==> g(f(s[i])) == s[i]
    ensures Map(Map(s, f), g) == s
  {
    var m := Map(Map(s, f), g);
    assert forall i :: 0 <= i < |m| ==> m[i] == s[i];
  }

  /** `a` is the first `|a|` elements of `b`. */
  predicate IsPrefix<T(==)>(a: seq<T>, b: seq<T>) {
    |a| <= |b| && a == b[..|a|]
  }

  function Take<T(==)>(s: seq<T>, n: nat): (r: seq<T>)
    ensures |r| <= n && |r| <= |s|
    ensures |r| == if |s| < n then |s| else n
    ensures r == s[..|r|]
  {
    if |s| <= n then s else s[..n]
  }

  lemma {:induction false} FilterConcat<T>(a: seq<T>, b: seq<T>, p: T -> bool)
    ensures Filter(a + b, p) == Filter(a, p) + Filter(b, p)
  {
    if |a| == 0 {
      assert a + b == b;
    } else {
      assert (a + b)[0] == a[0];
      assert (a + b)[1..] == a[1..] + b;
      FilterConcat(a[1..], b, p);
    }
  }

  /** Filtering a sequence with one more element in front. */
  lemma {:induction false} FilterCons<T>(x: T, t: seq<T>, p: T -> bool)
    ensures Filter([x] + t, p) == (if p(x) then [x] else []) + Filter(t, p)
  {
    assert ([x] + t)[0] == x && ([x] + t)[1..] == t;
  }

  /** Filtering a sequence extended by one element. */
  lemma {:induction false} FilterSnoc<T>(s: seq<T>, x: T, p: T -> bool)
    ensures Filter(s + [x], p) == Filter(s, p) + (if p(x) then [x] else [])
  {
    FilterConcat(s, [x], p);
    assert Filter([x], p) == (if p(x) then [x] else []) by {
      assert [x][1..] == [];
    }
  }

  /** Two predicates that agree on every element of `s` filter it identically. */
  lemma {:induction false} FilterExt<T>(s: seq<T>, p: T -> bool, q: T -> bool)
    requires forall i :: 0 <= i < |s| ==> p(s[i]) == q(s[i])
    ensures Filter(s, p) == Filter(s, q)
  {
    if |s| > 0 {
      assert forall i :: 0 <= i < |s[1..]| ==> s[1..][i] == s[i + 1];
      FilterExt(s[1..], p, q);
    }
  }

  /** When no element satisfies `p`, the filter is empty. */
  lemma {:induction false} FilterNone<T>(s: seq<T>, p: T -> bool)
    requires forall i :: 0 <= i < |s| ==> !p(s[i])
    ensures Filter(s, p) == []
  {
    if |s| > 0 {
      assert forall i :: 0 <= i < |s[1..]| ==> s[1..][i] == s[i + 1];
      FilterNone(s[1..], p);
    }
  }

  /** Filtering twice is filtering once by the conjunction. */
  lemma {:induction false} FilterFilter<T>(s: seq<T>, p: T -> bool, q: T -> bool)
    ensures Filter(Filter(s, p), q) == Filter(s, x => p(x) && q(x))
  {
    if |s| > 0 {
      FilterFilter(s[1..], p, q);
    }
  }

  /** Filtering by `p` and then by `q` is filtering by any test that, on
      the elements of `s`, holds exactly when both do. */
  lemma {:induction false} FilterFilterAs<T>(s: seq<T>, p: T -> bool, q: T -> bool, both: T -> bool)
    requires forall i :: 0 <= i < |s| ==> both(s[i]) == (p(s[i]) && q(s[i]))
    ensures Filter(Filter(s, p), q) == Filter(s, both)
  {
    if |s| > 0 {
      assert forall i :: 0 <= i < |s[1..]| ==> s[1..][i] == s[i + 1];
      FilterFilterAs(s[1..], p, q, both);
    }
  }

  /** The elements that satisfy `p` and those that do not together make up `s`. */
  lemma {:induction false} CountComplement<T>(s: seq<T>, p: T -> bool)
    ensures Count(s, p) + Count(s, Not(p)) == |s|
  {
    if |s| > 0 {
      CountComplement(s[1..], p);
    }
  }

  /** Filtering by `p` keeps only elements that satisfy a weaker `q`, so it
      may as well filter the elements that satisfy `q`. */
  lemma {:induction false} FilterNarrower<T>(s: seq<T>, p: T -> bool, q: T -> bool)
    requires forall x :: p(x) ==> q(x)
    ensures Filter(s, p) == Filter(Filter(s, q), p)
    ensures forall x :: x in Filter(s, p) ==> x in Filter(s, q)
    ensures |Filter(s, p)| <= |Filter(s, q)|
  {
    if |s| > 0 {
      FilterNarrower(s[1..], p, q);
    }
  }

  /** A weaker predicate selects at least as many elements. */
  lemma {:induction false} CountMono<T>(s: seq<T>, p: T -> bool, q: T -> bool)
    requires forall i :: 0 <= i < |s| && p(s[i]) ==> q(s[i])
    ensures Count(s, p) <= Count(s, q)
  {
    if |s| > 0 {
      assert forall i :: 0 <= i < |s[1..]| ==> s[1..][i] == s[i + 1];
      CountMono(s[1..], p, q);
    }
  }

  /** Two predicates that never hold together and both imply `u` select, in
      total, no more elements than `u` does. */
  lemma {:induction false} CountDisjoint<T>(s: seq<T>, p: T -> bool, q: T -> bool, u: T -> bool)
    requires forall i :: 0 <= i < |s| ==> !(p(s[i]) && q(s[i]))
    requires forall i :: 0 <= i < |s| && (p(s[i]) || q(s[i])) ==> u(s[i])
    ensures Count(s, p) + Count(s, q) <= Count(s, u)
  {
    if |s| > 0 {
      assert forall i :: 0 <= i < |s[1..]| ==> s[1..][i] == s[i + 1];
      CountDisjoint(s[1..], p, q, u);
    }
  }

  /** Two predicates that never hold together and whose disjunction is `u`
      split the elements selected by `u` exactly. */
  lemma {:induction false} CountSplit<T>(s: seq<T>, p: T -> bool, q: T -> bool, u: T -> bool)
    requires forall i :: 0 <= i < |s| ==> !(p(s[i]) && q(s[i]))
    requires forall i :: 0 <= i < |s| ==> (p(s[i]) || q(s[i])) == u(s[i])
    ensures Count(s, p) + Count(s, q) == Count(s, u)
  {
    if |s| > 0 {
      assert forall i :: 0 <= i < |s[1..]| ==> s[1..][i] == s[i + 1];
      CountSplit(s[1..], p, q, u);
    }
  }

  // ---------------------------------------------------------------------
  // First-occurrence de-duplication: `Array.from(new Set(s))`.

  /** The elements whose key under `f` is `k`. */
  function HasKey<T, K(==)>(f: T -> K, k: K): T -> bool {
    x => f(x) == k
  }

  /** The elements whose key under `f` is one of `ks`. */
  function KeyAmong<T, K(==)>(f: T -> K, ks: seq<K>): T -> bool {
    x => f(x) in ks
  }

  /** The sizes of the classes of the keys `ks`, added up. */
  function SumClassCounts<T(==), K(==)>(s: seq<T>, f: T -> K, ks: seq<K>): nat {
    if |ks| == 0 then 0 else Count(s, HasKey(f, ks[0])) + SumClassCounts(s, f, ks[1..])
  }

  /** Distinct keys split the elements that have one of them. */
  lemma {:induction false} SumClassCountsPartition<T, K>(s: seq<T>, f: T -> K, ks: seq<K>)
    requires NoDups(ks)
    ensures SumClassCounts(s, f, ks) == Count(s, KeyAmong(f, ks))
  {
    if |ks| == 0 {
      FilterNone(s, KeyAmong(f, ks));
    } else {
      SumClassCountsPartition(s, f, ks[1..]);
      forall i | 0 <= i < |s|
        ensures (HasKey(f, ks[0])(s[i]) || KeyAmong(f, ks[1..])(s[i])) == KeyAmong(f, ks)(s[i])
      {
        assert ks == [ks[0]] + ks[1..];
      }
      CountSplit(s, HasKey(f, ks[0]), KeyAmong(f, ks[1..]), KeyAmong(f, ks));
    }
  }

  /** Index of the first occurrence of `x` in `s`. */
  function FirstIndex<T(==)>(s: seq<T>, x: T): (i: nat)
    requires x in s
    ensures i < |s| && s[i] == x
    ensures forall j :: 0 <= j < i ==> s[j] != x
  {
    if s[0] == x then 0 else 1 + FirstIndex(s[1..], x)
  }

  lemma {:induction false} FirstIndexPrefix<T>(s: seq<T>, k: nat, x: T)
    requires k <= |s| && x in s[..k]
    ensures FirstIndex(s, x) == FirstIndex(s[..k], x)
  {
    var i := FirstIndex(s[..k], x);
    var j := FirstIndex(s, x);
    assert s[..k][i] == s[i];
    assert j <= i;
    assert s[..k][j] == s[j];
  }

  /** The distinct elements of `s` in the order of their first occurrence,
      as a JavaScript `Set` enumerates them (see `DedupFirstOccurrence`). */
  function Dedup<T(==)>(s: seq<T>): (r: seq<T>)
    ensures NoDups(r)
    ensures forall i :: 0 <= i < |r| ==> r[i] in s
    ensures forall i :: 0 <= i < |s| ==> s[i] in r
  {
    if |s| == 0 then []
    else
      var n := |s| - 1;
      var d := Dedup(s[..n]);
      assert forall i :: 0 <= i < n ==> s[i] == s[..n][i];
      if s[n] in d then d else d + [s[n]]
  }

  /** Order by first occurrence in a filtered list is order by first
      occurrence in the whole list. */
  lemma {:induction false} FirstIndexOrder<T>(values: seq<T>, p: T -> bool, d: seq<T>)
    requires forall i :: 0 <= i < |d| ==> d[i] in Filter(values, p)
    requires forall i, j :: 0 <= i < j < |d| ==> FirstIndex(Filter(values, p), d[i]) < FirstIndex(Filter(values, p), d[j])
    ensures forall i :: 0 <= i < |d| ==> d[i] in values
    ensures forall i, j :: 0 <= i < j < |d| ==> FirstIndex(values, d[i]) < FirstIndex(values, d[j])
  {
    FilterMembers(values, p);
    forall i, j | 0 <= i < j < |d|
      ensures FirstIndex(values, d[i]) < FirstIndex(values, d[j])
    {
      FirstIndexFiltered(values, p, d[i], d[j]);
    }
  }

  /** First occurrences of two kept values come in the same order before
      and after filtering. */
  lemma {:induction false} FirstIndexFiltered<T>(values: seq<T>, p: T -> bool, a: T, b: T)
    requires a in Filter(values, p) && b in Filter(values, p)
    requires FirstIndex(Filter(values, p), a) < FirstIndex(Filter(values, p), b)
    ensures a in values && b in values
    ensures FirstIndex(values, a) < FirstIndex(values, b)
    decreases |values|
  {
    FilterMembers(values, p);
    var f := Filter(values, p);
    if values[0] != a && values[0] != b {
      var t := values[1..];
      assert f == if p(values[0]) then [values[0]] + Filter(t, p) else Filter(t, p);
      FilterMembers(t, p);
      if p(values[0]) {
        assert FirstIndex(f, a) == 1 + FirstIndex(Filter(t, p), a);
        assert FirstIndex(f, b) == 1 + FirstIndex(Filter(t, p), b);
      }
      FirstIndexFiltered(t, p, a, b);
    }
  }

  /** Removing repeats never lengthens a list. */
  lemma {:induction false} DedupShorter<T>(s: seq<T>)
    ensures |Dedup(s)| <= |s|
  {
    if |s| > 0 {
      DedupShorter(s[..|s| - 1]);
    }
  }

  /** `Dedup` lists the elements by increasing index of first occurrence. */
  lemma {:induction false} DedupFirstOccurrence<T>(s: seq<T>)
    ensures forall i, j :: 0 <= i < j < |Dedup(s)| ==> FirstIndex(s, Dedup(s)[i]) < FirstIndex(s, Dedup(s)[j])
  {
    if |s| > 0 {
      DedupFirstOccurrence(s[..|s| - 1]);
      DedupOrderStep(s);
    }
  }

  /** The step of `DedupFirstOccurrence`: an element met for the first time
      at the end goes after all the others. */
  lemma {:induction false} DedupOrderStep<T>(s: seq<T>)
    requires |s| > 0
    requires var t := s[..|s| - 1];
             forall i, j :: 0 <= i < j < |Dedup(t)| ==> FirstIndex(t, Dedup(t)[i]) < FirstIndex(t, Dedup(t)[j])
    ensures forall i, j :: 0 <= i < j < |Dedup(s)| ==> FirstIndex(s, Dedup(s)[i]) < FirstIndex(s, Dedup(s)[j])
  {
    var n := |s| - 1;
    var t := s[..n];
    var d := Dedup(t);
    var r := Dedup(s);
    assert r == if s[n] in d then d else d + [s[n]];
    forall i | 0 <= i < |d|
      ensures FirstIndex(s, d[i]) == FirstIndex(t, d[i]) < n
    {
      FirstIndexPrefix(s, n, d[i]);
    }
    if s[n] !in d {
      assert forall j :: 0 <= j < n ==> s[j] == t[j];
      assert forall j :: 0 <= j < n ==> s[j] != s[n];
      assert FirstIndex(s, s[n]) == n;
      forall i, j | 0 <= i < j < |r|
        ensures FirstIndex(s, r[i]) < FirstIndex(s, r[j])
      {
        assert r[i] == d[i];
      }
    }
  }

  // ---------------------------------------------------------------------
  // Stable sort by an integer key (ascending).

  predicate SortedByKey<T(==)>(s: seq<T>, key: T -> int) {
    forall i, j :: 0 <= i < j < |s| ==> key(s[i]) <= key(s[j])
  }

  /** The elements whose key is exactly `k`. */
  function KeyIs<T(==)>(key: T -> int, k: int): T -> bool {
    x => key(x) == k
  }

  /** Inserts `x` before the first element whose key is not smaller, so that
      `x` precedes the elements of equal key (it came before them). */
  function InsertByKey<T(==)>(x: T, s: seq<T>, key: T -> int): (r: seq<T>)
    requires SortedByKey(s, key)
    ensures SortedByKey(r, key)
    ensures multiset(r) == multiset(s) + multiset{x}
    ensures |r| == |s| + 1
    ensures r[0] == x || (|s| > 0 && r[0] == s[0])
  {
    if |s| == 0 || key(x) <= key(s[0]) then
      SortedConsKey(x, s, key);
      [x] + s
    else
      var t := InsertByKey(x, s[1..], key);
      assert s == [s[0]] + s[1..];
      SortedConsKey(s[0], t, key);
      [s[0]] + t
  }

  lemma {:induction false} SortedConsKey<T>(y: T, t: seq<T>, key: T -> int)
    requires SortedByKey(t, key)
    requires |t| > 0 ==> key(y) <= key(t[0])
    ensures SortedByKey([y] + t, key)
  {
    var r := [y] + t;
    forall i, j | 0 <= i < j < |r|
      ensures key(r[i]) <= key(r[j])
    {
      if i == 0 {
        assert r[j] == t[j - 1];
      } else {
        assert r[i] == t[i - 1] && r[j] == t[j - 1];
      }
    }
  }

  /** `Array.prototype.sort` with a comparator that compares the keys: a stable
      ascending sort. */
  function SortByKey<T(==)>(s: seq<T>, key: T -> int): (r: seq<T>)
    ensures SortedByKey(r, key)
    ensures multiset(r) == multiset(s)
    ensures |r| == |s|
  {
    if |s| == 0 then []
    else
      assert s == [s[0]] + s[1..];
      var r := InsertByKey(s[0], SortByKey(s[1..], key), key);
      assert |r| == |multiset(r)|;
      r
  }

  /** Sorting keeps exactly the elements it was given. */
  lemma {:induction false} SortByKeyMembers<T>(s: seq<T>, key: T -> int)
    ensures forall x :: x in SortByKey(s, key) <==> x in s
  {
    var r := SortByKey(s, key);
    forall x
      ensures x in r <==> x in s
    {
      assert x in r <==> x in multiset(r);
      assert x in s <==> x in multiset(s);
    }
  }

  /** Filtering the first `n` elements gives a prefix of filtering them all. */
  lemma {:induction false} FilterTakePrefix<T>(s: seq<T>, n: nat, p: T -> bool)
    ensures IsPrefix(Filter(Take(s, n), p), Filter(s, p))
  {
    var t := Take(s, n);
    assert s == t + s[|t|..];
    FilterConcat(t, s[|t|..], p);
  }

  /** The first `n` after sorting are elements of the input. */
  lemma {:induction false} SortedTakeMembers<T>(s: seq<T>, key: T -> int, n: nat)
    ensures forall x :: x in Take(SortByKey(s, key), n) ==> x in s
  {
    var all := SortByKey(s, key);
    SortByKeyMembers(s, key);
    forall x | x in Take(all, n)
      ensures x in s
    {
      var i :| 0 <= i < |Take(all, n)| && Take(all, n)[i] == x;
      assert x == all[i];
    }
  }

  /** The first `n` after sorting are sorted. */
  lemma {:induction false} SortedTakeSorted<T>(s: seq<T>, key: T -> int, n: nat)
    ensures SortedByKey(Take(SortByKey(s, key), n), key)
  {
    var all := SortByKey(s, key);
    var r := Take(all, n);
    assert forall i :: 0 <= i < |r| ==> r[i] == all[i];
  }

  /** An element left out of the first `n` after sorting has a key no
      smaller than any of theirs. */
  lemma {:induction false} SortedTakeBelow<T>(s: seq<T>, key: T -> int, n: nat, x: T)
    requires x in s && x !in Take(SortByKey(s, key), n)
    ensures forall i :: 0 <= i < |Take(SortByKey(s, key), n)| ==> key(Take(SortByKey(s, key), n)[i]) <= key(x)
  {
    var all := SortByKey(s, key);
    var r := Take(all, n);
    SortByKeyMembers(s, key);
    var j :| 0 <= j < |all| && all[j] == x;
    assert j >= |r|;
    forall i | 0 <= i < |r|
      ensures key(r[i]) <= key(x)
    {
      assert r[i] == all[i];
    }
  }

  lemma {:induction false} InsertByKeyStable<T>(x: T, s: seq<T>, key: T -> int, k: int)
    requires SortedByKey(s, key)
    ensures Filter(InsertByKey(x, s, key), KeyIs(key, k))
         == (if key(x) == k then [x] else []) + Filter(s, KeyIs(key, k))
  {
    var p := KeyIs(key, k);
    if |s| == 0 || key(x) <= key(s[0]) {
      assert InsertByKey(x, s, key) == [x] + s;
      FilterCons(x, s, p);
    } else {
      var t := InsertByKey(x, s[1..], key);
      assert InsertByKey(x, s, key) == [s[0]] + t;
      FilterCons(s[0], t, p);
      InsertByKeyStable(x, s[1..], key, k);
      assert s == [s[0]] + s[1..];
      FilterCons(s[0], s[1..], p);
      assert !(p(x) && p(s[0]));
    }
  }

  /** Stability: each class of equal keys keeps its original relative order. */
  lemma {:induction false} SortByKeyStable<T>(s: seq<T>, key: T -> int, k: int)
    ensures Filter(SortByKey(s, key), KeyIs(key, k)) == Filter(s, KeyIs(key, k))
  {
    if |s| > 0 {
      SortByKeyStable(s[1..], key, k);
      InsertByKeyStable(s[0], SortByKey(s[1..], key), key, k);
    }
  }

  /** The sort is stable for every key at once. */
  lemma {:induction false} SortByKeyStableAll<T>(s: seq<T>, key: T -> int)
    ensures forall k :: Filter(SortByKey(s, key), KeyIs(key, k)) == Filter(s, KeyIs(key, k))
  {
    forall k
      ensures Filter(SortByKey(s, key), KeyIs(key, k)) == Filter(s, KeyIs(key, k))
    {
      SortByKeyStable(s, key, k);
    }
  }

  /** The classes of keys `lo`, `lo+1`, ..., `hi`, one after the other, each in
      its order in `s`. */
  function Classes<T(==)>(s: seq<T>, key: T -> int, lo: int, hi: int): seq<T>
    decreases hi - lo + 1
  {
    if lo > hi then [] else Filter(s, KeyIs(key, lo)) + Classes(s, key, lo + 1, hi)
  }

  /** When each of the keys `lo` .. `lo+n-1` has exactly one element, the
      classes begin with those elements, one per key, in key order. */
  lemma {:induction false} FirstClasses<T>(s: seq<T>, key: T -> int, lo: int, hi: int, n: nat)
    requires lo + n <= hi + 1
    requires forall k :: lo <= k < lo + n ==> |Filter(s, KeyIs(key, k))| == 1
    ensures |Classes(s, key, lo, hi)| >= n
    ensures forall k :: 0 <= k < n ==> key(Classes(s, key, lo, hi)[k]) == lo + k
    decreases n
  {
    if n > 0 {
      FirstClasses(s, key, lo + 1, hi, n - 1);
      var f := Filter(s, KeyIs(key, lo));
      var c := Classes(s, key, lo + 1, hi);
      assert Classes(s, key, lo, hi) == f + c;
      assert KeyIs(key, lo)(f[0]);
      forall k | 1 <= k < n
        ensures key((f + c)[k]) == lo + k
      {
        assert (f + c)[k] == c[k - 1];
      }
    }
  }

  lemma {:induction false} ClassesSkip<T>(x: T, t: seq<T>, key: T -> int, lo: int, hi: int)
    requires key(x) < lo
    ensures Classes([x] + t, key, lo, hi) == Classes(t, key, lo, hi)
    decreases hi - lo + 1
  {
    if lo <= hi {
      FilterCons(x, t, KeyIs(key, lo));
      ClassesSkip(x, t, key, lo + 1, hi);
    }
  }

  lemma {:induction false} ClassesEmptyClass<T>(s: seq<T>, key: T -> int, lo: int, hi: int)
    requires lo <= hi
    requires forall i :: 0 <= i < |s| ==> key(s[i]) != lo
    ensures Classes(s, key, lo, hi) == Classes(s, key, lo + 1, hi)
  {
    FilterNone(s, KeyIs(key, lo));
  }

  lemma {:induction false} ClassesOfEmpty<T>(key: T -> int, lo: int, hi: int)
    ensures Classes([], key, lo, hi) == []
    decreases hi - lo + 1
  {
    if lo <= hi {
      ClassesOfEmpty(key, lo + 1, hi);
    }
  }

  lemma {:induction false} SortedTail<T>(r: seq<T>, key: T -> int, lo: int, hi: int)
    requires |r| > 0 && SortedByKey(r, key)
    requires forall i :: 0 <= i < |r| ==> lo <= key(r[i]) <= hi
    ensures SortedByKey(r[1..], key)
    ensures forall i :: 0 <= i < |r[1..]| ==> lo <= key(r[1..][i]) <= hi
  {
  }

  lemma {:induction false} SortedAbove<T>(r: seq<T>, key: T -> int, lo: int, hi: int)
    requires |r| > 0 && SortedByKey(r, key) && key(r[0]) != lo
    requires forall i :: 0 <= i < |r| ==> lo <= key(r[i]) <= hi
    ensures lo < hi
    ensures forall i :: 0 <= i < |r| ==> lo + 1 <= key(r[i]) <= hi
  {
  }

  /** A sequence sorted by key, with every key in `[lo, hi]`, is its own classes. */
  lemma {:induction false} SortedIsClasses<T>(r: seq<T>, key: T -> int, lo: int, hi: int)
    requires SortedByKey(r, key)
    requires forall i :: 0 <= i < |r| ==> lo <= key(r[i]) <= hi
    ensures r == Classes(r, key, lo, hi)
    decreases |r|, hi - lo
  {
    if |r| == 0 {
      ClassesOfEmpty(key, lo, hi);
    } else if key(r[0]) == lo {
      var t := r[1..];
      SortedTail(r, key, lo, hi);
      SortedIsClasses(t, key, lo, hi);
      ClassesHead(r[0], t, key, lo, hi);
      assert r == [r[0]] + t;
    } else {
      SortedAbove(r, key, lo, hi);
      ClassesEmptyClass(r, key, lo, hi);
      SortedIsClasses(r, key, lo + 1, hi);
    }
  }

  lemma {:induction false} ClassesHead<T>(x: T, t: seq<T>, key: T -> int, lo: int, hi: int)
    requires key(x) == lo && lo <= hi
    ensures Classes([x] + t, key, lo, hi) == [x] + Classes(t, key, lo, hi)
  {
    var p := KeyIs(key, lo);
    var ft := Filter(t, p);
    var ct := Classes(t, key, lo + 1, hi);
    assert Classes([x] + t, key, lo, hi) == Filter([x] + t, p) + Classes([x] + t, key, lo + 1, hi);
    assert Classes(t, key, lo, hi) == ft + ct;
    FilterCons(x, t, p);
    ClassesSkip(x, t, key, lo + 1, hi);
    assert ([x] + ft) + ct == [x] + (ft + ct);
  }

  lemma {:induction false} ClassesCongruent<T>(r: seq<T>, s: seq<T>, key: T -> int, lo: int, hi: int)
    requires forall k :: lo <= k <= hi ==> Filter(r, KeyIs(key, k)) == Filter(s, KeyIs(key, k))
    ensures Classes(r, key, lo, hi) == Classes(s, key, lo, hi)
    decreases hi - lo + 1
  {
    if lo <= hi {
      ClassesCongruent(r, s, key, lo + 1, hi);
    }
  }

  /** With keys confined to `[lo, hi]`, the stable sort lists the class of
      `lo` first, then the class of `lo + 1`, and so on, each class in its
      original order. */
  lemma {:induction false} SortByKeyIsClasses<T>(s: seq<T>, key: T -> int, lo: int, hi: int)
    requires forall i :: 0 <= i < |s| ==> lo <= key(s[i]) <= hi
    ensures SortByKey(s, key) == Classes(s, key, lo, hi)
  {
    var r := SortByKey(s, key);
    forall i | 0 <= i < |r|
      ensures lo <= key(r[i]) <= hi
    {
      assert r[i] in multiset(s);
      assert r[i] in s;
    }
    SortedIsClasses(r, key, lo, hi);
    forall k | lo <= k <= hi
      ensures Filter(r, KeyIs(key, k)) == Filter(s, KeyIs(key, k))
    {
      SortByKeyStable(s, key, k);
    }
    ClassesCongruent(r, s, key, lo, hi);
  }

  /** When exactly one element satisfies `p`, the filter is that element. */
  lemma {:induction false} FilterSingle<T>(s: seq<T>, p: T -> bool, j: int)
    requires 0 <= j < |s| && p(s[j])
    requires forall i :: 0 <= i < |s| && i != j ==> !p(s[i])
    ensures Filter(s, p) == [s[j]]
  {
    assert s == s[..j] + ([s[j]] + s[j + 1..]);
    FilterConcat(s[..j], [s[j]] + s[j + 1..], p);
    FilterConcat([s[j]], s[j + 1..], p);
    assert forall i :: 0 <= i < j ==> s[..j][i] == s[i];
    FilterNone(s[..j], p);
    var t := s[j + 1..];
    assert forall i :: 0 <= i < |t| ==> t[i] == s[j + 1 + i];
    FilterNone(t, p);
  }

  /** Two equal elements at different positions occur at least twice. */
  lemma {:induction false} MultiplicityTwo<T>(r: seq<T>, i: int, j: int)
    requires 0 <= i < j < |r| && r[i] == r[j]
    ensures multiset(r)[r[i]] >= 2
  {
    assert r == r[..i] + [r[i]] + r[i + 1..j] + [r[j]] + r[j + 1..];
  }

  /** In a sequence without repetition every element occurs once. */
  lemma {:induction false} NoDupsMultiplicity<T>(s: seq<T>, x: T)
    requires NoDups(s)
    ensures multiset(s)[x] <= 1
  {
    if |s| > 0 {
      assert s == [s[0]] + s[1..];
      NoDupsMultiplicity(s[1..], x);
      if s[0] == x {
        assert x !in s[1..];
      }
    }
  }

  /** A permutation of a sequence without repetition has none either. */
  lemma {:induction false} NoDupsPermutation<T>(s: seq<T>, r: seq<T>)
    requires NoDups(s) && multiset(r) == multiset(s)
    ensures NoDups(r)
  {
    forall i, j | 0 <= i < j < |r|
      ensures r[i] != r[j]
    {
      if r[i] == r[j] {
        MultiplicityTwo(r, i, j);
        NoDupsMultiplicity(s, r[i]);
      }
    }
  }

  /** Filtering keeps the images under `f` distinct when they were. */
  lemma {:induction false} FilterKeepsDistinct<T, U>(s: seq<T>, p: T -> bool, f: T -> U)
    ensures NoDups(Map(s, f)) ==> NoDups(Map(Filter(s, p), f))
  {
    if |s| > 0 && NoDups(Map(s, f)) {
      var t := s[1..];
      var ms := Map(s, f);
      assert NoDups(Map(t, f)) by {
        assert forall i :: 0 <= i < |t| ==> Map(t, f)[i] == ms[i + 1];
      }
      FilterKeepsDistinct(t, p, f);
      assert s == [s[0]] + t;
      FilterCons(s[0], t, p);
      if p(s[0]) {
        var ft := Filter(t, p);
        var mf := Map(ft, f);
        FilterMembers(t, p);
        forall i | 0 <= i < |ft|
          ensures mf[i] != f(s[0])
        {
          assert ft[i] in t;
          var j :| 0 <= j < |t| && t[j] == ft[i];
          assert ms[j + 1] == f(t[j]);
        }
        var m := Map([s[0]] + ft, f);
        assert forall i :: 0 < i < |m| ==> m[i] == mf[i - 1];
      }
    }
  }
}

=== FILE: server_index.dfy ===
/** The server's entry point: the one-line log of each API request, the
    response of the error handler, and the port it ends up listening on
    when ports are taken. Lengths are counted in characters. */
module ServerIndex {
  import opened Wrappers
  import opened Seqs
  import opened Text

  /** The longest log line written as it is. */
  const MaxLogLine := 80

  /** A line longer than 80 characters cut to its first 79 and `…`. */
  function Truncate(line: string): (r: string)
    ensures |r| <= MaxLogLine
    ensures |line| <= MaxLogLine ==> r == line
    ensures |line| > MaxLogLine ==> |r| == MaxLogLine && IsPrefix(r[..MaxLogLine - 1], line) && r[MaxLogLine - 1] == '…'
  {
    if |line| > MaxLogLine then line[..MaxLogLine - 1] + "…" else line
  }

  /** A cut line is not cut again. */
  lemma {:induction false} TruncateIdempotent(line: string)
    ensures Truncate(Truncate(line)) == Truncate(line)
  {
  }

  /** The fixed part of a request's log line: `METHOD path status in Nms`. */
  function LogHead(verb: string, path: string, status: nat, duration: nat): string {
    verb + " " + path + " " + NatToString(status) + " in " + NatToString(duration) + "ms"
  }

  /** The log line of a finished request to `path`, if it is logged: only
      paths under `/api`, with the JSON body when there is one (`json` is
      its text, `None` when the response had no body or a falsy one). */
  function RequestLog(verb: string, path: string, status: nat, duration: nat, json: Option<string>): (r: Option<string>)
    ensures r.Some? <==> StartsWith(path, "/api")
    ensures r.Some? ==> |r.value| <= MaxLogLine
    // The line begins with the method, path, status and duration ...
    ensures r.Some? && |LogHead(verb, path, status, duration)| < MaxLogLine ==>
              StartsWith(r.value, LogHead(verb, path, status, duration))
    // ... followed by nothing, or by ` :: ` and the JSON text, when it fits ...
    ensures r.Some? && json.None? && |LogHead(verb, path, status, duration)| <= MaxLogLine ==>
              r.value == LogHead(verb, path, status, duration)
    ensures r.Some? && json.Some? && |LogHead(verb, path, status, duration)| + 4 + |json.value| <= MaxLogLine ==>
              r.value == LogHead(verb, path, status, duration) + " :: " + json.value
    // ... and otherwise is cut to 79 characters and an ellipsis.
    ensures r.Some? && |LogHead(verb, path, status, duration)| + (if json.Some? then 4 + |json.value| else 0) > MaxLogLine ==>
              |r.value| == MaxLogLine && r.value[MaxLogLine - 1] == '…'
  {
    if !StartsWith(path, "/api") then None
    else
      var head := LogHead(verb, path, status, duration);
      var line := head + (if json.Some? then " :: " + json.value else "");
      TruncateKeepsHead(line, head);
      Some(Truncate(line))
  }

  /** A line that was not cut gives back the status, the duration and the
      body of the request it logs. */
  lemma {:induction false} RequestLogFields(verb: string, path: string,
                                            s1: nat, d1: nat, j1: Option<string>,
                                            s2: nat, d2: nat, j2: Option<string>)
    requires RequestLog(verb, path, s1, d1, j1) == RequestLog(verb, path, s2, d2, j2)
    requires RequestLog(verb, path, s1, d1, j1).Some?
    requires |RequestLog(verb, path, s1, d1, j1).value| < MaxLogLine
    ensures s1 == s2 && d1 == d2 && j1 == j2
  {
    var x1: string := if j1.Some? then " :: " + j1.value else "";
    var x2: string := if j2.Some? then " :: " + j2.value else "";
    var line := RequestLog(verb, path, s1, d1, j1).value;
    assert line == LogHead(verb, path, s1, d1) + x1;
    assert line == LogHead(verb, path, s2, d2) + x2;
    LogHeadFields(verb, path, s1, d1, x1, s2, d2, x2);
    assert j1.Some? ==> x1[4..] == j1.value;
    assert j2.Some? ==> x2[4..] == j2.value;
  }

  /** The status and duration are read back from the head of a line. */
  lemma {:induction false} LogHeadFields(verb: string, path: string,
                                         s1: nat, d1: nat, x1: string,
                                         s2: nat, d2: nat, x2: string)
    requires LogHead(verb, path, s1, d1) + x1 == LogHead(verb, path, s2, d2) + x2
    ensures s1 == s2 && d1 == d2 && x1 == x2
  {
    var pre := verb + " " + path + " ";
    var b1 := " in " + NatToString(d1) + "ms" + x1;
    var b2 := " in " + NatToString(d2) + "ms" + x2;
    LogHeadSplit(verb, path, s1, d1, x1);
    LogHeadSplit(verb, path, s2, d2, x2);
    CancelPrefix(pre, NatToString(s1) + b1, NatToString(s2) + b2);
    DigitRunsAgree(NatToString(s1), b1, NatToString(s2), b2);
    NatToStringInjective(s1, s2);
    var c1 := "ms" + x1;
    var c2 := "ms" + x2;
    assert b1 == " in " + (NatToString(d1) + c1);
    assert b2 == " in " + (NatToString(d2) + c2);
    CancelPrefix(" in ", NatToString(d1) + c1, NatToString(d2) + c2);
    DigitRunsAgree(NatToString(d1), c1, NatToString(d2), c2);
    NatToStringInjective(d1, d2);
    CancelPrefix("ms", x1, x2);
  }

  /** A head and what follows it, regrouped around the status. */
  lemma {:induction false} LogHeadSplit(verb: string, path: string, s: nat, d: nat, x: string)
    ensures LogHead(verb, path, s, d) + x
            == (verb + " " + path + " ") + (NatToString(s) + (" in " + NatToString(d) + "ms" + x))
  {
  }

  lemma {:induction false} CancelPrefix(p: string, u: string, v: string)
    requires p + u == p + v
    ensures u == v
  {
    assert u == (p + u)[|p|..];
    assert v == (p + v)[|p|..];
  }

  /** Two digit runs each followed by a non-digit split a string alike. */
  lemma {:induction false} DigitRunsAgree(a: string, x: string, b: string, y: string)
    requires AllDigits(a) && AllDigits(b)
    requires |x| > 0 && |y| > 0 && !IsDigit(x[0]) && !IsDigit(y[0])
    requires a + x == b + y
    ensures a == b && x == y
  {
    // The character after either run is not a digit, so neither run is
    // longer than the other.
    assert (a + x)[|a|] == x[0];
    assert (b + y)[|b|] == y[0];
    assert a == (a + x)[..|a|];
    assert b == (b + y)[..|b|];
    assert x == (a + x)[|a|..];
    assert y == (b + y)[|b|..];
  }

  /** Cutting a line keeps any beginning of it shorter than the cut. */
  lemma {:induction false} TruncateKeepsHead(line: string, head: string)
    requires StartsWith(line, head)
    ensures StartsWith(Truncate(line), head) || |head| >= MaxLogLine
  {
    if |line| > MaxLogLine && |head| < MaxLogLine {
      var r := Truncate(line);
      assert r[..|head|] == line[..MaxLogLine - 1][..|head|];
    }
  }

  /** The status the error handler answers with: `err.status`, else
      `err.statusCode`, else 500; a missing or zero code does not count. */
  function ErrorStatus(status: Option<int>, statusCode: Option<int>): (r: int)
    ensures r != 0
    ensures status.Some? && status.value != 0 ==> r == status.value
    ensures (status.None? || status.value == 0) && statusCode.Some? && statusCode.value != 0 ==> r == statusCode.value
    ensures (status.None? || status.value == 0) && (statusCode.None? || statusCode.value == 0) ==> r == 500
  {
    if status.Some? && status.value != 0 then status.value
    else if statusCode.Some? && statusCode.value != 0 then statusCode.value
    else 500
  }

  /** The message of the error response: `err.message`, else
      `Internal Server Error`. */
  function ErrorMessage(message: string): (r: string)
    ensures r != ""
    ensures message != "" ==> r == message
  {
    if message != "" then message else "Internal Server Error"
  }

  /** How one attempt to listen ends. */
  datatype ListenOutcome = Listening | AddressInUse | Failed(code: string)

  /** Where the server ends up: serving on a port, stopped by an error it
      throws, or still waiting on the attempt at a port. */
  datatype Served = Serving(port: int) | Thrown(code: string) | Waiting(port: int)

  /** `startServer(port)` with `outcomes` the ends of the successive
      attempts: a taken port moves on to the next one, any other error is
      thrown. */
  function StartServer(port: int, outcomes: seq<ListenOutcome>): (r: Served)
    ensures r.Serving? ==> exists k :: 0 <= k < |outcomes| && outcomes[k] == Listening && r.port == port + k
    ensures r.Waiting? ==> r.port == port + |outcomes|
    decreases |outcomes|
  {
    if |outcomes| == 0 then Waiting(port)
    else match outcomes[0]
      case Listening => Serving(port)
      case Failed(code) => Thrown(code)
      case AddressInUse =>
        var r := StartServer(port + 1, outcomes[1..]);
        if r.Serving? then
          var k :| 0 <= k < |outcomes[1..]| && outcomes[1..][k] == Listening && r.port == port + 1 + k;
          assert outcomes[k + 1] == Listening;
          r
        else r
  }

  /** The server listens on the first port whose attempt does not find it
      taken, counting up from the configured one, when that attempt
      succeeds. */
  lemma {:induction false} ServesAfterTakenPorts(port: int, outcomes: seq<ListenOutcome>, k: nat)
    requires k < |outcomes| && outcomes[k] == Listening
    requires forall i :: 0 <= i < k ==> outcomes[i] == AddressInUse
    ensures StartServer(port, outcomes) == Serving(port + k)
    decreases k
  {
    if k > 0 {
      ServesAfterTakenPorts(port + 1, outcomes[1..], k - 1);
    }
  }

  /** An error other than a taken port stops the retries and is thrown. */
  lemma {:induction false} OtherErrorThrown(port: int, outcomes: seq<ListenOutcome>, k: nat)
    requires k < |outcomes| && outcomes[k].Failed?
    requires forall i :: 0 <= i < k ==> outcomes[i] == AddressInUse
    ensures StartServer(port, outcomes) == Thrown(outcomes[k].code)
    decreases k
  {
    if k > 0 {
      OtherErrorThrown(port + 1, outcomes[1..], k - 1);
    }
  }
}

=== FILE: text.dfy ===
/** String operations of JavaScript used throughout the program, over
    strings as sequences of characters: `trim`, `replace(/\s/g, '')`,
    `toLowerCase`, `includes`, `startsWith`, `endsWith`, `join`/`split` and
    decimal rendering of numbers. */
module Text {
  import Seqs

  /** The characters JavaScript's `\s` and `String.prototype.trim` treat as
      white space: the WhiteSpace and LineTerminator productions of
      ECMAScript. */
  predicate IsSpace(c: char) {
    c == '\t' || c == '\n' || c == '\U{000B}' || c == '\U{000C}' || c == '\r' || c == ' '
    || c == '\U{00A0}' || c == '\U{1680}' || ('\U{2000}' <= c <= '\U{200A}')
    || c == '\U{2028}' || c == '\U{2029}' || c == '\U{202F}' || c == '\U{205F}'
    || c == '\U{3000}' || c == '\U{FEFF}'
  }

  function NotSpace(c: char): bool { !IsSpace(c) }

  /** Every character of `s` is white space. */
  predicate AllSpace(s: string) {
    forall i :: 0 <= i < |s| ==> IsSpace(s[i])
  }

  /** `s` without its leading white space. */
  function TrimStart(s: string): (r: string)
    ensures |r| <= |s| && r == s[|s| - |r|..]
    ensures |r| == 0 || !IsSpace(r[0])
  {
    if |s| > 0 && IsSpace(s[0]) then TrimStart(s[1..]) else s
  }

  /** What `TrimStart` drops is white space. */
  lemma {:induction false} TrimStartDropsSpace(s: string)
    ensures AllSpace(s[..|s| - |TrimStart(s)|])
    decreases |s|
  {
    if |s| > 0 && IsSpace(s[0]) {
      TrimStartDropsSpace(s[1..]);
      var k := |s| - |TrimStart(s)|;
      assert s[..k] == [s[0]] + s[1..][..k - 1];
    }
  }

  /** `s` without its trailing white space. */
  function TrimEnd(s: string): (r: string)
    ensures |r| <= |s| && r == s[..|r|]
    ensures |r| == 0 || !IsSpace(r[|r| - 1])
  {
    if |s| > 0 && IsSpace(s[|s| - 1]) then TrimEnd(s[..|s| - 1]) else s
  }

  /** What `TrimEnd` drops is white space. */
  lemma {:induction false} TrimEndDropsSpace(s: string)
    ensures AllSpace(s[|TrimEnd(s)|..])
    decreases |s|
  {
    if |s| > 0 && IsSpace(s[|s| - 1]) {
      TrimEndDropsSpace(s[..|s| - 1]);
      var k := |TrimEnd(s)|;
      assert s[k..] == s[..|s| - 1][k..] + [s[|s| - 1]];
    }
  }

  /** Leading white space is what `TrimStart` removes. */
  lemma {:induction false} TrimStartPadding(pad: string, t: string)
    requires AllSpace(pad) && (|t| == 0 || !IsSpace(t[0]))
    ensures TrimStart(pad + t) == t
    decreases |pad|
  {
    if |pad| > 0 {
      assert (pad + t)[1..] == pad[1..] + t;
      TrimStartPadding(pad[1..], t);
    } else {
      assert pad + t == t;
    }
  }

  /** Trailing white space is what `TrimEnd` removes. */
  lemma {:induction false} TrimEndPadding(t: string, pad: string)
    requires AllSpace(pad) && (|t| == 0 || !IsSpace(t[|t| - 1]))
    ensures TrimEnd(t + pad) == t
    decreases |pad|
  {
    if |pad| > 0 {
      assert (t + pad)[..|t + pad| - 1] == t + pad[..|pad| - 1];
      TrimEndPadding(t, pad[..|pad| - 1]);
    } else {
      assert t + pad == t;
    }
  }

  /** `String.prototype.trim`: a contiguous piece of `s` that neither starts
      nor ends with white space, and outside which `s` holds only white space. */
  function Trim(s: string): (r: string)
    ensures |r| <= |s|
    ensures exists k :: OccursAt(s, r, k) && AllSpace(s[..k]) && AllSpace(s[k + |r|..])
    ensures |r| == 0 || (!IsSpace(r[0]) && !IsSpace(r[|r| - 1]))
  {
    var a := TrimStart(s);
    var r := TrimEnd(a);
    TrimStartDropsSpace(s);
    TrimEndDropsSpace(a);
    TrimPieces(s, a, r);
    r
  }

  /** Trimming leaves nothing exactly when the text is all white space. */
  lemma {:induction false} TrimBlank(s: string)
    ensures Trim(s) == "" <==> AllSpace(s)
  {
    var r := Trim(s);
    var k :| OccursAt(s, r, k) && AllSpace(s[..k]) && AllSpace(s[k + |r|..]);
    if r == "" {
      assert s == s[..k] + s[k..];
      assert forall i :: 0 <= i < |s| ==> IsSpace(s[i]) by {
        forall i | 0 <= i < |s|
          ensures IsSpace(s[i])
        {
          if i < k {
            assert s[i] == s[..k][i];
          } else {
            assert s[i] == s[k..][i - k];
          }
        }
      }
    }
  }

  /** A prefix `r` of a suffix `a` of `s`, cut off only at white space, is
      a piece of `s` with white space on both sides; it starts as `a` does. */
  lemma {:induction false} TrimPieces(s: string, a: string, r: string)
    requires |a| <= |s| && a == s[|s| - |a|..] && AllSpace(s[..|s| - |a|])
    requires |r| <= |a| && r == a[..|r|] && AllSpace(a[|r|..])
    requires |a| == 0 || !IsSpace(a[0])
    requires |r| == 0 || !IsSpace(r[|r| - 1])
    ensures |r| == 0 || (!IsSpace(r[0]) && !IsSpace(r[|r| - 1]))
    ensures exists k :: OccursAt(s, r, k) && AllSpace(s[..k]) && AllSpace(s[k + |r|..])
  {
    var k := |s| - |a|;
    assert r == s[k..k + |r|];
    assert s[k + |r|..] == a[|r|..];
    assert OccursAt(s, r, k);
    assert |r| > 0 ==> r[0] == a[0];
  }

  /** `s.replace(/\s/g, '')`: the characters of `s` that are not white space. */
  function StripSpaces(s: string): (r: string)
    ensures |r| <= |s|
    ensures forall i :: 0 <= i < |r| ==> !IsSpace(r[i])
    ensures Seqs.IsSubseq(r, s)
    ensures forall i :: 0 <= i < |s| && !IsSpace(s[i]) ==> s[i] in r
    ensures Seqs.Selects(r, s, NotSpace)
  {
    Seqs.FilterSelects(s, NotSpace);
    Seqs.FilterSubseq(s, NotSpace);
    Seqs.FilterMembers(s, NotSpace);
    Seqs.Filter(s, NotSpace)
  }

  /** White space around a text adds nothing once white space is removed. */
  lemma {:induction false} StripSpacesPadded(pre: string, t: string, post: string)
    requires AllSpace(pre) && AllSpace(post)
    ensures StripSpaces(pre + t + post) == StripSpaces(t)
  {
    Seqs.FilterConcat(pre + t, post, NotSpace);
    Seqs.FilterConcat(pre, t, NotSpace);
    Seqs.FilterNone(pre, NotSpace);
    Seqs.FilterNone(post, NotSpace);
  }

  /** Trimming removes only white space: the other characters, in order,
      are those of the untrimmed text. */
  lemma {:induction false} TrimKeepsText(s: string)
    ensures StripSpaces(TrimEnd(TrimStart(s))) == StripSpaces(s)
  {
    var a := TrimStart(s);
    var r := TrimEnd(a);
    TrimStartDropsSpace(s);
    TrimEndDropsSpace(a);
    assert s == s[..|s| - |a|] + r + a[|r|..];
    StripSpacesPadded(s[..|s| - |a|], r, a[|r|..]);
  }

  /** Trimming a string with no white space at either end changes nothing. */
  lemma {:induction false} TrimTrimmed(s: string)
    requires |s| == 0 || (!IsSpace(s[0]) && !IsSpace(s[|s| - 1]))
    ensures Trim(s) == s
  {
  }

  // ---------------------------------------------------------------------
  // Case folding

  /** `toLowerCase` on one character; only the ASCII letters are folded. */
  function LowerChar(c: char): (r: char)
    ensures 'A' <= c <= 'Z' ==> r as int == c as int + 32
    ensures !('A' <= c <= 'Z') ==> r == c
    ensures !('A' <= r <= 'Z')
  {
    if 'A' <= c <= 'Z' then (c as int + 32) as char else c
  }

  function Lower(s: string): (r: string)
    ensures |r| == |s|
    ensures forall i :: 0 <= i < |s| ==> r[i] == LowerChar(s[i])
  {
    Seqs.Map(s, LowerChar)
  }

  /** Folding is idempotent. */
  lemma {:induction false} LowerIdempotent(s: string)
    ensures Lower(Lower(s)) == Lower(s)
  {
  }

  // ---------------------------------------------------------------------
  // Substrings

  /** `s.includes(t)` */
  predicate Contains(s: string, t: string) {
    exists i :: 0 <= i <= |s| - |t| && OccursAt(s, t, i)
  }

  /** `t` occurs in `s` starting at index `i`. */
  predicate OccursAt(s: string, t: string, i: int) {
    0 <= i <= |s| - |t| && s[i..i + |t|] == t
  }

  /** `s.startsWith(t)` */
  predicate StartsWith(s: string, t: string) {
    |t| <= |s| && s[..|t|] == t
  }

  /** `s.endsWith(t)` */
  predicate EndsWith(s: string, t: string) {
    |t| <= |s| && s[|s| - |t|..] == t
  }

  /** Containment of strings is transitive. */
  lemma {:induction false} ContainsTrans(s: string, u: string, t: string)
    requires Contains(s, u) && Contains(u, t)
    ensures Contains(s, t)
  {
    var i :| 0 <= i <= |s| - |u| && OccursAt(s, u, i);
    var j :| 0 <= j <= |u| - |t| && OccursAt(u, t, j);
    assert s[i..i + |u|] == u && u[j..j + |t|] == t;
    forall k | 0 <= k < |t|
      ensures s[i + j..i + j + |t|][k] == t[k]
    {
      assert s[i + j + k] == s[i..i + |u|][j + k] == u[j + k] == u[j..j + |t|][k];
    }
    assert OccursAt(s, t, i + j);
  }

  lemma {:induction false} ContainsAt(s: string, t: string, i: int)
    requires 0 <= i <= |s| - |t| && s[i..i + |t|] == t
    ensures Contains(s, t)
  {
    assert OccursAt(s, t, i);
  }

  lemma {:induction false} StartsWithContains(s: string, t: string)
    requires StartsWith(s, t)
    ensures Contains(s, t)
  {
    ContainsAt(s, t, 0);
  }

  lemma {:induction false} EndsWithContains(s: string, t: string)
    requires EndsWith(s, t)
    ensures Contains(s, t)
  {
    ContainsAt(s, t, |s| - |t|);
  }

  /** `w` occurs in `s` only if it occurs at its start or in its tail. */
  lemma {:induction false} NotContainedPastHead(s: string, w: string)
    requires |s| > 0 && !OccursAt(s, w, 0) && !Contains(s[1..], w)
    ensures !Contains(s, w)
  {
    if Contains(s, w) {
      var k :| 0 <= k <= |s| - |w| && OccursAt(s, w, k);
      assert s[1..][k - 1..k - 1 + |w|] == s[k..k + |w|];
      assert OccursAt(s[1..], w, k - 1);
    }
  }

  /** Equal strings with the same surroundings have equal middles. */
  lemma {:induction false} MiddleCancel(p: string, a: string, b: string, q: string)
    requires p + a + q == p + b + q
    ensures a == b
  {
    assert |a| == |b|;
    assert a == (p + a + q)[|p|..|p| + |a|];
    assert b == (p + b + q)[|p|..|p| + |b|];
  }

  /** A string framed by `a` and `c` starts with `a`, ends with `c` and
      contains what they frame. */
  lemma {:induction false} Framed(a: string, b: string, c: string)
    ensures StartsWith(a + b + c, a) && EndsWith(a + b + c, c) && Contains(a + b + c, b)
  {
    var s := a + b + c;
    assert s[..|a|] == a;
    assert s[|s| - |c|..] == c;
    assert s[|a|..|a| + |b|] == b;
    ContainsAt(s, b, |a|);
  }

  /** A string contains each piece of a concatenation. */
  lemma {:induction false} ContainsConcat(a: string, b: string)
    ensures Contains(a + b, a) && Contains(a + b, b)
  {
    assert (a + b)[..|a|] == a;
    ContainsAt(a + b, a, 0);
    assert (a + b)[|a|..|a| + |b|] == b;
    ContainsAt(a + b, b, |a|);
  }

  // ---------------------------------------------------------------------
  // Decimal numbers

  predicate IsDigit(c: char) { '0' <= c <= '9' }

  predicate AllDigits(s: string) {
    forall i :: 0 <= i < |s| ==> IsDigit(s[i])
  }

  function DigitChar(d: nat): (c: char)
    requires d < 10
    ensures IsDigit(c) && c as int - '0' as int == d
  {
    ('0' as int + d) as char
  }

  /** The value of a string of decimal digits, most significant first. */
  function DigitsValue(s: string): nat
    requires AllDigits(s)
  {
    if |s| == 0 then 0
    else 10 * DigitsValue(s[..|s| - 1]) + (s[|s| - 1] as int - '0' as int)
  }

  /** The decimal rendering of a natural number, as a template literal
      `${n}` prints it. */
  function NatToString(n: nat): (r: string)
    ensures |r| > 0 && AllDigits(r)
    ensures |r| > 1 ==> r[0] != '0'
  {
    if n < 10 then [DigitChar(n)] else NatToString(n / 10) + [DigitChar(n % 10)]
  }

  /** Reading back a rendered number gives the number. */
  lemma {:induction false} NatToStringValue(n: nat)
    ensures DigitsValue(NatToString(n)) == n
  {
    if n >= 10 {
      var r := NatToString(n);
      var p := NatToString(n / 10);
      assert r[..|r| - 1] == p;
      NatToStringValue(n / 10);
    }
  }

  /** Distinct numbers render differently. */
  lemma {:induction false} NatToStringInjective(m: nat, n: nat)
    requires NatToString(m) == NatToString(n)
    ensures m == n
  {
    NatToStringValue(m);
    NatToStringValue(n);
  }

  /** A signed integer: a minus sign before the magnitude when negative. */
  function IntToString(n: int): (r: string)
    ensures |r| > 0
    ensures n < 0 <==> r[0] == '-'
    ensures n < 0 ==> r[1..] == NatToString(-n)
    ensures n >= 0 ==> r == NatToString(n)
  {
    if n < 0 then "-" + NatToString(-n) else NatToString(n)
  }

  // ---------------------------------------------------------------------
  // join and split on one separator character

  /** `xs.join(sep)` */
  function Join(xs: seq<string>, sep: char): (r: string)
    ensures |xs| == 1 ==> r == xs[0]
  {
    if |xs| == 0 then ""
    else if |xs| == 1 then xs[0]
    else xs[0] + [sep] + Join(xs[1..], sep)
  }

  /** Index of the first `sep` in `s`, or `|s|` when there is none. */
  function IndexOf(s: string, sep: char): (i: nat)
    ensures i <= |s|
    ensures forall j :: 0 <= j < i ==> s[j] != sep
    ensures i < |s| ==> s[i] == sep
  {
    if |s| == 0 || s[0] == sep then 0 else 1 + IndexOf(s[1..], sep)
  }

  /** `s.split(sep)`: the pieces between the separators, never empty. */
  function Split(s: string, sep: char): (r: seq<string>)
    ensures |r| >= 1
    ensures forall k :: 0 <= k < |r| ==> sep !in r[k]
    decreases |s|
  {
    var i := IndexOf(s, sep);
    if i == |s| then [s]
    else [s[..i]] + Split(s[i + 1..], sep)
  }

  /** A character other than the separator that no piece holds is not in
      the joined text. */
  lemma {:induction false} JoinFree(xs: seq<string>, sep: char, c: char)
    requires c != sep && forall k :: 0 <= k < |xs| ==> c !in xs[k]
    ensures c !in Join(xs, sep)
  {
    if |xs| > 1 {
      JoinFree(xs[1..], sep, c);
    }
  }

  /** Joining pieces that do not contain the separator and splitting the
      result gives the pieces back. */
  lemma {:induction false} SplitJoin(xs: seq<string>, sep: char)
    requires |xs| >= 1
    requires forall k :: 0 <= k < |xs| ==> sep !in xs[k]
    ensures Split(Join(xs, sep), sep) == xs
  {
    if |xs| > 1 {
      SplitStep(xs[0], sep, Join(xs[1..], sep));
      SplitJoin(xs[1..], sep);
    }
  }

  /** Splitting stops at the first separator. */
  lemma {:induction false} SplitStep(a: string, sep: char, b: string)
    requires sep !in a
    ensures Split(a + [sep] + b, sep) == [a] + Split(b, sep)
  {
    var s := a + [sep] + b;
    IndexOfPrefix(a, sep, b);
    assert s[..|a|] == a;
    assert s[|a| + 1..] == b;
  }

  lemma {:induction false} IndexOfPrefix(a: string, sep: char, b: string)
    requires sep !in a
    ensures IndexOf(a + [sep] + b, sep) == |a|
  {
    if |a| > 0 {
      assert (a + [sep] + b)[1..] == a[1..] + [sep] + b;
      IndexOfPrefix(a[1..], sep, b);
    }
  }
}

=== FILE: wrappers.dfy ===
/** Optional values and results with an error, for lookups that may find
    nothing and operations that may throw. */
module Wrappers {

  datatype Option<T> = None | Some(value: T) {
    predicate IsSome() { this.Some? }
  }

  datatype Result<T, E> = Success(value: T) | Failure(error: E) {
    predicate IsSuccess() { this.Success? }
  }
}
